=== FILE: README.md ===
# Agentic tool servers and workflows, modelled in Dafny

This project models the core of a collection of small agent programs. Each one connects a language model to tools.

- **The MCP bridge** (`day10/bridgeserver.py`) is a JSON-RPC style HTTP entry point.
  - It validates an `invoke` request and calls each requested tool endpoint from a fixed registry.
  - It shows the tool results to the model ahead of the user's prompt and answers with both.
  - A second entry point (`/mcp1`) returns the tool results alone.
- **The tool endpoints** are:
  - a directory listing and a toy SQL endpoint (`day10/server.py`);
  - an inventory endpoint and the agent tools that read it (`day6/inventory_api.py`, `day6/sample4.py`);
  - a static HR server with an append-only shortlist (`day10/hr/hr_fake.py`);
  - a single-shot stdio JSON-RPC echo server (`day10/simple/mcp_server.py`).
- **The custom workflows** are:
  - a tool registry, step executor, plan normaliser and bounded ReAct loop (`day7/demo.py`);
  - the plan executors that find `Tool: name(arg)` in a plan and collect keyed observations (`day7/planningagent.py`, `day7/customExecutionSynthesis.py`);
  - a decision dispatcher over three tools (`day6/advanced.py`);
  - a two-step document agent (`day7/pdfai.py`);
  - a two-tool data pipeline (`day7/advanced/functionchaining.py`);
  - a four-turn, two-agent chatroom with a mock search tool (`day8/streamlit_chatroom.py`).

## How the model is built

Every program becomes pure functions over immutable data:

- JSON values are an ordered datatype (`Json.Json`).
  - An object is a sequence of key/value pairs.
  - Every value that comes from `json.loads`, from an HTTP response or from a Python function is `Json.Decoded`: no object, at any depth, holds a key twice, because a dict holds one entry per key. The oracles return the subset type `Json.Loaded`, and the members that print a decoded value require it.
  - `repr` and `json.dumps` write an object entry by entry, as a dict's items are.
  - A lookup finds the last pair with a key; in a decoded object that is the only one.
  - A dict built by the program compares its keys as Python does (`True == 1`): an insert overwrites in place, keeping the first key object, or appends.
- `json.dumps` is implemented (`JsonEncode`), in its compact form and its indented form, with `ensure_ascii` escaping.
- The outside world is a parameter:
  - the HTTP client (`Web.Post`, per-module `HttpGet` and tool oracles);
  - the model server and the LangChain chains (functions from prompt to reply);
  - the file system and directory listings;
  - the SQL database;
  - `json.loads`;
  - the random choice of the first chatroom speaker.
- Python's exceptions become `Result` failures carrying the exception text.
  - A handler that catches them becomes the branch that turns that text into the reply.
  - An exception nothing catches becomes a failure of the operation: an HTTP 500 `ServerFault`, a `Crash`, or a `Failure`.

Modules:

- `Wrappers`, `Strings`, `Json`, `JsonEncode`, `PyRepr`, `Kwargs` and `Web` are shared vocabulary.
  - `Strings` covers Python's `strip`, `split`, `join`, `lower`, `upper` and `in`.
  - `PyRepr` covers `str()` and `repr()` of JSON values.
  - `Kwargs` covers `f(**kwargs)` binding.
- `Bridge`, `ToolServer`, `Inventory`, `HrStatic`, `StdioServer`, `AgentWorkflow`, `PlanExecution`, `AdvancedAgent`, `PdfAgent`, `DataPipeline` and `Chatroom` model one program each.

## Model

| member | source | states |
|---|---|---|
| Bridge.Resolve | day10/bridgeserver.py:14-19 | Exactly the three registered names resolve, each to its fixed endpoint; any other value, non-strings included, resolves to nothing |
| Bridge.Validate | day10/bridgeserver.py:21-25 | Params are accepted iff they are a mapping with a string `prompt` and an optional string `model`, list `tools` and dict `tool_inputs`; the accepted prompt is the one sent |
| Bridge.MissingPromptRejected | day10/bridgeserver.py:21-39 | A params value without a string `prompt` never validates |
| Bridge.Receive | day10/bridgeserver.py:33-39 | A validation failure answers with `invalid params: ` and the request's own id; a body that is not an object is a server fault; otherwise acceptance is exactly validation |
| Bridge.ModelName | day10/bridgeserver.py:41 | A missing or empty model name falls back to `llama3`; any other is used as given |
| Bridge.ToolRequest | day10/bridgeserver.py:55-60 | A tool is called at its endpoint: GET when `httpmethod` is `get`, otherwise POST of `tool_inputs.get(name, {})` with a 30 s timeout |
| Bridge.InvokeTool | day10/bridgeserver.py:50-64 | An unregistered name gets the `tool not registered` entry and no request; a registered one gets the response body, or an error object with the exception text |
| Bridge.KeysOfRequestStore | day10/bridgeserver.py:49-64 | One more pass of the loop keeps the keys exactly the requested names, pairwise unequal, each the first requested object of its class |
| Bridge.HashOf | day10/bridgeserver.py:46-64 | A name is unhashable exactly when it is a list or an object; `true`/`false` compare as `1`/`0` |
| Bridge.StoreKeys | day10/bridgeserver.py:52-64 | `tool_results[name] = entry` adds the name's class to the keys and no other, keeps the keys pairwise unequal, and introduces no key object but the stored one |
| Bridge.StoreFind | day10/bridgeserver.py:52-64 | After `tool_results[name] = entry` the name finds that entry, and a key of any other class finds what it found before |
| Bridge.ToolPhaseFault | day10/bridgeserver.py:49-52 | The tool loop aborts the request exactly when some requested name is unhashable (a list or a dict) |
| Bridge.ToolPhaseKeys | day10/bridgeserver.py:46-64 | Completeness: the keys of `tool_results` are the requested names, each once as Python compares them (`True == 1`), whatever the calls returned; each key is the first requested name of its class |
| Bridge.ToolPhaseEntries | day10/bridgeserver.py:49-64 | Isolation and last-write-wins: each name's entry is its own call's outcome, and for a repeated name, or one equal to it such as `1` after `true`, the last call's entry is kept |
| Bridge.ToolPhase | day10/bridgeserver.py:49-64 | Every entry of `tool_results` is a decoded response body or an error object, so no entry holds a key twice |
| Bridge.TrueAndOneShareAKey | day10/bridgeserver.py:46-71 | Requesting `[true, 1]` leaves one key, written `"true"`, holding the second name's entry |
| Bridge.OneAndStringOneKeptApart | day10/bridgeserver.py:46-71 | Requesting `[1, "1"]` leaves two keys that `json.dumps` writes with the same text `"1"` |
| Bridge.StringResults | day10/bridgeserver.py:46-64 | With string names only, the sent `tool_results` object holds exactly the requested names, each with its last call's entry |
| Bridge.ToolPhaseCalls | day10/bridgeserver.py:49-60 | One request per registered name, in request order, and none for an unregistered name |
| Bridge.Augment | day10/bridgeserver.py:68-75 | No results leave the prompt unchanged; otherwise the text is exactly the preamble, the indented dump of the results (whose values are decoded dicts, each key once), a blank line, the closing request and the prompt |
| Bridge.TwoDistinctNames | day10/bridgeserver.py:46-64 | Two hashable names that Python keeps apart leave two entries, each under its own key object, in request order |
| Bridge.ModelRequest | day10/bridgeserver.py:77-84 | The generate request goes to `/api/generate`, non-streaming, with a 300 s timeout, using the resolved model and a prompt ending with the user's prompt |
| Bridge.Answer | day10/bridgeserver.py:83-98 | A model failure is request-fatal and drops the tool results; success answers with exactly `tool_results` then `model_response`, under the request id |
| Bridge.ToJson | day10/bridgeserver.py:88-98 | Every envelope is `jsonrpc`, `id` and then exactly one of `result` or `error` |
| Bridge.Handle | day10/bridgeserver.py:27-98 | A failed validation calls nothing; otherwise the tools are called first, then the model once, unless a tool name faulted; the id is echoed |
| Bridge.HandleSuccess | day10/bridgeserver.py:46-98 | For string tool names, the model is called, the answer's `tool_results` holds exactly the requested names, each with its own last call's entry, and the tool requests are exactly the expected ones |
| Bridge.HandleToolsOnly | day10/bridgeserver.py:102-147 | `/mcp1` never calls the model; a failed validation calls nothing and answers as `/mcp` does; otherwise it makes the tool phase's calls, faults exactly when the phase does, and answers with the phase's `tool_results` alone under the request id |
| Bridge.ToolsOnlyMatchesHandle | day10/bridgeserver.py:102-147 | `/mcp1` makes exactly the tool calls `/mcp` makes, faults exactly when it does, and when `/mcp` answers, sends the same `tool_results` under the same id |
| ToolServer.DbQuery | day10/server.py:23-41 | A query reply is either 200 with the two fixed rows or 400 `unsupported or unsafe query` |
| ToolServer.DbQueryAcceptsSelect | day10/server.py:31-41 | A query is served iff its lower-cased text contains `select`; every other query is refused with 400 |
| ToolServer.DbQueryIgnoresCase | day10/server.py:31 | Under the ASCII case mapping, upper-casing a query never changes the reply |
| ToolServer.DbQueryMissingSql | day10/server.py:30-41 | No body, or a body without `sql`, is refused rather than served |
| ToolServer.Entries | day10/server.py:18 | One `{name, is_dir}` entry per listed name, in listing order |
| ToolServer.ListFiles | day10/server.py:8-21 | A listing answers 200 or 400, and a 400 carries exactly `ok` and `error` |
| ToolServer.ListFilesDefaultPath | day10/server.py:14-15 | Without a body, or without `path`, the current directory is listed |
| ToolServer.ListFilesOutcome | day10/server.py:16-21 | For a string path, success lists the directory's entries in order; a failing listing is a 400 with its message |
| Inventory.GetInventory | day6/inventory_api.py:13-33 | The status is 200 iff the product id is in the inventory, and 404 otherwise |
| Inventory.KnownProduct | day6/inventory_api.py:29-33 | A known product, stocked or not, reports `success`, its own id and its stock level |
| Inventory.UnknownProduct | day6/inventory_api.py:19-26 | An unknown product reports `error`, `Product ID not found.` and its own id |
| Inventory.LookupExact | day6/inventory_api.py:6-19 | An out-of-stock product is still found, and a differently cased id is not |
| Inventory.CheckInventory | day6/sample4.py:8-30 | A failed request, and an HTTP error status, both come back as the connection-failure text with the error detail |
| Inventory.Interpret | day6/sample4.py:21-27 | A `success` body reports the stock; an `error` body reports its message, or `Unknown error.` when it has none; any other status reports the whole decoded dict, each key once, as unexpected data |
| Inventory.UnexpectedDataPrinted | day6/sample4.py:27 | A body with neither status is printed as its dict: `{'a': 2}` |
| PyRepr.ReprChar | day6/sample4.py:27 | `repr` keeps a printable character other than the quote and the backslash as it is, and escapes every other character with an ASCII sequence: by name, or as `\x`, `\u` or `\U` hex by its size |
| PyRepr.ReprBodyPrintable | day6/sample4.py:27 | What `repr` writes for a string is always printable |
| PyRepr.ReprBodyPlain | day6/sample4.py:27 | Text without unprintable characters, backslashes or the quote is written unchanged |
| PyRepr.NoBreakSpaceEscaped | day6/sample4.py:27 | A no-break space inside a printed dict value is written `\xa0` |
| Inventory.CheckAgainstEndpoint | day6/sample4.py:13-30 | Against the real endpoint, a known product reports its stock, and an unknown one is reported as a connection failure (its 404 raises) |
| Inventory.ShippingRule | day6/sample4.py:37-43 | The UK rates apply iff the destination contains `UK`; every other destination gets the standard rates |
| Inventory.ShippingCaseSensitive | day6/sample4.py:40 | `london, uk` pays the standard rates, while `London, UK` pays the UK rates |
| HrStatic.ReadResume | day10/hr/hr_fake.py:20-23 | An unknown file name reads `Error: File not found.` |
| HrStatic.ReadListed | day10/hr/hr_fake.py:7-23 | Each listed name reads its own resume, and the fallback text appears iff the name is not listed |
| HrStatic.Step | day10/hr/hr_fake.py:15-32 | Only the shortlist call changes the state, and the listing is the two resume names in order |
| HrStatic.Run | day10/hr/hr_fake.py:15-32 | A session answers each call with exactly one reply |
| HrStatic.ShortlistAppendOnly | day10/hr/hr_fake.py:25-29 | After any session, the shortlist is the old list followed by the session's add calls, in order and without deduplication |
| HrStatic.ResumesUnchanged | day10/hr/hr_fake.py:15-23 | Nothing but the shortlist changes: a list or read call is answered as on a fresh server |
| HrStatic.AddReplies | day10/hr/hr_fake.py:25-32 | Each add call is confirmed with the candidate's name |
| HrStatic.NoDeduplication | day10/hr/hr_fake.py:28-29 | Adding the same candidate twice keeps two records |
| Kwargs.Bind | day10/simple/mcp_server.py:30 | `echo(**params)` binds iff params is a mapping whose only key is `message`, and it binds that key's value |
| Kwargs.BindSingle | day10/simple/mcp_server.py:30 | `{"message": v}` binds `v` |
| StdioServer.LineEnd | day10/simple/mcp_server.py:19 | The first line ends at the first `\n`, the only line break of POSIX text-mode stdin, with none before it |
| StdioServer.Echo | day10/simple/mcp_server.py:10-13 | Echo succeeds iff the message is a string; under the ASCII case mapping the result has the same length and letters, and is its own upper case |
| StdioServer.Dispatch | day10/simple/mcp_server.py:24-45 | A non-object request crashes; a response exists only for `echo` or `list_tools`, with three fields and the request's id; `echo` answers iff its params are an object whose only key is `message`, holding a string, and then with that string upper-cased, in any field order |
| StdioServer.Serve | day10/simple/mcp_server.py:15-59 | The process always exits 0 after the banner; a crash writes nothing to stdout and ends stderr with the crash text; an empty line does nothing |
| StdioServer.ServeWritesOneLine | day10/simple/mcp_server.py:48 | stdout is empty or exactly one newline-terminated line, and it is non-empty iff a non-empty request produced no crash |
| StdioServer.ServeReadsFirstLine | day10/simple/mcp_server.py:19 | Whatever follows the first `\n` of stdin is ignored |
| StdioServer.ServeEcho | day10/simple/mcp_server.py:29-48 | An echo request, whatever else its object holds, is answered on stdout with exactly the upper-cased message and the request's id, after the banner and one log line naming the message on stderr |
| StdioServer.ServeListTools | day10/simple/mcp_server.py:36-48 | `list_tools` is always answered with the one fixed tool description, whatever its params |
| StdioServer.ServeUnknownMethod | day10/simple/mcp_server.py:44-53 | Any other method, a missing one included, writes nothing to stdout and names the method on stderr |
| StdioServer.DispatchUnknownMethod | day10/simple/mcp_server.py:44-45 | Any method but `echo` and `list_tools`, a missing one included, is not implemented, and the crash names it by its `str` |
| JsonEncode.DumpsOneLine | day10/simple/mcp_server.py:48 | Compact `json.dumps` output never contains a newline |
| AgentWorkflow.Register | day7/demo.py:85-86 | Registering adds the name, binds it to the new function, and leaves every other name's function alone |
| AgentWorkflow.Call | day7/demo.py:88-95 | An unknown name gives `Tool '<name>' not found`; a known tool's value is wrapped as ok and its exception as an error |
| AgentWorkflow.CallAfterRegister | day7/demo.py:85-95 | After registering a name, calls to it run the new function, and calls to other names are unaffected |
| AgentWorkflow.CallUnregistered | day7/demo.py:89-90 | An unregistered name runs nothing, so the answer does not depend on the registry or the argument |
| AgentWorkflow.DefaultTools | day7/demo.py:101-121 | The module registry holds exactly `summarize` and `keywords`, bound to the two model-asking tools |
| AgentWorkflow.DefaultToolsAskModel | day7/demo.py:88-121 | Calling `summarize` or `keywords` asks the model about exactly the argument under the tool's instruction, and a failing model call comes back as an error result |
| AgentWorkflow.ParseCall | day7/demo.py:139-143 | A parsed call splits the step at the first colon after the prefix; parsing fails iff there is no such colon |
| AgentWorkflow.ParseCallRoundTrip | day7/demo.py:141 | Writing `CALL_TOOL:<tool>:<arg>` and parsing it back gives the same tool and argument, colons in the argument included |
| AgentWorkflow.ExecuteStep | day7/demo.py:127-153 | A non-call step is answered by the model, and a failing model call raises; a call step never raises: without a second colon it is malformed, otherwise it is dispatched through the registry |
| AgentWorkflow.ExecuteToolStep | day7/demo.py:139-145 | A written tool call runs that tool on exactly its argument and does not raise |
| AgentWorkflow.NormaliseLines | day7/demo.py:66-75 | Normalising never adds lines |
| AgentWorkflow.NormaliseLinesAppend | day7/demo.py:66-75 | Normalising two pieces of a plan gives their steps one after the other, so order is kept |
| AgentWorkflow.NormaliseLinesCount | day7/demo.py:68-73 | Exactly the blank lines are dropped |
| AgentWorkflow.NumberingOnlyLine | day7/demo.py:72-73 | A non-blank line made only of numbering characters is kept as an empty step |
| AgentWorkflow.NonBlankFrom | day7/demo.py:68-71 | The positions of the non-blank lines, all of them, in increasing order |
| AgentWorkflow.NormaliseLinesSpec | day7/demo.py:66-75 | The `k`-th normalised step is the `k`-th non-blank line, cleaned |
| AgentWorkflow.PlanSteps | day7/demo.py:49-75 | A failing model call raises; otherwise step `k` is the `k`-th non-blank line of the stripped reply, with its numbering and surrounding white space removed |
| AgentWorkflow.LabelColon | day7/demo.py:185-188 | The first colon of a `thought:`/`action:` line is the label's own, so the value is what follows the label |
| AgentWorkflow.ScanLabelIsLast | day7/demo.py:184-188 | The scan ends with the value of the last labelled line, so the last match wins |
| AgentWorkflow.LastLabelledCons | day7/demo.py:184-188 | A labelled line further on overrides the first line |
| AgentWorkflow.LastLabelledOnlyFirst | day7/demo.py:184-188 | When only the first line is labelled, its value is the result |
| AgentWorkflow.ExtractAction | day7/demo.py:183-188 | The action is the value of the reply's last `Action:` line, in any case, or empty when there is none |
| AgentWorkflow.NoLabelledLine | day7/demo.py:183 | Without a labelled line the value stays empty |
| AgentWorkflow.Iterate | day7/demo.py:178-199 | A failing model call raises; an iteration stops iff the action contains DONE in any case; otherwise it appends the stripped reply, then a user observation, to the conversation |
| AgentWorkflow.ReactFrom | day7/demo.py:178-203 | The loop returns GoalAchieved or MaxIterations or raises, never uses more replies than allowed, only extends the conversation, and hits the cap only after using every iteration |
| AgentWorkflow.ReactLoop | day7/demo.py:159-203 | A negative or zero iteration count asks for no reply and returns MaxIterations with the initial conversation |
| AgentWorkflow.ReactStopsOnDone | day7/demo.py:190-191 | A first reply whose action says DONE ends the loop at once with the conversation unchanged |
| AgentWorkflow.ReactRaisesOnModelFailure | day7/demo.py:180 | A failing model call ends the loop with the client's exception |
| AgentWorkflow.ReactStep | day7/demo.py:193-199 | An iteration that goes on appends the reply, then `Observation: ` with the result of executing its action |
| PlanExecution.CheckPolicy | day7/planningagent.py:13-21 | A policy topic is found by its lower-cased form; other topics get the not-found text naming the topic |
| PlanExecution.CheckEmployeeStatus | day7/planningagent.py:23-30 | An employee is found by the exact name; other names get the not-found text |
| PlanExecution.LookupCase | day7/customExecutionSynthesis.py:17-36 | Policy topics ignore case, and employee names do not |
| PlanExecution.MatchAtSound | day7/planningagent.py:61-66 | What the matcher finds at a position is a match of `Tool: (\w+)\((.*)\)` there |
| PlanExecution.MatchAtComplete | day7/planningagent.py:61-66 | Any match at a position is found, with the same name and the longest (greedy) argument |
| PlanExecution.Search | day7/planningagent.py:66 | The search returns the leftmost position where the matcher succeeds, or nothing when no position succeeds |
| PlanExecution.SearchSpec | day7/planningagent.py:61-66 | The search succeeds iff the pattern matches somewhere, at the leftmost match, with the greedy argument |
| PlanExecution.SearchFinds | day7/customExecutionSynthesis.py:65-70 | A line whose only earlier marker is the call's own finds exactly that name and argument |
| PlanExecution.SynthesisBranchUnreachable | day7/customExecutionSynthesis.py:73-78 | A found tool name is never `N/A`, so the synthesis branch is dead |
| PlanExecution.LineObservationRule | day7/planningagent.py:66-86 | A line yields an observation iff the pattern matches in its stripped form: the tool's answer for a registered name, the not-recognised text naming it otherwise |
| PlanExecution.ObservingLines | day7/planningagent.py:65-68 | The lines that yield an observation, all of them and in increasing order |
| PlanExecution.ObservationsInPlanOrder | day7/planningagent.py:65-90 | The `k`-th stored entry belongs to the `k`-th observing line, so the rendered results follow the plan's order |
| PlanExecution.KeyInjective | day7/planningagent.py:83-86 | Distinct lines get distinct `Observation_<n>` keys |
| PlanExecution.ObservationsFrom | day7/planningagent.py:65-86 | Every stored entry is keyed by its line's number and holds that line's observation |
| PlanExecution.ObservationsFromSpec | day7/planningagent.py:65-86 | A line has an entry iff it yields an observation, and that entry holds its observation |
| PlanExecution.ObservationKeysDistinct | day7/planningagent.py:83-90 | No key repeats, so the rendered entries are the whole dictionary |
| PlanExecution.RenderInPlanOrder | day7/planningagent.py:83-90 | Rendering the results dictionary gives one `key: value` line per observing line, in plan order |
| PlanExecution.ExecutePlan | day7/planningagent.py:48-90 | The output keeps the question and plan; its observations are one `Observation_<n>: <text>` line per plan line that yields an observation, numbered from 1 over the plan's lines as given, in plan order |
| PlanExecution.ExecuteCollect | day7/customExecutionSynthesis.py:52-94 | The output keeps the question and plan; its observations are one `Observation_<n>: <text>` line per observing line of the stripped plan, in plan order |
| PlanExecution.CollectIgnoresLeadingSpace | day7/customExecutionSynthesis.py:69 | A leading blank does not shift the collector's numbering |
| PlanExecution.PlanShiftsOnLeadingNewline | day7/planningagent.py:65 | A leading newline does shift the planning executor's numbering |
| PlanExecution.MockPolicyArgument | day7/customExecutionSynthesis.py:74 | The quoted mock argument loses its quotes and finds the vacation policy |
| PlanExecution.MockStatusArgument | day7/customExecutionSynthesis.py:74 | The quoted mock argument loses its quotes and finds Alice's status |
| PlanExecution.SearchStep | day7/customExecutionSynthesis.py:44-70 | In a numbered step line, the search finds the step's own tool call |
| PlanExecution.StepObservation | day7/customExecutionSynthesis.py:70-86 | A numbered step naming a known tool yields that tool's answer for the cleaned argument |
| PlanExecution.MockPlanObservations | day7/customExecutionSynthesis.py:44-94 | On `MOCK_PLAN` the collector stores exactly the vacation policy as `Observation_1` and Alice's status as `Observation_2` |
| AdvancedAgent.FetchWebsiteContent | day6/advanced.py:65-91 | Fetching fails iff the url is not searchable with `in`, and then with Python's TypeError text |
| AdvancedAgent.FetchPrecedence | day6/advanced.py:77-91 | The tech sites take precedence over Wikipedia; each page is returned iff its rule is the first that applies |
| AdvancedAgent.Tally | day6/advanced.py:104-108 | The score is one of -0.8, 0 or 0.8 |
| AdvancedAgent.AnalyzeSentiment | day6/advanced.py:93-110 | Analysis fails iff the text is not a string; the result is the JSON of the score and the label |
| AdvancedAgent.SentimentLabel | day6/advanced.py:105-110 | The label is Positive iff a positive keyword occurs and no negative one does; neutral and mixed texts are Negative |
| AdvancedAgent.SentimentIgnoresCase | day6/advanced.py:103 | Under the ASCII case mapping, upper-casing the text never changes the analysis |
| AdvancedAgent.RunSqlQuery | day6/advanced.py:39-63 | A database error is reported as `SQL Error: ` text, and a non-string query raises |
| AdvancedAgent.RegistryNames | day6/advanced.py:113-117 | The registry holds exactly the three tools, once each, in order |
| AdvancedAgent.DescribeOneLine | day6/advanced.py:130-131 | A tool description is a single line |
| AdvancedAgent.SchemaOneLinePerTool | day6/advanced.py:126-134 | The schema has one line per tool, in registry order, each naming the tool |
| AdvancedAgent.DescribeTagged | day6/advanced.py:130-131 | A docstring starting `Tool:` is described by the rest of its first line, stripped |
| AdvancedAgent.CallOllama | day6/advanced.py:136-189 | An unreachable server gives the connection advice as the answer; a non-object body raises; a string `response` gives what `json.loads` makes of it, or the invalid-JSON answer when that fails; a `response` that is not a string raises |
| AdvancedAgent.PayloadFields | day6/advanced.py:153-160 | The request carries the model, the prompt, the system prompt, no streaming and the `json` format |
| AdvancedAgent.SystemPromptHasSchema | day6/advanced.py:143-151 | The system prompt carries the whole tool schema right after its introduction |
| AdvancedAgent.Dispatch | day6/advanced.py:203-239 | A decision that is not searchable crashes, and one with neither key is an unexpected format. An object without `tool` that has `answer` prints that answer. A `tool` without `args` raises `KeyError`. A registered tool prints its final line for the tool's output, or the error it raised. Any other hashable name is reported by its `str` |
| AdvancedAgent.TaskActsOnResponse | day6/advanced.py:175-201 | `run_agent_task` acts on what `json.loads` made of the model's `response` text, or answers with the invalid-JSON message when that fails |
| AdvancedAgent.RegisteredToolRuns | day6/advanced.py:205-231 | A registered tool runs on the decision's `args`; `run_agent_task` prints its final line for the output, or `Error executing tool: ` and the error |
| AdvancedAgent.OnlySqlUsesDatabase | day6/advanced.py:203-239 | Only a `run_sql_query` decision consults the database: every other decision is acted on alike for any database |
| AdvancedAgent.ToolBeforeAnswer | day6/advanced.py:204-235 | A decision carrying both keys never answers directly |
| AdvancedAgent.UnknownToolRunsNothing | day6/advanced.py:209-233 | Any hashable tool name outside the registry, a string or not, is reported by its `str`, and the database is never consulted |
| AdvancedAgent.NumericToolUnknown | day6/advanced.py:209-233 | `{"tool": 5, "args": {}}` reports the unknown tool `5` |
| AdvancedAgent.AnswerDecision | day6/advanced.py:235-236 | Every decision object without `tool` that has `answer` prints that answer's `str`, whatever other keys it holds |
| AdvancedAgent.AdviceAnswered | day6/advanced.py:183-189 | The advice objects `call_ollama` returns on a connection or JSON failure print their text as the answer |
| AdvancedAgent.UnreachableModel | day6/advanced.py:184-236 | When Ollama is unreachable, `run_agent_task` prints the connection advice as its answer |
| AdvancedAgent.FinalLineRegistered | day6/advanced.py:221-228 | A registered tool's output is wrapped by its own line, and the fallback line is never used |
| PdfAgent.ReadPdfText | day7/pdfai.py:14-35 | A missing or unreadable file gives its error text; a readable file gives its first 1000 characters followed by `...` |
| PdfAgent.HaltRule | day7/pdfai.py:96-100 | Every read failure halts the workflow, and a readable file halts it iff its own text starts with `Error` |
| PdfAgent.PromptLayout | day7/pdfai.py:52-56 | The question and the context sit between the fixed labels and the closing request |
| PdfAgent.OllamaAnalysis | day7/pdfai.py:37-74 | A failed request gives the API-error text; a non-object body gives the analysis-error text; otherwise the reply's `response` is returned, or the fallback text |
| PdfAgent.PayloadFields | day7/pdfai.py:58-64 | The request names the model and carries the built prompt |
| PdfAgent.PdfAnalysisAgent | day7/pdfai.py:84-119 | A halted workflow halts on the read result, and only on a halting one |
| PdfAgent.AgentConsultsModel | day7/pdfai.py:96-109 | The model is consulted iff the file is readable and does not start with `Error`, and then about that file's excerpt |
| PdfAgent.MissingFileHalts | day7/pdfai.py:23-100 | A missing file halts with the not-found text |
| DataPipeline.LoadDataSource | day7/advanced/functionchaining.py:11-16 | The mock CSV is returned iff the file is `sales_data.csv`; every other name gets the error text |
| DataPipeline.Lines | day7/advanced/functionchaining.py:24-25 | Splitting always gives at least one line, so `not lines` never fires |
| DataPipeline.AcceptedAreFloats | day7/advanced/functionchaining.py:31-39 | Every amount counted towards revenue is a text `float()` converts: the white space `float()` strips, a sign, then a decimal literal or a special word |
| DataPipeline.SeparatorPaddingRejected | day7/advanced/functionchaining.py:34 | An amount starting with one of `\x1c`-`\x1f` does not convert, although `str.isspace()` holds for it |
| DataPipeline.SeparatorPaddedRowSkipped | day7/advanced/functionchaining.py:33-39 | A row whose amount is padded with such a separator is skipped: it adds no amount and no completed order |
| DataPipeline.PaddedSampleRowSkipped | day7/advanced/functionchaining.py:33-39 | The row `101, \x1c55.50, Complete` adds nothing to the revenue or the completed count |
| DataPipeline.CompletedAmongAccepted | day7/advanced/functionchaining.py:31-39 | Completed orders are among the accepted lines, which are among all lines |
| DataPipeline.TallyAppend | day7/advanced/functionchaining.py:31-39 | The tallies of two blocks of lines are those of each block, combined |
| DataPipeline.Tally | day7/advanced/functionchaining.py:28-39 | The loop gathers exactly the accepted amounts and the completed count |
| DataPipeline.CalculateMetrics | day7/advanced/functionchaining.py:19-41 | Fewer than two lines give the error text; otherwise every data line counts as a transaction, with the accepted amounts and the completed count |
| DataPipeline.SummaryIsNotError | day7/advanced/functionchaining.py:26-41 | A report is never the error text |
| DataPipeline.SummaryStartsWithCount | day7/advanced/functionchaining.py:41 | A report starts with the transaction count |
| DataPipeline.SalesCsvLines | day7/advanced/functionchaining.py:15-24 | The mock CSV reads back as its five lines |
| DataPipeline.SalesPipeline | day7/advanced/functionchaining.py:13-41 | Chaining the tools gives four transactions, all well-formed, with amounts 55.50, 120.00, 55.50 and 300.00, two of them completed |
| DataPipeline.UnsupportedPipeline | day7/advanced/functionchaining.py:16-26 | Any other file name leads the second tool to reject the data |
| DataPipeline.BlankInput | day7/advanced/functionchaining.py:24-26 | Blank input has no data lines |
| Chatroom.SearchPrecedence | day8/streamlit_chatroom.py:17-30 | Each canned result is returned iff its keyword is the first that occurs in the lower-cased query; any other query is inconclusive |
| Chatroom.DetectToolCall | day8/streamlit_chatroom.py:85-88 | A detected tool name is a `\w+` word |
| Chatroom.DetectWrittenCall | day8/streamlit_chatroom.py:85-89 | A reply containing `TOOL_CALL: name('arg')` with no earlier colon is detected with that name and the stripped argument |
| Chatroom.SearchOnlyWhenCalled | day8/streamlit_chatroom.py:68-111 | The search runs iff the reply calls `simulated_search` in any letter case, and then on the call's argument; otherwise the first reply is the answer |
| Chatroom.ToolTurn | day8/streamlit_chatroom.py:87-108 | A search call makes the agent search and answer again, with the tool lines appended to its history and the `[USED TOOL: ...]` prefix |
| Chatroom.OtherToolIgnored | day8/streamlit_chatroom.py:91-111 | A call of any other tool is ignored, and the first reply stands |
| Chatroom.ConversationLines | day8/streamlit_chatroom.py:151 | The conversation history holds one `[speaker]: response` line per turn, in turn order |
| Chatroom.DisplaysLines | day8/streamlit_chatroom.py:153-157 | The session history gains one entry per turn, under the turn's speaker, ending with the turn's reply |
| Chatroom.SimulateChatroom | day8/streamlit_chatroom.py:114-169 | A run makes exactly four turns, each answering the previous one; the session history is the user's entry, one entry per turn and the conclusion; the session stops running |
| Chatroom.FollowsUnique | day8/streamlit_chatroom.py:145-166 | The turns are determined by the agents, the prompt and who starts |
| Chatroom.SpeakersAlternate | day8/streamlit_chatroom.py:131-164 | The chosen agent speaks first, consecutive turns have different speakers, and only the two agents speak |
| Chatroom.RunAgentTurnAsWritten | day8/streamlit_chatroom.py:82-85 | As written, every turn fails with `name 're' is not defined` |
| Chatroom.SimulateChatroomAsWritten | day8/streamlit_chatroom.py:143-148 | As written, the chatroom fails on its first turn |

## Left out

- Case mapping and `\w` are ASCII only: `str.lower`/`str.upper` change only `A`-`Z`/`a`-`z`, and `\w` matches only ASCII letters, digits and `_`. Python applies its Unicode tables to both. The white space that `strip` removes and `str.isspace()` tests is Python's full Unicode set.
- ToolServer.DbQueryIgnoresCase: holds for the ASCII case mapping only. With Python's Unicode `upper()`, `"ſelect"` becomes `"SELECT"` and is served as a query, while the model refuses it either way.
- StdioServer.Echo: the same-length and own-upper-case facts hold for the ASCII case mapping only. Python's `"ß".upper()` is `"SS"`, two characters.
- AdvancedAgent.SentimentIgnoresCase: holds for the ASCII case mapping only. In Python, `"faılure"` (dotless `ı`) holds no negative word, but its upper case `"FAILURE"` does; the model leaves `ı` alone.
- Floating point is not modelled.
  - The pipeline's revenue is the list of accepted amount texts, and its `:.2f` rendering is a parameter.
  - The sentiment score is an integer tally in units of 0.8.
  - The `temperature` options in payloads are dropped.
  - JSON numbers are integers.
- DataPipeline.IsFloatText: models `float()` on ASCII digits, with the decimal, exponent and special-value forms and the white space `float()` strips around them. That white space is the space, `\t\n\v\f\r` and the non-ASCII characters `str.isspace()` accepts, but not `\x1c`-`\x1f`. `float()` also accepts non-ASCII decimal digits (`"５５.５"`) and underscore digit separators (`"1_000"`). Those are not modelled, so such amounts are rejected here, which changes the accepted rows and the metrics computed from them.
- `json.loads`, the HTTP clients, the model servers, the LangChain chains, the SQL database, the file system, `os.listdir`/`os.path.isdir` and `random.choice` are parameters, not implementations.
- PyRepr.ReprChar: escapes the characters of the categories Cc, Cf, Zs (other than the space), Zl, Zp and Co, as of Unicode 15.0. Python's `repr` also escapes unassigned code points (category Cn). Those are written raw here, because the model carries no table of assigned characters.
- Bridge.Validate: follows pydantic v2 in its default lax mode, which the script's imports do not pin. Under pydantic v1, `{"prompt": 5}` is coerced to the prompt `"5"` and accepted, where the model rejects it.
- Exact exception texts are not reproduced where the model does not depend on them: pydantic's messages, and the text of a `TypeError` inside the frameworks. Only their fixed prefixes are modelled.
- Printing, logging, `time.sleep`, timeouts as behaviour, Streamlit rendering, FastAPI/Flask serialisation of replies and the HTTP status of Flask's own 400/415 body errors are left out. `jsonify` is taken to send the value it is given.
- Prompt templates and system prompts built by LangChain's `ChatPromptTemplate`, and the `create_agent` agents of `day6/sample4.py` and `day7/advanced/functionchaining.py`, are not modelled. Their model-driven loops are framework code.
- The module-level demo scripts (`demo()` in `day7/demo.py`, the `__main__` blocks and the `full_custom_workflow`/`final_workflow` chains) are left out. Only the functions they call are modelled.
- In `day6/advanced.py`, `setup_database` and the SQL engine are left out: `run_sql_query` takes the database's answer as a parameter. The branch for a missing `requests` library is left out.
- The HTTP oracles report `raise_for_status` errors and `response.json()` decoding errors as request failures. Recent versions of `requests` raise both as `RequestException`s.
- HrStatic.AddToShortlist carries no contract of its own. Its effect is stated through `HrStatic.Step`, `HrStatic.ShortlistAppendOnly` and `HrStatic.AddReplies`.
- HrStatic.ListResumes carries no contract of its own. Its answer is stated through `HrStatic.Step` (the two names in order) and `HrStatic.ReadListed`.
- AgentWorkflow.Llm carries no contract of its own. Its stripped reply and its raising are stated through `AgentWorkflow.DefaultToolsAskModel`, `AgentWorkflow.ExecuteStep`, `AgentWorkflow.PlanSteps` and `AgentWorkflow.Iterate`.
- AgentWorkflow.Summarize and AgentWorkflow.Keywords carry no contract of their own. What each asks the model, and how a failure comes back, is stated through `AgentWorkflow.DefaultToolsAskModel`.
- Chatroom.SimulatedSearch carries no contract of its own. Its canned answers are stated through `Chatroom.SearchPrecedence`.
- Chatroom.RunAgentTurn carries no contract of its own. Its turn is stated through `Chatroom.SearchOnlyWhenCalled`, `Chatroom.ToolTurn` and `Chatroom.OtherToolIgnored`.
- AdvancedAgent.GenerateSchema carries no contract of its own. Its lines are stated through `AdvancedAgent.SchemaOneLinePerTool`, `AdvancedAgent.DescribeOneLine` and `AdvancedAgent.SystemPromptHasSchema`.
- AdvancedAgent.RunAgentTask carries no contract of its own. It is stated through `AdvancedAgent.TaskActsOnResponse`, `AdvancedAgent.UnreachableModel` and `AdvancedAgent.Dispatch`.
- Inventory.CalculateShippingCost carries no contract of its own. Its rule is stated through `Inventory.ShippingRule` and `Inventory.ShippingCaseSensitive`.
- StdioServer.RequestLine: reads stdin as it is read on POSIX, where only `\n` ends a line. On Windows, text-mode stdin also ends a line at `\r` and `\r\n`; that is not modelled.
- Chatroom.RunAgentTurn: the agents' chains are total functions from history and message to a reply. A LangChain chain that raises (a network error, a model error) would end `simulate_chatroom` with that exception; that is not modelled.
- Exception texts follow CPython 3.11 and later, which name the callee with its module (`__main__.echo()`) and the index type (`string indices must be integers, not 'str'`).
- Chatroom.SimulateChatroom: swaps speakers once more after the last turn, where `simulate_chatroom` breaks first. The swapped values are never read again, so the observable behaviour is the same.

## Findings

| source | as written | input that shows it | evidently intended | confidence | as-written member | corrected member |
|---|---|---|---|---|---|---|
| day8/streamlit_chatroom.py:85 | `re.search` is called, but the module never imports `re`, so the first turn raises `NameError` after the first model call | any prompt: the first turn of `simulate_chatroom` | detect `TOOL_CALL: name('arg')` with the regular expression and run the search tool | not executed | Chatroom.RunAgentTurnAsWritten, Chatroom.SimulateChatroomAsWritten | Chatroom.SearchOnlyWhenCalled, Chatroom.ToolTurn, Chatroom.SimulateChatroom |

=== FILE: advanced_agent.dfy ===
/**
 * The single-decision agent of `day6/advanced.py`: a registry of three tools
 * described to the model by a generated schema, the request to Ollama, and
 * the dispatch of the model's JSON decision to a tool or to a direct answer.
 *
 * The HTTP endpoint, `json.loads` and the SQLite database are oracle
 * parameters. What `run_agent_task` prints is modelled as a `Report`.
 */
module AdvancedAgent {
  import opened Wrappers
  import opened Strings
  import opened Json
  import PyRepr
  import Kwargs
  import Web

  // ----------------------------------------------------------------------
  // Python's `needle in value` for a string needle
  // ----------------------------------------------------------------------

  /** Values `in` can search: a string, a list or a dict. */
  predicate Iterable(j: Json) {
    j.Str? || j.Arr? || j.Obj?
  }

  /** A substring of a string, an element of a list, a key of a dict. */
  predicate In(needle: string, j: Json)
    requires Iterable(j)
  {
    match j
    case Str(s) => Contains(s, needle)
    case Arr(items) => Str(needle) in items
    case Obj(fields) => needle in KeySet(fields)
  }

  /** The `TypeError` of `in` on a scalar. */
  function NotIterable(j: Json): string {
    "argument of type '" + TypeName(j) + "' is not iterable"
  }

  // ----------------------------------------------------------------------
  // The mock tools
  // ----------------------------------------------------------------------

  /** Both mock articles start with their indented title tag. */
  const TitleTag: string := "\n        TITLE: "
  const TechArticle: string :=
    TitleTag + "AI Market Trends 2025\n        CONTENT: The market for Agentic AI is projected to triple. \n"
    + "        Major companies are shifting from Chatbots to Autonomous Agents \n"
    + "        that can execute complex workflows.\n        "
  const PythonArticle: string :=
    TitleTag + "Python (programming language)\n"
    + "        CONTENT: Python is a high-level, general-purpose programming language. \n"
    + "        Its design philosophy emphasizes code readability.\n        "
  const NotFoundPage: string := "Error: 404 Not Found or Access Denied."

  /** `fetch_website_content(url)`: the tech article, else the Python article, else the error page. */
  function FetchWebsiteContent(url: Json): (r: Result<string, string>)
    ensures r.Failure? <==> !Iterable(url)
    ensures r.Failure? ==> r.error == NotIterable(url)
  {
    if !Iterable(url) then Failure(NotIterable(url))
    else if In("techcrunch", url) || In("tech-news", url) then Success(TechArticle)
    else if In("wikipedia", url) then Success(PythonArticle)
    else Success(NotFoundPage)
  }

  /**
   * The tech sites take precedence over Wikipedia, and any other URL, however
   * close, gets the error page: each page is returned exactly when its rule
   * is the first that applies.
   */
  lemma FetchPrecedence(url: string)
    ensures FetchWebsiteContent(Str(url)) == Success(TechArticle)
            <==> Contains(url, "techcrunch") || Contains(url, "tech-news")
    ensures FetchWebsiteContent(Str(url)) == Success(PythonArticle)
            <==> !Contains(url, "techcrunch") && !Contains(url, "tech-news") && Contains(url, "wikipedia")
    ensures FetchWebsiteContent(Str(url)) == Success(NotFoundPage)
            <==> !Contains(url, "techcrunch") && !Contains(url, "tech-news") && !Contains(url, "wikipedia")
  {
    // The three pages differ in length.
    assert |TechArticle| == 231 && |PythonArticle| == 193 && |NotFoundPage| == 38;
  }

  predicate Positive(lower: string) {
    Contains(lower, "good") || Contains(lower, "successful") || Contains(lower, "growth")
  }

  predicate Negative(lower: string) {
    Contains(lower, "bad") || Contains(lower, "error") || Contains(lower, "failure")
  }

  /**
   * The sentiment score in units of 0.8: one up for any positive keyword,
   * one down for any negative keyword, each counted at most once.
   */
  function Tally(text: string): (n: int)
    ensures -1 <= n <= 1
  {
    var lower := Lower(text);
    (if Positive(lower) then 1 else 0) - (if Negative(lower) then 1 else 0)
  }

  function Label(tally: int): string {
    if tally > 0 then "Positive" else "Negative"
  }

  /** The float `0.8 * tally` as `json.dumps` writes it (`0.8 - 0.8` is exactly `0.0`). */
  function ScoreText(tally: int): string
    requires -1 <= tally <= 1
  {
    if tally == 1 then "0.8" else if tally == 0 then "0.0" else "-0.8"
  }

  /** `analyze_sentiment(text)`: the JSON text of the score and its label. */
  function AnalyzeSentiment(text: Json): (r: Result<string, string>)
    ensures r.Failure? <==> !text.Str?
    ensures r.Failure? ==> r.error == "'" + TypeName(text) + "' object has no attribute 'lower'"
    ensures r.Success? ==> r.value == "{\"sentiment_score\": " + ScoreText(Tally(text.s))
                                      + ", \"label\": \"" + Label(Tally(text.s)) + "\"}"
  {
    if !text.Str? then Failure("'" + TypeName(text) + "' object has no attribute 'lower'")
    else
      var n := Tally(text.s);
      Success("{\"sentiment_score\": " + ScoreText(n) + ", \"label\": \"" + Label(n) + "\"}")
  }

  /**
   * The label is `Positive` exactly when a positive keyword occurs and no
   * negative one does: neutral and mixed texts are both `Negative`.
   */
  lemma SentimentLabel(text: string)
    ensures Label(Tally(text)) == "Positive" <==> Positive(Lower(text)) && !Negative(Lower(text))
    ensures !Positive(Lower(text)) && !Negative(Lower(text)) ==> Tally(text) == 0 && Label(Tally(text)) == "Negative"
    ensures Positive(Lower(text)) && Negative(Lower(text)) ==> Tally(text) == 0 && Label(Tally(text)) == "Negative"
  {
  }

  /** The keywords are matched whatever their case. */
  lemma SentimentIgnoresCase(text: string)
    ensures Tally(Upper(text)) == Tally(text)
    ensures AnalyzeSentiment(Str(Upper(text))) == AnalyzeSentiment(Str(text))
  {
    LowerOfUpper(text);
  }

  /** The employee database: the query's rows as text, or the text of the `sqlite3.Error`. */
  type Database = string -> Result<string, string>

  /** `run_sql_query(query)`: a database error is reported as text; a non-string query raises. */
  function RunSqlQuery(db: Database, query: Json): (r: Result<string, string>)
    ensures r.Failure? <==> !query.Str?
    ensures query.Str? && db(query.s).Success? ==> r == Success(db(query.s).value)
    ensures query.Str? && db(query.s).Failure? ==> r == Success("SQL Error: " + db(query.s).error)
  {
    if !query.Str? then Failure("execute() argument 1 must be str, not " + TypeName(query))
    else
      match db(query.s)
      case Success(rows) => Success(rows)
      case Failure(e) => Success("SQL Error: " + e)
  }

  // ----------------------------------------------------------------------
  // The registry and its schema
  // ----------------------------------------------------------------------

  /** A registered tool: its name, its one parameter and its docstring. */
  datatype ToolSpec = ToolSpec(name: string, param: string, doc: string)

  /** `TOOL_REGISTRY`, in insertion order. */
  const Registry: seq<ToolSpec> := [
    ToolSpec("run_sql_query", "query",
      "\n    Tool: Executes a raw SQL query against the internal employee database.\n"
      + "    Useful for answering questions about staff, salaries, or departments.\n    \n    Args:\n"
      + "        query: The SQL query string to execute (e.g., \"SELECT * FROM employees\").\n    "),
    ToolSpec("fetch_website_content", "url",
      "\n    Tool: Simulates scraping text content from a specific URL.\n"
      + "    Useful for researching external topics or retrieving news.\n    \n    Args:\n"
      + "        url: The full URL to fetch.\n    "),
    ToolSpec("analyze_sentiment", "text",
      "\n    Tool: Analyzes the sentiment of a given text string.\n"
      + "    Returns a score from -1 (Negative) to 1 (Positive).\n    \n    Args:\n"
      + "        text: The content to analyze.\n    ")
  ]

  function Names(tools: seq<ToolSpec>): seq<string> {
    seq(|tools|, i requires 0 <= i < |tools| => tools[i].name)
  }

  /** The registry holds exactly the three tools, once each. */
  lemma RegistryNames()
    ensures Names(Registry) == ["run_sql_query", "fetch_website_content", "analyze_sentiment"]
    ensures forall name :: name in Names(Registry) <==> name == "run_sql_query" || name == "fetch_website_content" || name == "analyze_sentiment"
  {
  }

  /** `doc.strip().split('\n')[0].replace("Tool:", "").strip()`: the tool's one-line description. */
  function Describe(doc: string): string {
    Strip(Replace(Split(Strip(doc), "\n")[0], "Tool:", ""))
  }

  function SchemaLine(t: ToolSpec): string {
    "- " + t.name + "(args): " + Describe(t.doc)
  }

  function SchemaLines(tools: seq<ToolSpec>): seq<string> {
    seq(|tools|, i requires 0 <= i < |tools| => SchemaLine(tools[i]))
  }

  /** `generate_schema(tools)` */
  function GenerateSchema(tools: seq<ToolSpec>): string {
    Join(SchemaLines(tools), "\n")
  }

  /** A description is a single line. */
  lemma DescribeOneLine(doc: string)
    ensures '\n' !in Describe(doc)
  {
    var first := Split(Strip(doc), "\n")[0];
    SplitFirstPiece(Strip(doc), "\n");
    CharNotInSplit(first, "Tool:", '\n');
    CharNotInJoin(Split(first, "Tool:"), "", '\n');
    CharNotInStrip(Replace(first, "Tool:", ""), '\n');
  }

  /**
   * The schema has one line per tool, in registry order, each naming the
   * tool and giving its description (tool names have no line breaks).
   */
  lemma SchemaOneLinePerTool(tools: seq<ToolSpec>)
    requires |tools| > 0
    requires forall i :: 0 <= i < |tools| ==> '\n' !in tools[i].name
    ensures Split(GenerateSchema(tools), "\n") == SchemaLines(tools)
    ensures forall i :: 0 <= i < |tools| ==>
              StartsWith(Split(GenerateSchema(tools), "\n")[i], "- " + tools[i].name + "(args): ")
  {
    var lines := SchemaLines(tools);
    forall k | 0 <= k < |lines|
      ensures '\n' !in lines[k]
    {
      DescribeOneLine(tools[k].doc);
      assert lines[k] == "- " + tools[k].name + "(args): " + Describe(tools[k].doc);
    }
    SplitJoin(lines, "\n");
    forall i | 0 <= i < |tools|
      ensures StartsWith(lines[i], "- " + tools[i].name + "(args): ")
    {
      var p := "- " + tools[i].name + "(args): ";
      assert lines[i] == p + Describe(tools[i].doc);
      assert lines[i][..|p|] == p;
    }
  }

  /**
   * A docstring whose first line is `Tool:` and a description is described
   * by that description, stripped.
   */
  lemma DescribeTagged(doc: string, desc: string, rest: string)
    requires Strip(doc) == "Tool:" + desc + "\n" + rest
    requires '\n' !in desc && forall j :: !OccursAt(desc, "Tool:", j)
    ensures Describe(doc) == Strip(desc)
  {
    var first := "Tool:" + desc;
    assert '\n' !in first;
    SplitCons(first, "\n", rest);
    assert Split(Strip(doc), "\n")[0] == first;
    assert first[0..5] == "Tool:";
    assert IndexFrom(first, "Tool:", 0) == Some(0);
    assert first[5..] == desc;
    assert IndexFrom(desc, "Tool:", 0) == None;
    assert Split(first, "Tool:") == [""] + [desc];
    assert Join(["", desc], "") == desc;
  }

  // ----------------------------------------------------------------------
  // The model call
  // ----------------------------------------------------------------------

  const OllamaUrl: string := "http://localhost:11434/api/generate"
  const OllamaModel: string := "mistral"

  const SystemIntro: string := "You are an Advanced Autonomous Agent.\nYou have access to the following tools:\n"
  const SystemRules: string :=
    "\n\nRULES:\n"
    + "1. If you need data, output JSON: {\"tool\": \"tool_name\", \"args\": {...}}\n"
    + "2. If you have the answer, output JSON: {\"answer\": \"Your text response\"}"

  /** The system prompt: the schema between fixed instructions. */
  function SystemPrompt(): string {
    SystemIntro + GenerateSchema(Registry) + SystemRules
  }

  function Payload(prompt: string): Json {
    Obj([("model", Str(OllamaModel)), ("prompt", Str(prompt)), ("system", Str(SystemPrompt())),
         ("stream", Bool(false)), ("format", Str("json"))])
  }

  /** `json.loads` */
  type Loads = string -> Result<Loaded, string>

  const ConnectionAnswer: string := "Error: Could not connect to Ollama at " + OllamaUrl + ". Is it running?"
  const InvalidJsonAnswer: string := "Error: Model failed to generate valid JSON."

  function AnswerObject(text: string): (r: Json)
    ensures Decoded(r)
  {
    Obj([("answer", Str(text))])
  }

  /**
   * `call_ollama(prompt)`: the decision the model wrote, or a stand-in
   * answer when the request or the decoding fails. A body that is not an
   * object, or a `response` that is not a string, raises past the handlers.
   */
  function CallOllama(http: Web.Post, loads: Loads, prompt: string): (r: Result<Json, string>)
    ensures http(OllamaUrl, Payload(prompt)).Failure? ==> r == Success(AnswerObject(ConnectionAnswer))
    ensures http(OllamaUrl, Payload(prompt)).Success? && !http(OllamaUrl, Payload(prompt)).value.Obj? ==> r.Failure?
    ensures r.Success? && r.value != AnswerObject(ConnectionAnswer) && r.value != AnswerObject(InvalidJsonAnswer)
            ==> exists text :: loads(text) == r
    ensures r.Success? ==> Decoded(r.value)
    ensures http(OllamaUrl, Payload(prompt)).Success? && http(OllamaUrl, Payload(prompt)).value.Obj? ==>
              var response := Get(http(OllamaUrl, Payload(prompt)).value.fields, "response", Str(""));
              && (response.Str? && loads(response.s).Success? ==> r == loads(response.s))
              && (response.Str? && loads(response.s).Failure? ==> r == Success(AnswerObject(InvalidJsonAnswer)))
              && (!response.Str? ==> r.Failure?)
  {
    match http(OllamaUrl, Payload(prompt))
    case Failure(_) => Success(AnswerObject(ConnectionAnswer))
    case Success(body) =>
      if !body.Obj? then Failure(Web.NoGet(body))
      else
        match Get(body.fields, "response", Str(""))
        case Str(text) =>
          (match loads(text)
           case Failure(_) => Success(AnswerObject(InvalidJsonAnswer))
           case Success(d) => Success(d))
        case other => Failure("the JSON object must be str, bytes or bytearray, not " + TypeName(other))
  }

  /** The request names the model, carries the prompt and the schema-bearing system prompt, and asks for JSON. */
  lemma PayloadFields(prompt: string)
    ensures Keys(Payload(prompt).fields) == ["model", "prompt", "system", "stream", "format"]
    ensures Lookup(Payload(prompt).fields, "prompt") == Some(Str(prompt))
    ensures Lookup(Payload(prompt).fields, "format") == Some(Str("json"))
  {
    var f := Payload(prompt).fields;
    LastIndexAt(f, "prompt", 1);
    LastIndexAt(f, "format", 4);
  }

  /** The system prompt carries the whole schema, right after the introduction. */
  lemma SystemPromptHasSchema()
    ensures OccursAt(SystemPrompt(), GenerateSchema(Registry), |SystemIntro|)
  {
    var schema := GenerateSchema(Registry);
    OccursInConcat(SystemIntro + schema, SystemRules, schema, |SystemIntro|) by {
      OccursInConcat(SystemIntro, schema, schema, 0) by {
        assert schema[0..|schema|] == schema;
      }
    }
  }

  // ----------------------------------------------------------------------
  // The decision dispatch
  // ----------------------------------------------------------------------

  /** What `run_agent_task` ends with. */
  datatype Report =
    | Answered(answer: string)              // the model answered directly
    | ToolResponse(name: string, text: string) // a tool ran; its final response line
    | ToolError(error: string)              // the tool raised; `Error executing tool: ...`
    | UnknownTool(name: string)             // `Error: Agent tried to call unknown tool '...'`
    | UnexpectedFormat(decision: Json)      // neither key: the system-error branch
    | Crash(error: string)                  // an exception escaped `run_agent_task`

  /** The text each report prints last. */
  function ReportText(r: Report): string {
    match r
    case Answered(a) => "\n>> FINAL AGENT RESPONSE:\n" + a
    case ToolResponse(_, t) => t
    case ToolError(e) => "Error executing tool: " + e
    case UnknownTool(n) => "Error: Agent tried to call unknown tool '" + n + "'"
    case UnexpectedFormat(d) => PyRepr.PyStr(d)
    case Crash(e) => e
  }

  /** `func(**tool_args)` for a registered tool: its output, or the text of what it raised. */
  function Invoke(db: Database, name: string, args: Json): Result<string, string>
    requires name in Names(Registry)
  {
    var param := if name == "run_sql_query" then "query" else if name == "fetch_website_content" then "url" else "text";
    match Kwargs.Bind(name, param, args)
    case Failure(e) => Failure(e)
    case Success(v) =>
      if name == "run_sql_query" then RunSqlQuery(db, v)
      else if name == "fetch_website_content" then FetchWebsiteContent(v)
      else AnalyzeSentiment(v)
  }

  /** The final response line for a tool's output. */
  function FinalLine(name: string, result: string): string {
    if name == "run_sql_query" then "Based on the database, here is the data: " + result
    else if name == "fetch_website_content" then "I found the following article: " + Strip(result)
    else if name == "analyze_sentiment" then "The sentiment analysis result is: " + result
    else "Tool output: " + result
  }

  /** The `TypeError` of `decision[key]` on a list or a string. */
  function NotSubscriptable(d: Json): string {
    if d.Arr? then "list indices must be integers or slices, not str" else "string indices must be integers, not 'str'"
  }

  /** Steps 2 and 3 of `run_agent_task`: act on the model's decision. */
  function Dispatch(db: Database, decision: Json): (r: Report)
    requires Decoded(decision)
    ensures !Iterable(decision) ==> r == Crash(NotIterable(decision))
    ensures Iterable(decision) && !In("tool", decision) && !In("answer", decision) ==> r == UnexpectedFormat(decision)
    ensures r.Answered? ==> decision.Obj? && "tool" !in KeySet(decision.fields)
    ensures r.ToolResponse? ==> r.name in Names(Registry) && decision.Obj?
                                && Lookup(decision.fields, "tool") == Some(Str(r.name))
                                && exists out :: r.text == FinalLine(r.name, out)
    ensures r.Answered? ==> Lookup(decision.fields, "answer").Some?
                            && r.answer == PyRepr.PyStr(Lookup(decision.fields, "answer").value)
    ensures decision.Obj? && Lookup(decision.fields, "tool").Some? && Lookup(decision.fields, "args").Some?
            && Lookup(decision.fields, "tool").value.Str? && Lookup(decision.fields, "tool").value.s in Names(Registry) ==>
              var name := Lookup(decision.fields, "tool").value.s;
              match Invoke(db, name, Lookup(decision.fields, "args").value)
              case Success(out) => r == ToolResponse(name, FinalLine(name, out))
              case Failure(e) => r == ToolError(e)
    // `elif "answer" in decision`: any object without `tool` that has `answer` prints it
    ensures decision.Obj? && "tool" !in KeySet(decision.fields) && "answer" in KeySet(decision.fields) ==>
              r == Answered(PyRepr.PyStr(Lookup(decision.fields, "answer").value))
    // a missing `args` is a `KeyError`, raised before the registry is consulted
    ensures decision.Obj? && "tool" in KeySet(decision.fields) && "args" !in KeySet(decision.fields) ==> r == Crash("'args'")
    // any hashable name outside the registry, strings or not, is reported by its `str`
    ensures decision.Obj? && Lookup(decision.fields, "tool").Some? && Lookup(decision.fields, "args").Some?
            && Hashable(Lookup(decision.fields, "tool").value)
            && !(Lookup(decision.fields, "tool").value.Str? && Lookup(decision.fields, "tool").value.s in Names(Registry)) ==>
              r == UnknownTool(PyRepr.PyStr(Lookup(decision.fields, "tool").value))
  {
    if !Iterable(decision) then Crash(NotIterable(decision))
    else if !decision.Obj? then
      if In("tool", decision) || In("answer", decision) then Crash(NotSubscriptable(decision))
      else UnexpectedFormat(decision)
    else
      var fields := decision.fields;
      LookupKeySet(fields, "tool");
      LookupKeySet(fields, "answer");
      LookupKeySet(fields, "args");
      match Lookup(fields, "tool")
      case Some(tool) =>
        (match Lookup(fields, "args")
         case None => Crash("'args'")
         case Some(args) =>
           if !Hashable(tool) then Crash("unhashable type: '" + TypeName(tool) + "'")
           else if !(tool.Str? && tool.s in Names(Registry)) then UnknownTool(PyRepr.PyStr(tool))
           else
             match Invoke(db, tool.s, args)
             case Failure(e) => ToolError(e)
             case Success(out) => ToolResponse(tool.s, FinalLine(tool.s, out)))
      case None =>
        match Lookup(fields, "answer")
        case Some(answer) => Answered(PyRepr.PyStr(answer))
        case None => UnexpectedFormat(decision)
  }

  /** `run_agent_task(request)` */
  function RunAgentTask(http: Web.Post, loads: Loads, db: Database, request: string): Report {
    match CallOllama(http, loads, request)
    case Failure(e) => Crash(e)
    case Success(decision) => Dispatch(db, decision)
  }

  /**
   * `run_agent_task` acts on exactly what the model wrote: a `response` text that
   * decodes is dispatched as the decision, and one that does not prints the
   * invalid-JSON advice as the answer.
   */
  lemma TaskActsOnResponse(http: Web.Post, loads: Loads, db: Database, request: string)
    requires http(OllamaUrl, Payload(request)).Success? && http(OllamaUrl, Payload(request)).value.Obj?
    requires Get(http(OllamaUrl, Payload(request)).value.fields, "response", Str("")).Str?
    ensures var text := Get(http(OllamaUrl, Payload(request)).value.fields, "response", Str("")).s;
            && (loads(text).Success? ==> RunAgentTask(http, loads, db, request) == Dispatch(db, loads(text).value))
            && (loads(text).Failure? ==> RunAgentTask(http, loads, db, request) == Answered(InvalidJsonAnswer))
  {
    AdviceAnswered(db, InvalidJsonAnswer);
  }

  /**
   * A registered tool runs on the decision's `args`: `run_agent_task` prints that
   * tool's final line for its output, or the error it raised.
   */
  lemma RegisteredToolRuns(db: Database, fields: Fields, name: string, args: Json)
    requires Decoded(Obj(fields))
    requires Lookup(fields, "tool") == Some(Str(name)) && Lookup(fields, "args") == Some(args)
    requires name in Names(Registry)
    ensures Invoke(db, name, args).Success? ==>
              ReportText(Dispatch(db, Obj(fields))) == FinalLine(name, Invoke(db, name, args).value)
    ensures Invoke(db, name, args).Failure? ==>
              ReportText(Dispatch(db, Obj(fields))) == "Error executing tool: " + Invoke(db, name, args).error
  {
  }

  /** Only `run_sql_query` consults the database: every other decision is acted on alike for any database. */
  lemma OnlySqlUsesDatabase(db: Database, db': Database, decision: Json)
    requires Decoded(decision)
    requires !(decision.Obj? && Lookup(decision.fields, "tool") == Some(Str("run_sql_query")))
    ensures Dispatch(db, decision) == Dispatch(db', decision)
  {
  }

  /** A `tool` key takes precedence: a decision carrying both keys never answers directly. */
  lemma ToolBeforeAnswer(db: Database, fields: Fields)
    requires Decoded(Obj(fields))
    requires "tool" in KeySet(fields) && "answer" in KeySet(fields)
    ensures !Dispatch(db, Obj(fields)).Answered?
    ensures !Dispatch(db, Obj(fields)).UnexpectedFormat?
  {
  }

  /**
   * An unregistered tool name, a string or any other hashable value, is
   * reported by its `str` and nothing runs: the database is never consulted.
   */
  lemma UnknownToolRunsNothing(db: Database, db': Database, fields: Fields, name: Json)
    requires Decoded(Obj(fields))
    requires Lookup(fields, "tool") == Some(name) && Lookup(fields, "args").Some?
    requires Hashable(name) && !(name.Str? && name.s in Names(Registry))
    ensures Dispatch(db, Obj(fields)) == Dispatch(db', Obj(fields)) == UnknownTool(PyRepr.PyStr(name))
    ensures ReportText(Dispatch(db, Obj(fields))) == "Error: Agent tried to call unknown tool '" + PyRepr.PyStr(name) + "'"
  {
  }

  /** `{"tool": 5, "args": {}}` reports the unknown tool `5`. */
  lemma NumericToolUnknown(db: Database)
    ensures Dispatch(db, Obj([("tool", Num(5)), ("args", Obj([]))])) == UnknownTool("5")
  {
    var fields := [("tool", Num(5)), ("args", Obj([]))];
    LastIndexAt(fields, "tool", 0);
    LastIndexAt(fields, "args", 1);
    assert PyRepr.PyStr(Num(5)) == "5";
  }

  /** Any decision object without `tool` that has `answer` prints that answer, whatever else it holds. */
  lemma AnswerDecision(db: Database, fields: Fields)
    requires Decoded(Obj(fields))
    requires "tool" !in KeySet(fields) && "answer" in KeySet(fields)
    ensures Dispatch(db, Obj(fields)) == Answered(PyRepr.PyStr(Lookup(fields, "answer").value))
    ensures ReportText(Dispatch(db, Obj(fields))) == "\n>> FINAL AGENT RESPONSE:\n" + PyRepr.PyStr(Lookup(fields, "answer").value)
  {
  }

  /** The advice objects `call_ollama` returns print their text as the answer. */
  lemma AdviceAnswered(db: Database, text: string)
    ensures Dispatch(db, AnswerObject(text)) == Answered(text)
  {
    LastIndexAt([("answer", Str(text))], "answer", 0);
    assert "tool" !in KeySet([("answer", Str(text))]);
  }

  /** When Ollama is unreachable, `run_agent_task` prints the connection advice as its answer. */
  lemma UnreachableModel(http: Web.Post, loads: Loads, db: Database, request: string)
    requires http(OllamaUrl, Payload(request)).Failure?
    ensures RunAgentTask(http, loads, db, request) == Answered(ConnectionAnswer)
  {
    AdviceAnswered(db, ConnectionAnswer);
  }

  /** A registered tool's output is wrapped by the line for that tool; the fallback line is never used. */
  lemma FinalLineRegistered(name: string, out: string)
    requires name in Names(Registry)
    ensures !StartsWith(FinalLine(name, out), "Tool output: ")
    ensures name == "fetch_website_content" ==> FinalLine(name, out) == "I found the following article: " + Strip(out)
  {
    RegistryNames();
    var r := FinalLine(name, out);
    if name == "run_sql_query" {
      assert r[0] == 'B';
    } else if name == "fetch_website_content" {
      assert r[0] == 'I';
    } else {
      assert r[1] == 'h';
    }
  }
}

=== FILE: agent_workflow.dfy ===
/**
 * The custom agent workflow of `day7/demo.py`: a name-to-function tool
 * registry, the step executor with its `CALL_TOOL:<tool>:<arg>` syntax, the
 * clean-up of a numbered plan, and the bounded ReAct loop.
 *
 * The chat model is an oracle from the message list to the reply text or
 * the text of the exception the client raised; the registered tools are
 * functions from the argument to a value or to the text of the exception
 * they raised.
 */
module AgentWorkflow {
  import opened Wrappers
  import opened Strings
  import opened Json
  import PyRepr

  datatype Message = Message(role: string, content: string)

  /** `client.chat(...)["message"]["content"]` for a message list, or the text of what the client raised. */
  type Chat = seq<Message> -> Result<string, string>

  /** `llm(messages)`: the reply with surrounding white space removed; a failing client call raises through it. */
  function Llm(chat: Chat, messages: seq<Message>): Result<string, string> {
    match chat(messages)
    case Success(reply) => Success(Strip(reply))
    case Failure(e) => Failure(e)
  }

  // ----------------------------------------------------------------------
  // Tool registry
  // ----------------------------------------------------------------------

  /** A registered tool: its return value, or the text of the exception it raised. */
  type Tool = string -> Result<Loaded, string>

  type Registry = map<string, Tool>

  /** The dict a step or a tool call returns: `{"ok": True, "result": r}` or `{"ok": False, "error": e}`. */
  datatype StepResult = Ok(result: Json) | Err(error: string) {
    function ToJson(): Json {
      match this
      case Ok(r) => Obj([("ok", Bool(true)), ("result", r)])
      case Err(e) => ErrorObject(e)
    }
  }

  /** `register(name, fn)`: a later registration under the same name replaces the earlier one. */
  function Register(tools: Registry, name: string, fn: Tool): (r: Registry)
    ensures r.Keys == tools.Keys + {name}
    ensures r[name] == fn
    ensures forall other :: other in tools && other != name ==> r[other] == tools[other]
  {
    tools[name := fn]
  }

  /** The message for a name that is not registered. */
  function NotFound(name: string): string {
    "Tool '" + name + "' not found"
  }

  /** `call(name, arg)`: dispatch to the registered function, wrapping its value or its exception. */
  function Call(tools: Registry, name: string, arg: string): (r: StepResult)
    ensures name !in tools ==> r == Err(NotFound(name))
    ensures name in tools && tools[name](arg).Success? ==> r == Ok(tools[name](arg).value)
    ensures name in tools && tools[name](arg).Failure? ==> r == Err(tools[name](arg).error)
  {
    if name !in tools then Err(NotFound(name))
    else
      match tools[name](arg)
      case Success(v) => Ok(v)
      case Failure(e) => Err(e)
  }

  /** After `register(name, fn)`, `call(name, ...)` runs `fn`, and every other name behaves as before. */
  lemma CallAfterRegister(tools: Registry, name: string, fn: Tool, other: string, arg: string)
    ensures Call(Register(tools, name, fn), name, arg) == Call(map[name := fn], name, arg)
    ensures other != name ==> Call(Register(tools, name, fn), other, arg) == Call(tools, other, arg)
  {
  }

  /** An unregistered name runs nothing: the answer does not depend on any registered function. */
  lemma CallUnregistered(tools: Registry, tools': Registry, name: string, arg: string, arg': string)
    requires name !in tools && name !in tools'
    ensures Call(tools, name, arg) == Call(tools', name, arg')
  {
  }

  /** A tool that asks the model once, under a fixed system instruction, about its argument. */
  function AskModel(chat: Chat, instruction: string): Tool {
    text =>
      match Llm(chat, [Message("system", instruction), Message("user", text)])
      case Success(reply) => Success(Str(reply))
      case Failure(e) => Failure(e)
  }

  const SummarizeInstruction: string := "You summarize content concisely in 3\U{2013}4 lines."
  const KeywordsInstruction: string := "Extract 5 important keywords (comma separated)."

  /** `tool_summarize` and `tool_keywords` */
  function Summarize(chat: Chat): Tool {
    AskModel(chat, SummarizeInstruction)
  }

  function Keywords(chat: Chat): Tool {
    AskModel(chat, KeywordsInstruction)
  }

  /** The module-level registry: `summarize` and `keywords`. */
  function DefaultTools(chat: Chat): (r: Registry)
    ensures r.Keys == {"summarize", "keywords"}
    ensures r["summarize"] == Summarize(chat) && r["keywords"] == Keywords(chat)
  {
    Register(Register(map[], "summarize", Summarize(chat)), "keywords", Keywords(chat))
  }

  /**
   * Through the registry, each default tool asks the model about exactly
   * its argument under its own instruction, and a failing model call comes
   * back as an error result instead of raising.
   */
  lemma DefaultToolsAskModel(chat: Chat, arg: string)
    ensures var reply := chat([Message("system", SummarizeInstruction), Message("user", arg)]);
            && (reply.Success? ==> Call(DefaultTools(chat), "summarize", arg) == Ok(Str(Strip(reply.value))))
            && (reply.Failure? ==> Call(DefaultTools(chat), "summarize", arg) == Err(reply.error))
    ensures var reply := chat([Message("system", KeywordsInstruction), Message("user", arg)]);
            && (reply.Success? ==> Call(DefaultTools(chat), "keywords", arg) == Ok(Str(Strip(reply.value))))
            && (reply.Failure? ==> Call(DefaultTools(chat), "keywords", arg) == Err(reply.error))
  {
    var tools := DefaultTools(chat);
    assert tools["summarize"](arg) == Summarize(chat)(arg);
    assert tools["keywords"](arg) == Keywords(chat)(arg);
  }

  // ----------------------------------------------------------------------
  // Step execution
  // ----------------------------------------------------------------------

  const CallPrefix: string := "CALL_TOOL:"

  /**
   * `_, tool, arg = step.split(":", 2)` on a step starting with `CALL_TOOL:`:
   * the tool is the text up to the next colon and the argument is everything
   * after it, further colons included; without that colon the unpacking fails.
   */
  function ParseCall(step: string): (r: Option<(string, string)>)
    requires StartsWith(step, CallPrefix)
    ensures r.Some? ==> step == CallPrefix + r.value.0 + ":" + r.value.1
    ensures r.Some? ==> ':' !in r.value.0
    ensures r.None? <==> ':' !in step[|CallPrefix|..]
  {
    var rest := step[|CallPrefix|..];
    match Partition(rest, ":")
    case None =>
      assert forall i :: 0 <= i < |rest| ==> !OccursAt(rest, ":", i) ==> rest[i] != ':' by {
        forall i | 0 <= i < |rest| && rest[i] == ':' ensures OccursAt(rest, ":", i) {
          assert rest[i..i + 1] == [rest[i]];
        }
      }
      None
    case Some((tool, arg)) =>
      assert step == CallPrefix + rest;
      assert ':' !in tool by {
        forall i | 0 <= i < |tool| ensures tool[i] != ':' {
          assert !OccursAt(rest, ":", i);
          assert rest[i..i + 1] == [tool[i]];
        }
      }
      Some((tool, arg))
  }

  /** Writing a call and parsing it back gives the same tool and argument. */
  lemma ParseCallRoundTrip(tool: string, arg: string)
    requires ':' !in tool
    ensures var step := CallPrefix + tool + ":" + arg;
            StartsWith(step, CallPrefix) && ParseCall(step) == Some((tool, arg))
  {
    var step := CallPrefix + tool + ":" + arg;
    assert step[..|CallPrefix|] == CallPrefix;
    var rest := step[|CallPrefix|..];
    assert rest == tool + ":" + arg;
    FirstOccurrenceAfter(tool, ":", arg);
    assert rest[..|tool|] == tool;
    assert rest[|tool| + 1..] == arg;
  }

  const StepInstruction: string := "Execute the step and return a short result."

  /** `execute_step(step)`: the returned dict, or the text of the exception the model call raised. */
  function ExecuteStep(tools: Registry, chat: Chat, step: string): (r: Result<StepResult, string>)
    // a stripped step that is not a tool call is answered by the model, whose failure raises
    ensures !StartsWith(Strip(step), CallPrefix) ==>
      var reply := chat([Message("system", StepInstruction), Message("user", Strip(step))]);
      && (reply.Success? ==> r == Success(Ok(Str(Strip(reply.value)))))
      && (reply.Failure? ==> r == Failure(reply.error))
    // a tool call never raises: the registry catches what the tool raised
    ensures StartsWith(Strip(step), CallPrefix) ==> r.Success?
    // a tool call without a second colon is malformed
    ensures StartsWith(Strip(step), CallPrefix) && ':' !in Strip(step)[|CallPrefix|..] ==>
      r == Success(Err("Invalid CALL_TOOL format"))
    // a well-formed tool call is dispatched through the registry
    ensures StartsWith(Strip(step), CallPrefix) && ParseCall(Strip(step)).Some? ==>
      r == Success(Call(tools, ParseCall(Strip(step)).value.0, ParseCall(Strip(step)).value.1))
  {
    var s := Strip(step);
    if StartsWith(s, CallPrefix) then
      match ParseCall(s)
      case None => Success(Err("Invalid CALL_TOOL format"))
      case Some((tool, arg)) => Success(Call(tools, tool, arg))
    else
      match Llm(chat, [Message("system", StepInstruction), Message("user", s)])
      case Success(reply) => Success(Ok(Str(reply)))
      case Failure(e) => Failure(e)
  }

  /** `CALL_TOOL:<tool>:<arg>` runs `tool` on `arg` exactly, colons in `arg` included. */
  lemma ExecuteToolStep(tools: Registry, chat: Chat, tool: string, arg: string)
    requires ':' !in tool
    requires Strip(CallPrefix + tool + ":" + arg) == CallPrefix + tool + ":" + arg
    ensures ExecuteStep(tools, chat, CallPrefix + tool + ":" + arg) == Success(Call(tools, tool, arg))
  {
    ParseCallRoundTrip(tool, arg);
  }

  // ----------------------------------------------------------------------
  // Plan normalisation (`plan_steps`)
  // ----------------------------------------------------------------------

  /** The numbering characters `lstrip` removes from a plan line. */
  const NumberingChars: string := "1234567890. )("

  /** One non-blank plan line: numbering removed from the front, then white space from both ends. */
  function CleanStep(line: string): string {
    Strip(LStripChars(Strip(line), NumberingChars))
  }

  /** A line is kept when it is not blank. */
  predicate Blank(line: string) {
    Strip(line) == ""
  }

  /** The kept lines, cleaned, in order. */
  function NormaliseLines(lines: seq<string>): (steps: seq<string>)
    ensures |steps| <= |lines|
    decreases |lines|
  {
    if |lines| == 0 then []
    else if Blank(lines[0]) then NormaliseLines(lines[1..])
    else [CleanStep(lines[0])] + NormaliseLines(lines[1..])
  }

  /** Normalising a plan in two pieces gives the two pieces' steps one after the other: order is kept. */
  lemma {:induction false} NormaliseLinesAppend(a: seq<string>, b: seq<string>)
    ensures NormaliseLines(a + b) == NormaliseLines(a) + NormaliseLines(b)
    decreases |a|
  {
    if |a| > 0 {
      var ab := a + b;
      assert ab[0] == a[0];
      assert ab[1..] == a[1..] + b;
      NormaliseLinesAppend(a[1..], b);
      if Blank(a[0]) {
        assert NormaliseLines(ab) == NormaliseLines(ab[1..]);
        assert NormaliseLines(a) == NormaliseLines(a[1..]);
      } else {
        assert NormaliseLines(ab) == [CleanStep(a[0])] + NormaliseLines(ab[1..]);
        assert NormaliseLines(a) == [CleanStep(a[0])] + NormaliseLines(a[1..]);
      }
    } else {
      assert a + b == b;
    }
  }

  /** The number of non-blank lines. */
  function CountNonBlank(lines: seq<string>): nat
    decreases |lines|
  {
    if |lines| == 0 then 0 else (if Blank(lines[0]) then 0 else 1) + CountNonBlank(lines[1..])
  }

  /** Exactly the blank lines are dropped: a line that is only numbering still yields a (possibly empty) step. */
  lemma {:induction false} NormaliseLinesCount(lines: seq<string>)
    ensures |NormaliseLines(lines)| == CountNonBlank(lines)
    decreases |lines|
  {
    if |lines| > 0 {
      NormaliseLinesCount(lines[1..]);
    }
  }

  /** A non-blank line made only of numbering characters is kept as an empty step. */
  lemma NumberingOnlyLine(line: string)
    requires !Blank(line)
    requires forall i :: 0 <= i < |line| ==> line[i] in NumberingChars
    ensures NormaliseLines([line]) == [""]
  {
    var a, b := StripSpec(line);
    var s := Strip(line);
    assert forall i :: 0 <= i < |s| ==> s[i] == line[a + i];
    var drop := c => c in NumberingChars;
    LStripBySpec(s, drop);
    var r := LStripBy(s, drop);
    assert |r| == 0;
    assert CleanStep(line) == Strip("");
    assert NormaliseLines([line]) == [CleanStep(line)] + NormaliseLines([line][1..]);
  }

  const PlannerInstruction: string :=
    "You are a planning agent. Return 3\U{2013}6 short, numbered, executable steps. Do NOT add extra explanation."

  /** The positions of the non-blank lines of `lines[from..]`, in increasing order. */
  function NonBlankFrom(lines: seq<string>, from: nat): (r: seq<nat>)
    requires from <= |lines|
    ensures forall k :: 0 <= k < |r| ==> from <= r[k] < |lines| && !Blank(lines[r[k]])
    ensures forall i :: from <= i < |lines| && !Blank(lines[i]) ==> i in r
    ensures forall a, b :: 0 <= a < b < |r| ==> r[a] < r[b]
    decreases |lines| - from
  {
    if from == |lines| then []
    else
      var rest := NonBlankFrom(lines, from + 1);
      if Blank(lines[from]) then rest else [from] + rest
  }

  /** Step `k` is the cleaned line `idx[k]`. */
  predicate StepsOf(steps: seq<string>, idx: seq<nat>, lines: seq<string>) {
    && |steps| == |idx|
    && forall k :: 0 <= k < |steps| ==> idx[k] < |lines| && steps[k] == CleanStep(lines[idx[k]])
  }

  lemma StepsOfCons(steps: seq<string>, idx: seq<nat>, lines: seq<string>, i: nat)
    requires StepsOf(steps, idx, lines) && i < |lines|
    ensures StepsOf([CleanStep(lines[i])] + steps, [i] + idx, lines)
  {
    var steps2 := [CleanStep(lines[i])] + steps;
    var idx2 := [i] + idx;
    forall k | 1 <= k < |steps2| ensures idx2[k] < |lines| && steps2[k] == CleanStep(lines[idx2[k]]) {
      assert steps2[k] == steps[k - 1] && idx2[k] == idx[k - 1];
    }
  }

  /** The `k`-th step is the `k`-th non-blank line, cleaned. */
  lemma {:induction false} NormaliseLinesSpec(lines: seq<string>, from: nat)
    requires from <= |lines|
    ensures StepsOf(NormaliseLines(lines[from..]), NonBlankFrom(lines, from), lines)
    decreases |lines| - from
  {
    if from < |lines| {
      NormaliseLinesSpec(lines, from + 1);
      assert lines[from..][0] == lines[from];
      assert lines[from..][1..] == lines[from + 1..];
      if !Blank(lines[from]) {
        StepsOfCons(NormaliseLines(lines[from + 1..]), NonBlankFrom(lines, from + 1), lines, from);
      }
    }
  }

  /** The planner's two messages. */
  function PlanMessages(goal: string, context: string): seq<Message> {
    [Message("system", PlannerInstruction),
     Message("user", "Goal: " + goal + "\nContext: " + context + "\nCreate short numbered steps.")]
  }

  /**
   * `plan_steps(goal, context)`: one step per non-blank line of the model's
   * reply, in order, each with its numbering and surrounding white space
   * removed; a failing model call raises.
   */
  function PlanSteps(chat: Chat, goal: string, context: string): (r: Result<seq<string>, string>)
    ensures chat(PlanMessages(goal, context)).Failure? ==> r == Failure(chat(PlanMessages(goal, context)).error)
    ensures chat(PlanMessages(goal, context)).Success? ==>
              var lines := Split(Strip(chat(PlanMessages(goal, context)).value), "\n");
              r.Success? && StepsOf(r.value, NonBlankFrom(lines, 0), lines)
  {
    match Llm(chat, PlanMessages(goal, context))
    case Failure(e) => Failure(e)
    case Success(text) =>
      var lines := Split(text, "\n");
      NormaliseLinesSpec(lines, 0);
      assert lines[0..] == lines;
      Success(NormaliseLines(lines))
  }

  // ----------------------------------------------------------------------
  // Thought / Action extraction and the ReAct loop
  // ----------------------------------------------------------------------

  /** The line starts with `prefix`, ignoring case. */
  predicate Labelled(line: string, prefix: string) {
    StartsWith(Lower(line), prefix)
  }

  /**
   * `line.split(":", 1)[1].strip()` for a labelled line: the label ends with
   * the line's first colon, so the value is what follows the label.
   */
  function LabelValue(line: string, prefix: string): string
    requires Labelled(line, prefix)
  {
    Strip(line[|prefix|..])
  }

  /** The first colon of a line labelled `thought:` or `action:` is the label's own. */
  lemma LabelColon(line: string, prefix: string)
    requires prefix == "thought:" || prefix == "action:"
    requires Labelled(line, prefix)
    ensures Partition(line, ":") == Some((line[..|prefix| - 1], line[|prefix|..]))
  {
    var k := |prefix| - 1;
    assert Lower(line)[k] == ':';
    assert line[k] == ':';
    assert OccursAt(line, ":", k) by {
      assert line[k..k + 1] == [line[k]];
    }
    forall j | 0 <= j < k
      ensures !OccursAt(line, ":", j)
    {
      assert Lower(line)[j] == prefix[j];
      assert line[j..j + 1] == [line[j]];
    }
  }

  /** The `for line in reply.split("\n")` loop: each labelled line overwrites the value so far. */
  function ScanLabel(lines: seq<string>, prefix: string, current: string): string
    decreases |lines|
  {
    if |lines| == 0 then current
    else ScanLabel(lines[1..], prefix, if Labelled(lines[0], prefix) then LabelValue(lines[0], prefix) else current)
  }

  /** The value of the last line carrying the label, or `""` when none does. */
  function LastLabelled(lines: seq<string>, prefix: string): string
    decreases |lines|
  {
    if |lines| == 0 then ""
    else if Labelled(lines[|lines| - 1], prefix) then LabelValue(lines[|lines| - 1], prefix)
    else LastLabelled(lines[..|lines| - 1], prefix)
  }

  /** Scanning from the start ends with the last labelled line's value: the last match wins. */
  lemma {:induction false} ScanLabelIsLast(lines: seq<string>, prefix: string, current: string)
    ensures ScanLabel(lines, prefix, current)
            == if exists i :: 0 <= i < |lines| && Labelled(lines[i], prefix) then LastLabelled(lines, prefix) else current
    decreases |lines|
  {
    if |lines| > 0 {
      var next := if Labelled(lines[0], prefix) then LabelValue(lines[0], prefix) else current;
      var tail := lines[1..];
      ScanLabelIsLast(tail, prefix, next);
      if exists i :: 0 <= i < |tail| && Labelled(tail[i], prefix) {
        var i :| 0 <= i < |tail| && Labelled(tail[i], prefix);
        assert Labelled(lines[i + 1], prefix);
        LastLabelledCons(lines, prefix);
      } else {
        forall i | 1 <= i < |lines| ensures !Labelled(lines[i], prefix) {
          assert lines[i] == tail[i - 1];
        }
        if Labelled(lines[0], prefix) {
          LastLabelledOnlyFirst(lines, prefix);
        }
      }
    }
  }

  /** When the tail has a labelled line, the last labelled line of the whole is the tail's. */
  lemma {:induction false} LastLabelledCons(lines: seq<string>, prefix: string)
    requires |lines| > 0
    requires exists i :: 1 <= i < |lines| && Labelled(lines[i], prefix)
    ensures LastLabelled(lines, prefix) == LastLabelled(lines[1..], prefix)
    decreases |lines|
  {
    var n := |lines|;
    if !Labelled(lines[n - 1], prefix) {
      var i :| 1 <= i < n && Labelled(lines[i], prefix);
      assert i < n - 1;
      assert lines[..n - 1][i] == lines[i];
      LastLabelledCons(lines[..n - 1], prefix);
      assert lines[..n - 1][1..] == lines[1..][..n - 2];
    }
  }

  /** When only the first line is labelled, its value is the last one. */
  lemma {:induction false} LastLabelledOnlyFirst(lines: seq<string>, prefix: string)
    requires |lines| > 0 && Labelled(lines[0], prefix)
    requires forall i :: 1 <= i < |lines| ==> !Labelled(lines[i], prefix)
    ensures LastLabelled(lines, prefix) == LabelValue(lines[0], prefix)
    decreases |lines|
  {
    if |lines| > 1 {
      LastLabelledOnlyFirst(lines[..|lines| - 1], prefix);
    }
  }

  /** The `(thought, action)` pair extracted from a reply. */
  function Extract(reply: string): (string, string) {
    var lines := Split(reply, "\n");
    (ScanLabel(lines, "thought:", ""), ScanLabel(lines, "action:", ""))
  }

  /** The action is the value of the reply's last `Action:` line, or empty when there is none. */
  lemma ExtractAction(reply: string)
    ensures var lines := Split(reply, "\n");
            Extract(reply).1 == LastLabelled(lines, "action:")
  {
    var lines := Split(reply, "\n");
    ScanLabelIsLast(lines, "action:", "");
    if !exists i :: 0 <= i < |lines| && Labelled(lines[i], "action:") {
      NoLabelledLine(lines, "action:");
    }
  }

  lemma {:induction false} NoLabelledLine(lines: seq<string>, prefix: string)
    requires forall i :: 0 <= i < |lines| ==> !Labelled(lines[i], prefix)
    ensures LastLabelled(lines, prefix) == ""
    decreases |lines|
  {
    if |lines| > 0 {
      NoLabelledLine(lines[..|lines| - 1], prefix);
    }
  }

  const ReactInstruction: string :=
    "You follow Thought \U{2192} Action \U{2192} Observation loop. Prefer tool calls using CALL_TOOL:<tool>:<arg>. Stop when the goal is achieved and say DONE."

  /** The conversation the loop starts from. */
  function InitialMessages(goal: string, context: string): seq<Message> {
    [Message("system", ReactInstruction), Message("user", "Goal: " + goal + "\nContext: " + context + "\nBegin.")]
  }

  /** What a step result is fed back as: the result's text, or the error. */
  function Observation(r: StepResult): string {
    match r
    case Ok(v) => PyRepr.PyStr(v)
    case Err(e) => e
  }

  /**
   * How the loop ends: the dict it returns, with the conversation it ended
   * with and how many replies it asked for; or the exception that escaped
   * it, after that many replies.
   */
  datatype Loop =
    | Loop(result: StepResult, messages: seq<Message>, replies: nat)
    | Raised(error: string, replies: nat)

  const GoalAchieved: StepResult := Ok(Str("Goal achieved"))
  const MaxIterations: StepResult := Err("Max iterations reached")

  /** How one iteration ends: DONE stops the loop, a failing model call raises, otherwise the conversation grows. */
  datatype Iteration = Stop | Continue(next: seq<Message>) | Raise(error: string)

  /**
   * One iteration: ask for a reply; stop when its action says DONE in any
   * case, otherwise run the action and append the reply and the observation
   * to the conversation.
   */
  function Iterate(tools: Registry, chat: Chat, messages: seq<Message>): (r: Iteration)
    ensures chat(messages).Failure? ==> r == Raise(chat(messages).error)
    ensures r.Stop? <==> chat(messages).Success? && Contains(Upper(Extract(Strip(chat(messages).value)).1), "DONE")
    ensures r.Continue? ==> |r.next| == |messages| + 2 && r.next[..|messages|] == messages
    ensures r.Continue? ==> r.next[|messages|] == Message("assistant", Strip(chat(messages).value))
    ensures r.Continue? ==> r.next[|messages| + 1].role == "user"
  {
    match Llm(chat, messages)
    case Failure(e) => Raise(e)
    case Success(reply) =>
      var action := Extract(reply).1;
      if Contains(Upper(action), "DONE") then Stop
      else
        match ExecuteStep(tools, chat, action)
        case Failure(e) => Raise(e)
        case Success(result) =>
          Continue(messages + [Message("assistant", reply), Message("user", "Observation: " + Observation(result))])
  }

  /** The ReAct loop with `remaining` iterations left. */
  function ReactFrom(tools: Registry, chat: Chat, messages: seq<Message>, remaining: nat): (r: Loop)
    ensures r.Loop? ==> r.result == GoalAchieved || r.result == MaxIterations
    ensures r.replies <= remaining
    ensures r.Loop? ==> |r.messages| >= |messages| && r.messages[..|messages|] == messages
    // a run that ends with DONE stopped at its last reply; one that does not used every iteration
    ensures r.Loop? && r.result == MaxIterations ==> r.replies == remaining && |r.messages| == |messages| + 2 * remaining
    ensures r.Loop? && r.result == GoalAchieved ==> r.replies >= 1 && |r.messages| == |messages| + 2 * (r.replies - 1)
    ensures r.Raised? ==> r.replies >= 1
    decreases remaining
  {
    if remaining == 0 then Loop(MaxIterations, messages, 0)
    else
      match Iterate(tools, chat, messages)
      case Stop => Loop(GoalAchieved, messages, 1)
      case Raise(e) => Raised(e, 1)
      case Continue(next) =>
        match ReactFrom(tools, chat, next, remaining - 1)
        case Raised(e, n) => Raised(e, n + 1)
        case Loop(result, conversation, n) =>
          assert conversation[..|messages|] == next[..|messages|];
          Loop(result, conversation, n + 1)
  }

  /** `react_loop(goal, context, max_iters)`: `range` of a negative count runs no iteration. */
  function ReactLoop(tools: Registry, chat: Chat, goal: string, context: string, maxIters: int): (r: Loop)
    ensures r.replies <= if maxIters < 0 then 0 else maxIters
    ensures maxIters <= 0 ==> r == Loop(MaxIterations, InitialMessages(goal, context), 0)
  {
    ReactFrom(tools, chat, InitialMessages(goal, context), if maxIters < 0 then 0 else maxIters)
  }

  /** A first reply whose action says DONE, in any case, ends the loop at once. */
  lemma ReactStopsOnDone(tools: Registry, chat: Chat, messages: seq<Message>, remaining: nat)
    requires remaining > 0 && chat(messages).Success?
    requires Contains(Upper(LastLabelled(Split(Strip(chat(messages).value), "\n"), "action:")), "DONE")
    ensures ReactFrom(tools, chat, messages, remaining) == Loop(GoalAchieved, messages, 1)
  {
    ExtractAction(Strip(chat(messages).value));
  }

  /** A failing model call ends the loop with the client's exception, after no further reply. */
  lemma ReactRaisesOnModelFailure(tools: Registry, chat: Chat, messages: seq<Message>, remaining: nat)
    requires remaining > 0 && chat(messages).Failure?
    ensures ReactFrom(tools, chat, messages, remaining) == Raised(chat(messages).error, 1)
  {
  }

  /** An iteration that does not finish appends the reply and then the observation of its action, in that order. */
  lemma ReactStep(tools: Registry, chat: Chat, messages: seq<Message>, remaining: nat)
    requires remaining > 0 && chat(messages).Success?
    requires !Contains(Upper(Extract(Strip(chat(messages).value)).1), "DONE")
    requires ExecuteStep(tools, chat, Extract(Strip(chat(messages).value)).1).Success?
    ensures var reply := Strip(chat(messages).value);
            var result := ExecuteStep(tools, chat, Extract(reply).1).value;
            var r := ReactFrom(tools, chat, messages, remaining);
            r.Loop? ==>
              && |r.messages| >= |messages| + 2
              && r.messages[|messages|] == Message("assistant", reply)
              && r.messages[|messages| + 1] == Message("user", "Observation: " + Observation(result))
  {
    var next := Iterate(tools, chat, messages).next;
    var rest := ReactFrom(tools, chat, next, remaining - 1);
    if rest.Loop? {
      assert rest.messages[..|next|] == next;
      assert rest.messages[|messages|] == next[|messages|];
      assert rest.messages[|messages| + 1] == next[|messages| + 1];
    }
  }
}

=== FILE: bridge.dfy ===
/**
 * The MCP-style bridge (`day10/bridgeserver.py`): a JSON-RPC-shaped request
 * `{id, params}` is validated, every requested tool is resolved through a
 * fixed registry and called over HTTP, the tool results are folded into an
 * augmented prompt, and the prompt goes to the language-model server.
 *
 * The HTTP calls to tools and to the model are oracle parameters; what the
 * bridge does with their answers is modelled exactly, including how the
 * `tool_results` dict compares its keys (`True == 1`) and how `json.dumps`
 * then writes them. The handler returns
 * the response envelope together with the calls it made, so that "no call
 * happens" is a statement about the result.
 */
module Bridge {
  import opened Wrappers
  import opened Strings
  import opened Json
  import JsonEncode

  const OllamaBase: string := "http://localhost:11434/api"
  const DefaultModel: string := "llama3"
  const ToolTimeout: nat := 30
  const ModelTimeout: nat := 300

  /** `TOOL_REGISTRY`: logical tool name to HTTP endpoint, fixed for the life of the process. */
  const Registry: map<string, string> := map[
    "filesystem:list" := "http://localhost:9001/tools/filesystem/list",
    "db:query" := "http://localhost:9001/tools/db/query",
    "todos:list" := "https://jsonplaceholder.typicode.com/todos/1"
  ]

  /** `TOOL_REGISTRY.get(name)`; only a non-empty endpoint counts (`if not endpoint`). */
  function Resolve(name: Json): (r: Option<string>)
    ensures r.Some? <==> name.Str? && name.s in {"filesystem:list", "db:query", "todos:list"}
    ensures r.Some? ==> r.value == Registry[name.s]
  {
    match name
    case Str(s) => if s in Registry && |Registry[s]| > 0 then Some(Registry[s]) else None
    case _ => None
  }

  // ----------------------------------------------------------------------
  // Validation (`MCPInvokeParams(**params)`)
  // ----------------------------------------------------------------------

  /** The validated fields of `MCPInvokeParams`. */
  datatype Params = Params(model: Option<string>, prompt: string, tools: Option<seq<Json>>, toolInputs: Option<Fields>)

  /** `model: str | None = None` */
  function OptionalString(fields: Fields, key: string): Result<Option<string>, string> {
    match Lookup(fields, key)
    case None => Success(None)
    case Some(Null) => Success(None)
    case Some(Str(s)) => Success(Some(s))
    case Some(_) => Failure(key + ": Input should be a valid string")
  }

  /** `tools: list | None = None` */
  function OptionalList(fields: Fields, key: string): Result<Option<seq<Json>>, string> {
    match Lookup(fields, key)
    case None => Success(None)
    case Some(Null) => Success(None)
    case Some(Arr(items)) => Success(Some(items))
    case Some(_) => Failure(key + ": Input should be a valid list")
  }

  /** `tool_inputs: dict | None = None` */
  function OptionalDict(fields: Fields, key: string): Result<Option<Fields>, string> {
    match Lookup(fields, key)
    case None => Success(None)
    case Some(Null) => Success(None)
    case Some(Obj(f)) => Success(Some(f))
    case Some(_) => Failure(key + ": Input should be a valid dictionary")
  }

  /** The `prompt` of a params object, when it is a string. */
  predicate HasStringPrompt(params: Json) {
    params.Obj? && Lookup(params.fields, "prompt").Some? && Lookup(params.fields, "prompt").value.Str?
  }

  /**
   * Builds `MCPInvokeParams` from the raw `params` value; the error text is
   * the validation detail. The rules are those of pydantic v2 in its default
   * lax mode, where a JSON number is not a valid `str`, and keys the model
   * does not declare are ignored.
   */
  function Validate(params: Json): (r: Result<Params, string>)
    ensures r.Success? ==> HasStringPrompt(params) && r.value.prompt == Lookup(params.fields, "prompt").value.s
    ensures r.Success? <==>
      && HasStringPrompt(params)
      && OptionalString(params.fields, "model").Success?
      && OptionalList(params.fields, "tools").Success?
      && OptionalDict(params.fields, "tool_inputs").Success?
  {
    if !params.Obj? then
      // `**params` with a non-mapping raises TypeError before pydantic runs; the
      // script runs as `__main__`, and CPython 3.11+ names the callee by module
      Failure("__main__.MCPInvokeParams() argument after ** must be a mapping, not " + TypeName(params))
    else
      var fields := params.fields;
      match OptionalString(fields, "model")
      case Failure(e) => Failure(e)
      case Success(model) =>
        match Lookup(fields, "prompt")
        case None => Failure("prompt: Field required")
        case Some(p) =>
          if !p.Str? then Failure("prompt: Input should be a valid string")
          else
            match OptionalList(fields, "tools")
            case Failure(e) => Failure(e)
            case Success(tools) =>
              match OptionalDict(fields, "tool_inputs")
              case Failure(e) => Failure(e)
              case Success(inputs) => Success(Params(model, p.s, tools, inputs))
  }

  /** A params object without a string `prompt` is rejected. */
  lemma MissingPromptRejected(params: Json)
    requires !HasStringPrompt(params)
    ensures Validate(params).Failure?
  {
  }

  // ----------------------------------------------------------------------
  // Tool phase
  // ----------------------------------------------------------------------

  /** An HTTP request to a tool endpoint. */
  datatype ToolCall = HttpGet(url: string) | HttpPost(url: string, payload: Json, timeout: nat)

  /**
   * The tool transport: the response body of a successful call, or the text
   * of the exception raised by the request, `raise_for_status` or `r.json()`.
   */
  type ToolOracle = ToolCall -> Result<Loaded, string>

  // ----------------------------------------------------------------------
  // `tool_results`: a dict keyed by the requested names
  // ----------------------------------------------------------------------

  /**
   * What Python's dict compares a key by: `True == 1` and `False == 0`, and
   * strings, integers and `None` never equal one another. Lists and dicts
   * are unhashable; they never reach the dict, because looking them up in
   * the registry already raises.
   */
  datatype HashKey = StrKey(s: string) | IntKey(n: int) | NoneKey | Unhashable

  function HashOf(name: Json): (h: HashKey)
    ensures h.Unhashable? <==> !Hashable(name)
  {
    match name
    case Null => NoneKey
    case Bool(b) => IntKey(if b then 1 else 0)
    case Num(n) => IntKey(n)
    case Str(s) => StrKey(s)
    case Arr(_) => Unhashable
    case Obj(_) => Unhashable
  }

  /** `tool_results`: the key objects as first inserted, each with its current value. */
  type Results = seq<(Json, Json)>

  /** No two keys are equal in Python's sense: what every dict satisfies. */
  predicate UniqueHashes(results: Results) {
    forall i, j :: 0 <= i < j < |results| ==> HashOf(results[i].0) != HashOf(results[j].0)
  }

  /** The position of the key equal to `h`, if any. */
  function FindKey(results: Results, h: HashKey): (r: Option<nat>)
    ensures r.Some? ==> r.value < |results| && HashOf(results[r.value].0) == h
    ensures r.None? ==> forall i :: 0 <= i < |results| ==> HashOf(results[i].0) != h
    decreases |results|
  {
    if |results| == 0 then None
    else if HashOf(results[|results| - 1].0) == h then Some(|results| - 1)
    else FindKey(results[..|results| - 1], h)
  }

  /** `tool_results.get(key)` */
  function Find(results: Results, key: Json): Option<Json> {
    match FindKey(results, HashOf(key))
    case Some(i) => Some(results[i].1)
    case None => None
  }

  /**
   * `tool_results[key] = value`: a key equal to an existing one keeps that
   * entry's place and its original key object and takes the new value; any
   * other key is appended.
   */
  function Store(results: Results, key: Json, value: Json): Results {
    match FindKey(results, HashOf(key))
    case Some(i) => results[i := (results[i].0, value)]
    case None => results + [(key, value)]
  }

  /** The keys present, compared as Python compares them. */
  function HashSet(results: Results): set<HashKey> {
    set i | 0 <= i < |results| :: HashOf(results[i].0)
  }

  /** With unique keys, the key equal to `h` is the one at `i`. */
  lemma FindKeyAt(results: Results, h: HashKey, i: nat)
    requires UniqueHashes(results) && i < |results| && HashOf(results[i].0) == h
    ensures FindKey(results, h) == Some(i)
  {
    var r := FindKey(results, h);
    assert r.Some?;
  }

  /** What storing does to the keys: one more key unless an equal one was there, and never two equal keys. */
  lemma StoreKeys(results: Results, key: Json, value: Json)
    requires UniqueHashes(results)
    ensures HashSet(Store(results, key, value)) == HashSet(results) + {HashOf(key)}
    ensures UniqueHashes(Store(results, key, value))
    ensures forall j :: 0 <= j < |Store(results, key, value)| ==>
              Store(results, key, value)[j].0 == key || exists i :: 0 <= i < |results| && Store(results, key, value)[j].0 == results[i].0
  {
    var r := Store(results, key, value);
    match FindKey(results, HashOf(key))
    case Some(i) =>
      assert forall j :: 0 <= j < |r| ==> r[j].0 == results[j].0;
    case None =>
      assert forall j :: 0 <= j < |results| ==> r[j] == results[j];
      assert r[|results|].0 == key;
      assert HashSet(r) == HashSet(results) + {HashOf(key)} by {
        forall h | h in HashSet(results) + {HashOf(key)} ensures h in HashSet(r) {
          if h != HashOf(key) {
            var j :| 0 <= j < |results| && HashOf(results[j].0) == h;
            assert HashOf(r[j].0) == h;
          }
        }
      }
  }

  /** The positions storing leaves alone: every key keeps its place, and only the stored key's class changes value. */
  lemma StoreKeepsPlaces(results: Results, key: Json, value: Json, k: nat)
    requires k < |results| && HashOf(results[k].0) != HashOf(key)
    ensures k < |Store(results, key, value)| && Store(results, key, value)[k] == results[k]
  {
  }

  /** After storing, the key finds the new value, and every key of another class finds what it found before. */
  lemma StoreFind(results: Results, key: Json, value: Json, other: Json)
    requires UniqueHashes(results)
    ensures Find(Store(results, key, value), key) == Some(value)
    ensures HashOf(other) != HashOf(key) ==> Find(Store(results, key, value), other) == Find(results, other)
  {
    StoreKeys(results, key, value);
    var r := Store(results, key, value);
    var at := match FindKey(results, HashOf(key)) case Some(i) => i case None => |results|;
    assert at < |r| && r[at] == (r[at].0, value) && HashOf(r[at].0) == HashOf(key);
    FindKeyAt(r, HashOf(key), at);
    if HashOf(other) != HashOf(key) {
      StoreFindOther(results, key, value, HashOf(other));
    }
  }

  /** Storing under one key does not move the value found for a key of another class. */
  lemma StoreFindOther(results: Results, key: Json, value: Json, h: HashKey)
    requires UniqueHashes(results) && h != HashOf(key)
    ensures match FindKey(Store(results, key, value), h)
            case Some(k) => FindKey(results, h) == Some(k) && Store(results, key, value)[k] == results[k]
            case None => FindKey(results, h).None?
  {
    StoreKeys(results, key, value);
    var r := Store(results, key, value);
    match FindKey(results, h)
    case Some(k) =>
      StoreKeepsPlaces(results, key, value, k);
      FindKeyAt(r, h, k);
    case None =>
      forall j | 0 <= j < |r| ensures HashOf(r[j].0) != h {
        if j < |results| {
          assert r[j].0 == results[j].0;
        }
      }
  }

  /**
   * The text `json.dumps` writes for a dict key: a string as itself, `None`
   * and booleans and integers as their JSON text. Two keys Python keeps apart,
   * such as `1` and `"1"`, may be written with the same text.
   */
  function KeyText(key: Json): string {
    match key
    case Str(s) => s
    case _ => JsonEncode.Dumps(key)
  }

  /** `tool_results` as the JSON object it is sent as. */
  function Rendered(results: Results): (f: Fields)
    ensures |f| == |results|
    ensures forall i :: 0 <= i < |f| ==> f[i] == (KeyText(results[i].0), results[i].1)
  {
    seq(|results|, i requires 0 <= i < |results| => (KeyText(results[i].0), results[i].1))
  }

  /** The request made for a registered tool: GET without payload, or POST of `tool_inputs.get(name, {})`. */
  function ToolRequest(endpoint: string, name: string, inputs: Fields, useGet: bool): (c: ToolCall)
    ensures c.url == endpoint
    ensures c.HttpGet? <==> useGet
    ensures c.HttpPost? ==> c.payload == Lookup(inputs, name).GetOr(Obj([])) && c.timeout == 30
  {
    if useGet then HttpGet(endpoint) else HttpPost(endpoint, Get(inputs, name, Obj([])), ToolTimeout)
  }

  /** One tool's entry in `tool_results`, with the request made for it (none when it is not registered). */
  function InvokeTool(name: Json, inputs: Fields, useGet: bool, call: ToolOracle): (r: (Json, Option<ToolCall>))
    ensures Resolve(name).None? ==> r == (ErrorObject("tool not registered"), None)
    ensures Resolve(name).Some? ==>
      && r.1 == Some(ToolRequest(Resolve(name).value, name.s, inputs, useGet))
      && r.0 == match call(r.1.value) case Success(v) => v case Failure(e) => ErrorObject(e)
    ensures Decoded(r.0)
  {
    match Resolve(name)
    case None => (ErrorObject("tool not registered"), None)
    case Some(endpoint) =>
      var request := ToolRequest(endpoint, name.s, inputs, useGet);
      match call(request)
      case Success(v) => (v, Some(request))
      case Failure(e) => (ErrorObject(e), Some(request))
  }

  /** The state after the tool loop: the results so far, the requests made, and whether it faulted. */
  datatype Phase = Phase(results: Results, calls: seq<ToolCall>, fault: bool)

  /** The `for tool_name in tools` loop, over the names in request order. */
  function ToolPhase(names: seq<Json>, inputs: Fields, useGet: bool, call: ToolOracle): (p: Phase)
    // every entry is a decoded tool body or an error object, so each holds a key at most once
    ensures forall j :: 0 <= j < |p.results| ==> Decoded(p.results[j].1)
    decreases |names|
  {
    if |names| == 0 then Phase([], [], false)
    else
      var prev := ToolPhase(names[..|names| - 1], inputs, useGet, call);
      var name := names[|names| - 1];
      if prev.fault then prev
      else if !Hashable(name) then Phase(prev.results, prev.calls, true)
      else
        var (entry, request) := InvokeTool(name, inputs, useGet, call);
        var made := if request.Some? then [request.value] else [];
        Phase(Store(prev.results, name, entry), prev.calls + made, false)
  }

  /** The tool loop aborts the request exactly when some requested name is a list or a dict. */
  lemma {:induction false} ToolPhaseFault(names: seq<Json>, inputs: Fields, useGet: bool, call: ToolOracle)
    ensures ToolPhase(names, inputs, useGet, call).fault <==> exists i :: 0 <= i < |names| && !Hashable(names[i])
    decreases |names|
  {
    if |names| > 0 {
      var init := names[..|names| - 1];
      ToolPhaseFault(init, inputs, useGet, call);
      FaultStep(names, inputs, useGet, call);
      assert forall i :: 0 <= i < |init| ==> init[i] == names[i];
    }
  }

  /** One more name faults the loop when it already had, or when that name is unhashable. */
  lemma FaultStep(names: seq<Json>, inputs: Fields, useGet: bool, call: ToolOracle)
    requires |names| > 0
    ensures ToolPhase(names, inputs, useGet, call).fault
            == (ToolPhase(names[..|names| - 1], inputs, useGet, call).fault || !Hashable(names[|names| - 1]))
  {
  }

  /** Without a fault, one more name stores its own entry under its key. */
  lemma ResultsStep(names: seq<Json>, inputs: Fields, useGet: bool, call: ToolOracle)
    requires |names| > 0 && !ToolPhase(names, inputs, useGet, call).fault
    ensures !ToolPhase(names[..|names| - 1], inputs, useGet, call).fault
    ensures ToolPhase(names, inputs, useGet, call).results
            == Store(ToolPhase(names[..|names| - 1], inputs, useGet, call).results,
                     names[|names| - 1], Entry(names[|names| - 1], inputs, useGet, call))
  {
  }

  /** The requested names, compared as Python compares them. */
  function RequestedHashes(names: seq<Json>): set<HashKey> {
    set i | 0 <= i < |names| :: HashOf(names[i])
  }

  /** `names[i]` is the first of the requested names equal to it. */
  predicate FirstOfClass(names: seq<Json>, i: int) {
    0 <= i < |names| && forall k :: 0 <= k < i ==> HashOf(names[k]) != HashOf(names[i])
  }

  /**
   * The keys of `results` are exactly the names requested, each once as
   * Python compares them, and each key is the object of the first request
   * of its class.
   */
  ghost predicate KeysOfRequest(names: seq<Json>, results: Results) {
    && HashSet(results) == RequestedHashes(names)
    && UniqueHashes(results)
    && forall j :: 0 <= j < |results| ==> exists i :: FirstOfClass(names, i) && results[j].0 == names[i]
  }

  /** Storing the next requested name keeps the keys those of the longer request. */
  lemma KeysOfRequestStore(names: seq<Json>, results: Results, entry: Json)
    requires |names| > 0 && KeysOfRequest(names[..|names| - 1], results)
    ensures KeysOfRequest(names, Store(results, names[|names| - 1], entry))
  {
    var init := names[..|names| - 1];
    var name := names[|names| - 1];
    assert names == init + [name];
    StoreKeys(results, name, entry);
    RequestedHashesSnoc(init, name);
    FirstOfClassStore(init, results, name, entry);
  }

  /**
   * Completeness: the keys of `tool_results` are exactly the requested
   * names, each once as Python compares them, whatever the individual calls
   * returned; and each key is the object of the first request of its class
   * (`[true, 1]` leaves the one key `true`).
   */
  lemma {:induction false} ToolPhaseKeys(names: seq<Json>, inputs: Fields, useGet: bool, call: ToolOracle)
    requires !ToolPhase(names, inputs, useGet, call).fault
    ensures KeysOfRequest(names, ToolPhase(names, inputs, useGet, call).results)
    decreases |names|
  {
    if |names| > 0 {
      var init := names[..|names| - 1];
      ResultsStep(names, inputs, useGet, call);
      ToolPhaseKeys(init, inputs, useGet, call);
      KeysOfRequestStore(names, ToolPhase(init, inputs, useGet, call).results, Entry(names[|names| - 1], inputs, useGet, call));
    }
  }

  lemma RequestedHashesSnoc(init: seq<Json>, name: Json)
    ensures RequestedHashes(init + [name]) == RequestedHashes(init) + {HashOf(name)}
  {
    var names := init + [name];
    assert names[|init|] == name;
    assert forall i :: 0 <= i < |init| ==> names[i] == init[i];
  }

  /** Storing the next requested name keeps every key the first requested name of its class. */
  lemma FirstOfClassStore(init: seq<Json>, results: Results, name: Json, entry: Json)
    requires UniqueHashes(results) && HashSet(results) == RequestedHashes(init)
    requires forall j :: 0 <= j < |results| ==> exists i :: FirstOfClass(init, i) && results[j].0 == init[i]
    ensures var r := Store(results, name, entry);
            forall j :: 0 <= j < |r| ==> exists i :: FirstOfClass(init + [name], i) && r[j].0 == (init + [name])[i]
  {
    var names := init + [name];
    var r := Store(results, name, entry);
    StoreKeys(results, name, entry);
    forall j | 0 <= j < |r| ensures exists i :: FirstOfClass(names, i) && r[j].0 == names[i] {
      if exists i :: 0 <= i < |results| && r[j].0 == results[i].0 {
        var i :| 0 <= i < |results| && r[j].0 == results[i].0;
        var k :| FirstOfClass(init, k) && results[i].0 == init[k];
        assert names[k] == init[k];
        assert FirstOfClass(names, k) by {
          assert forall m :: 0 <= m <= k ==> init[m] == names[m];
        }
      } else {
        assert r[j].0 == name;
        // a new key: no earlier request was equal to it, or its entry would have been found
        assert HashOf(name) !in HashSet(results) by {
          if HashOf(name) in HashSet(results) {
            var m :| 0 <= m < |results| && HashOf(results[m].0) == HashOf(name);
            FindKeyAt(results, HashOf(name), m);
          }
        }
        assert names[|init|] == name;
        assert FirstOfClass(names, |init|) by {
          forall k | 0 <= k < |init| ensures HashOf(names[k]) != HashOf(name) {
            assert names[k] == init[k];
            assert HashOf(init[k]) in RequestedHashes(init);
          }
        }
      }
    }
  }

  /** `[true, 1]`: the two names are one dict key, written `"true"`, holding the second call's entry. */
  lemma TrueAndOneShareAKey(inputs: Fields, useGet: bool, call: ToolOracle)
    ensures Rendered(ToolPhase([Bool(true), Num(1)], inputs, useGet, call).results)
            == [("true", ErrorObject("tool not registered"))]
  {
  }

  /** `[1, "1"]`: two dict keys that `json.dumps` writes with the same text. */
  lemma OneAndStringOneKeptApart(inputs: Fields, useGet: bool, call: ToolOracle)
    ensures Keys(Rendered(ToolPhase([Num(1), Str("1")], inputs, useGet, call).results)) == ["1", "1"]
  {
    TwoDistinctNames(Num(1), Str("1"), inputs, useGet, call);
    RenderedPair(Num(1), Entry(Num(1), inputs, useGet, call), Str("1"), Entry(Str("1"), inputs, useGet, call));
    DumpsOne();
  }

  /** Two hashable names Python keeps apart leave two entries, in request order. */
  lemma TwoDistinctNames(a: Json, b: Json, inputs: Fields, useGet: bool, call: ToolOracle)
    requires Hashable(a) && Hashable(b) && HashOf(a) != HashOf(b)
    ensures ToolPhase([a, b], inputs, useGet, call).results
            == [(a, Entry(a, inputs, useGet, call)), (b, Entry(b, inputs, useGet, call))]
  {
    var names := [a, b];
    var e1 := Entry(a, inputs, useGet, call);
    SingleNamePhase(a, inputs, useGet, call);
    assert names[..1] == [a];
    ResultsStep(names, inputs, useGet, call);
    assert FindKey([(a, e1)], HashOf(b)).None?;
  }

  /** One requested hashable name leaves exactly its own entry. */
  lemma SingleNamePhase(name: Json, inputs: Fields, useGet: bool, call: ToolOracle)
    requires Hashable(name)
    ensures ToolPhase([name], inputs, useGet, call).results == [(name, Entry(name, inputs, useGet, call))]
    ensures !ToolPhase([name], inputs, useGet, call).fault
  {
    assert [name][..0] == [];
  }

  /** Two stored pairs are sent as their two key texts, in order. */
  lemma RenderedPair(k1: Json, v1: Json, k2: Json, v2: Json)
    ensures Keys(Rendered([(k1, v1), (k2, v2)])) == [KeyText(k1), KeyText(k2)]
  {
    var f := Rendered([(k1, v1), (k2, v2)]);
    assert |Keys(f)| == 2 && Keys(f)[0] == KeyText(k1) && Keys(f)[1] == KeyText(k2);
  }

  /** `json.dumps` writes the dict key `1` as `"1"`. */
  lemma DumpsOne()
    ensures KeyText(Num(1)) == "1"
  {
    assert JsonEncode.Dumps(Num(1)) == IntToString(1);
  }

  /** The entry a name gets on its own, independent of the other names requested. */
  function Entry(name: Json, inputs: Fields, useGet: bool, call: ToolOracle): Json {
    InvokeTool(name, inputs, useGet, call).0
  }

  /** The last request equal, in Python's sense, to `names[i]` is `names[i]` itself. */
  predicate LastForKey(names: seq<Json>, i: int) {
    0 <= i < |names| && forall j :: i < j < |names| ==> HashOf(names[j]) != HashOf(names[i])
  }

  /**
   * Isolation: each name's entry is what its own call produced (a failure
   * or a missing registration touches only that entry), and for a repeated
   * name, or an equal one such as `1` after `true`, the later call's entry
   * overwrites the earlier one.
   */
  lemma {:induction false} ToolPhaseEntries(names: seq<Json>, inputs: Fields, useGet: bool, call: ToolOracle, i: int)
    requires !ToolPhase(names, inputs, useGet, call).fault
    requires LastForKey(names, i)
    ensures Find(ToolPhase(names, inputs, useGet, call).results, names[i]) == Some(Entry(names[i], inputs, useGet, call))
    decreases |names|
  {
    var init := names[..|names| - 1];
    var name := names[|names| - 1];
    var prev := ToolPhase(init, inputs, useGet, call);
    var entry := Entry(name, inputs, useGet, call);
    ResultsStep(names, inputs, useGet, call);
    ToolPhaseKeys(init, inputs, useGet, call);
    StoreFind(prev.results, name, entry, names[i]);
    if i < |names| - 1 {
      assert init[i] == names[i];
      assert LastForKey(init, i) by {
        assert forall j :: i < j < |init| ==> init[j] == names[j];
      }
      ToolPhaseEntries(init, inputs, useGet, call, i);
    }
  }

  /** The requests the loop is meant to make: one per registered name, in request order. */
  function ExpectedCalls(names: seq<Json>, inputs: Fields, useGet: bool): seq<ToolCall>
    decreases |names|
  {
    if |names| == 0 then []
    else
      var first := match Resolve(names[0])
        case Some(endpoint) => [ToolRequest(endpoint, names[0].s, inputs, useGet)]
        case None => [];
      first + ExpectedCalls(names[1..], inputs, useGet)
  }

  lemma {:induction false} ExpectedCallsSnoc(names: seq<Json>, inputs: Fields, useGet: bool)
    requires |names| > 0
    ensures ExpectedCalls(names, inputs, useGet)
            == ExpectedCalls(names[..|names| - 1], inputs, useGet)
               + (match Resolve(names[|names| - 1])
                  case Some(endpoint) => [ToolRequest(endpoint, names[|names| - 1].s, inputs, useGet)]
                  case None => [])
    decreases |names|
  {
    if |names| > 1 {
      ExpectedCallsSnoc(names[1..], inputs, useGet);
      assert names[1..][..|names[1..]| - 1] == names[..|names| - 1][1..];
    }
  }

  /**
   * Transport: without a fault, the loop makes exactly one request per
   * registered name, in order, and none for an unregistered name.
   */
  lemma {:induction false} ToolPhaseCalls(names: seq<Json>, inputs: Fields, useGet: bool, call: ToolOracle)
    requires !ToolPhase(names, inputs, useGet, call).fault
    ensures ToolPhase(names, inputs, useGet, call).calls == ExpectedCalls(names, inputs, useGet)
    decreases |names|
  {
    if |names| > 0 {
      ToolPhaseCalls(names[..|names| - 1], inputs, useGet, call);
      ExpectedCallsSnoc(names, inputs, useGet);
    }
  }

  // ----------------------------------------------------------------------
  // Augmented prompt
  // ----------------------------------------------------------------------

  const Preamble: string := "The model has access to the following tool results (do not assume more than listed):\n\n"
  const Closing: string := "Now answer the user's prompt.\n\nUser prompt:\n"

  /** The prompt sent to the model: the prompt itself, or the tool results shown ahead of it. */
  function Augment(prompt: string, results: Fields): (a: string)
    requires forall i :: 0 <= i < |results| ==> Decoded(results[i].1)
    ensures |results| == 0 ==> a == prompt
    ensures |results| > 0 ==> StartsWith(a, Preamble)
    ensures |results| > 0 ==> EndsWith(a, Closing + prompt)
    ensures |results| > 0 ==> OccursAt(a, JsonEncode.DumpsIndented(Obj(results), 2), |Preamble|)
    ensures |results| > 0 ==> OccursAt(a, "\n\n", |Preamble| + |JsonEncode.DumpsIndented(Obj(results), 2)|)
    ensures |results| > 0 ==> |a| == |Preamble| + |JsonEncode.DumpsIndented(Obj(results), 2)| + 2 + |Closing + prompt|
    ensures EndsWith(a, prompt)
  {
    if |results| == 0 then prompt
    else
      var rendered := JsonEncode.DumpsIndented(Obj(results), 2);
      PromptLayout(Preamble, rendered, "\n\n", Closing, prompt);
      Preamble + rendered + "\n\n" + Closing + prompt
  }

  /** Where each piece of a text made of a head, a body, a separator, a closing and a last part sits. */
  lemma PromptLayout(head: string, body: string, sep: string, closing: string, last: string)
    ensures var a := head + body + sep + closing + last;
            && StartsWith(a, head)
            && EndsWith(a, closing + last)
            && EndsWith(a, last)
            && OccursAt(a, body, |head|)
            && OccursAt(a, sep, |head| + |body|)
            && |a| == |head| + |body| + |sep| + |closing + last|
  {
    var a := head + body + sep + closing + last;
    assert a[..|head|] == head;
    assert a[|a| - |closing + last|..] == closing + last;
    assert a[|a| - |last|..] == last;
    assert a[|head|..|head| + |body|] == body;
    assert a[|head| + |body|..|head| + |body| + |sep|] == sep;
  }

  // ----------------------------------------------------------------------
  // The handlers
  // ----------------------------------------------------------------------

  /** The `/api/generate` request: non-streaming, 300 s timeout. */
  datatype Generate = Generate(url: string, model: string, prompt: string, stream: bool, timeout: nat)

  /** The model server: the decoded response body, or the text of the request's exception. */
  type ModelOracle = Generate -> Result<Loaded, string>

  /** The response: a JSON-RPC success or error envelope, or the framework's HTTP 500 for an uncaught exception. */
  datatype Envelope =
    | Reply(id: Json, result: Json)
    | ErrorReply(id: Json, message: string)
    | ServerFault

  /** The JSON body of an envelope: `result` and `error` never appear together. */
  function ToJson(e: Envelope): (r: Option<Json>)
    ensures r.None? <==> e.ServerFault?
    ensures r.Some? ==> r.value.Obj? && |r.value.fields| == 3
    ensures r.Some? ==> r.value.fields[0] == ("jsonrpc", Str("2.0")) && r.value.fields[1] == ("id", e.id)
    ensures r.Some? ==> Keys(r.value.fields) == ["jsonrpc", "id", if e.Reply? then "result" else "error"]
  {
    match e
    case Reply(id, result) =>
      var f := [("jsonrpc", Str("2.0")), ("id", id), ("result", result)];
      assert Keys(f) == ["jsonrpc", "id", "result"];
      Some(Obj(f))
    case ErrorReply(id, message) =>
      var f := [("jsonrpc", Str("2.0")), ("id", id), ("error", Obj([("message", Str(message))]))];
      assert Keys(f) == ["jsonrpc", "id", "error"];
      Some(Obj(f))
    case ServerFault => None
  }

  /** The envelope and the calls made while producing it. */
  datatype Outcome = Outcome(envelope: Envelope, toolCalls: seq<ToolCall>, modelCall: Option<Generate>)

  /** `body.get("id")` */
  function BodyId(body: Json): Json {
    match body
    case Obj(fields) => Get(fields, "id", Null)
    case _ => Null
  }

  /** `body.get("params", {})` */
  function BodyParams(body: Json): Json {
    match body
    case Obj(fields) => Get(fields, "params", Obj([]))
    case _ => Null
  }

  /** A request that passed validation. */
  datatype Accepted = Accepted(id: Json, params: Params, useGet: bool)

  /** Reading and validating the body; a failure carries the envelope to answer with. */
  function Receive(body: Json): (r: Result<Accepted, Envelope>)
    ensures r.Success? ==> r.value.id == BodyId(body)
    ensures r.Failure? && body.Obj? ==> r.error.ErrorReply? && r.error.id == BodyId(body)
    ensures r.Failure? && body.Obj? ==> StartsWith(r.error.message, "invalid params: ")
    ensures body.Obj? ==> (r.Success? <==> Validate(BodyParams(body)).Success?)
    ensures !body.Obj? ==> r == Failure(ServerFault)
  {
    if !body.Obj? then
      // `body.get` on a non-object raises AttributeError: the framework answers HTTP 500
      Failure(ServerFault)
    else
      var id := Get(body.fields, "id", Null);
      var params := Get(body.fields, "params", Obj([]));
      match Validate(params)
      case Failure(detail) => Failure(ErrorReply(id, "invalid params: " + detail))
      case Success(p) =>
        // the transport hint is read from the raw params, not the validated ones
        Success(Accepted(id, p, Lookup(params.fields, "httpmethod") == Some(Str("get"))))
  }

  /** `p.tools or []` */
  function ToolNames(p: Params): seq<Json> {
    p.tools.GetOr([])
  }

  /** `p.tool_inputs or {}` */
  function ToolInputs(p: Params): Fields {
    p.toolInputs.GetOr([])
  }

  /** `p.model or MODEL_NAME`: a missing or empty model name falls back to the default. */
  function ModelName(p: Params): (m: string)
    ensures p.model.Some? && |p.model.value| > 0 ==> m == p.model.value
    ensures p.model.None? || p.model.value == "" ==> m == "llama3"
  {
    match p.model
    case Some(m) => if |m| > 0 then m else DefaultModel
    case None => DefaultModel
  }

  /** What the model was asked and what it answered, turned into the envelope. */
  function Answer(id: Json, results: Fields, request: Generate, generate: ModelOracle): (e: Envelope)
    ensures !e.ServerFault? && e.id == id
    // a model failure is request-fatal and drops the tool results
    ensures generate(request).Failure? ==> e == ErrorReply(id, "ollama error: " + generate(request).error)
    // success carries both the tool results and the model response
    ensures generate(request).Success? ==>
      && e.Reply? && e.result.Obj?
      && Keys(e.result.fields) == ["tool_results", "model_response"]
      && e.result.fields[0].1 == Obj(results)
      && e.result.fields[1].1 == generate(request).value
  {
    match generate(request)
    case Failure(err) => ErrorReply(id, "ollama error: " + err)
    case Success(response) =>
      var result := [("tool_results", Obj(results)), ("model_response", response)];
      assert Keys(result) == ["tool_results", "model_response"];
      Reply(id, Obj(result))
  }

  /** The request sent to `/api/generate` once the tools have answered. */
  function ModelRequest(p: Params, results: Fields): (g: Generate)
    requires forall i :: 0 <= i < |results| ==> Decoded(results[i].1)
    ensures g.url == "http://localhost:11434/api/generate"
    ensures g.model == ModelName(p) && !g.stream && g.timeout == 300
    ensures EndsWith(g.prompt, p.prompt)
    ensures |results| == 0 ==> g.prompt == p.prompt
  {
    Generate(OllamaBase + "/generate", ModelName(p), Augment(p.prompt, results), false, ModelTimeout)
  }

  /** The tool phase of an accepted request. */
  function RunTools(req: Accepted, call: ToolOracle): Phase {
    ToolPhase(ToolNames(req.params), ToolInputs(req.params), req.useGet, call)
  }

  /** `POST /mcp`: validate, call the tools, build the augmented prompt, call the model, answer. */
  function Handle(body: Json, call: ToolOracle, generate: ModelOracle): (o: Outcome)
    // every envelope echoes `body.get("id")`
    ensures !o.envelope.ServerFault? ==> o.envelope.id == BodyId(body)
    // validation short-circuit: nothing is called
    ensures Receive(body).Failure? ==> o.toolCalls == [] && o.modelCall.None? && o.envelope == Receive(body).error
    // the model is called once, after every tool, unless a tool name faulted the request
    ensures Receive(body).Success? ==>
      var phase := RunTools(Receive(body).value, call);
      && o.toolCalls == phase.calls
      && (phase.fault <==> o.envelope.ServerFault?)
      && (!phase.fault ==> o.modelCall == Some(ModelRequest(Receive(body).value.params, Rendered(phase.results))))
      && (!phase.fault ==> o.envelope == Answer(BodyId(body), Rendered(phase.results), o.modelCall.value, generate))
    ensures o.modelCall.Some? ==> Receive(body).Success?
  {
    match Receive(body)
    case Failure(early) => Outcome(early, [], None)
    case Success(req) =>
      var phase := RunTools(req, call);
      if phase.fault then Outcome(ServerFault, phase.calls, None)
      else
        var request := ModelRequest(req.params, Rendered(phase.results));
        Outcome(Answer(req.id, Rendered(phase.results), request, generate), phase.calls, Some(request))
  }

  /** `POST /mcp1`: the same tool phase, answered without ever calling the model. */
  function HandleToolsOnly(body: Json, call: ToolOracle): (o: Outcome)
    ensures o.modelCall.None?
    ensures !o.envelope.ServerFault? ==> o.envelope.id == BodyId(body)
    ensures body.Obj? && Validate(BodyParams(body)).Failure? ==>
      o.envelope.ErrorReply? && StartsWith(o.envelope.message, "invalid params: ") && o.toolCalls == []
    ensures o.envelope.Reply? ==> o.envelope.result.Obj? && Keys(o.envelope.result.fields) == ["tool_results"]
    ensures Receive(body).Failure? ==> o.toolCalls == [] && o.envelope == Receive(body).error
    // the same tool phase as `/mcp`, its results sent back as they are
    ensures Receive(body).Success? ==>
      var phase := RunTools(Receive(body).value, call);
      && o.toolCalls == phase.calls
      && (phase.fault <==> o.envelope.ServerFault?)
      && (!phase.fault ==> o.envelope == Reply(BodyId(body), Obj([("tool_results", Obj(Rendered(phase.results)))])))
  {
    match Receive(body)
    case Failure(early) => Outcome(early, [], None)
    case Success(req) =>
      var phase := RunTools(req, call);
      if phase.fault then Outcome(ServerFault, phase.calls, None)
      else
        var result := [("tool_results", Obj(Rendered(phase.results)))];
        assert Keys(result) == ["tool_results"];
        Outcome(Reply(req.id, Obj(result)), phase.calls, None)
  }

  /**
   * `/mcp1` makes the very tool calls `/mcp` makes, and when the model
   * answers, its `tool_results` are the ones `/mcp` sends.
   */
  lemma ToolsOnlyMatchesHandle(body: Json, call: ToolOracle, generate: ModelOracle)
    ensures HandleToolsOnly(body, call).toolCalls == Handle(body, call, generate).toolCalls
    ensures HandleToolsOnly(body, call).envelope.ServerFault? <==> Handle(body, call, generate).envelope.ServerFault?
    ensures var full := Handle(body, call, generate).envelope;
            full.Reply? ==> HandleToolsOnly(body, call).envelope == Reply(full.id, Obj([full.result.fields[0]]))
  {
  }

  /** The names requested, as the strings they are. */
  function RequestedStrings(names: seq<Json>): set<string> {
    set k | 0 <= k < |names| && names[k].Str? :: names[k].s
  }

  /** With string keys only, the rendered object finds each key's value, and holds exactly those keys. */
  lemma RenderedStrings(results: Results, key: string)
    requires UniqueHashes(results)
    requires forall j :: 0 <= j < |results| ==> results[j].0.Str?
    ensures Lookup(Rendered(results), key) == Find(results, Str(key))
    ensures key in KeySet(Rendered(results)) <==> StrKey(key) in HashSet(results)
  {
    var f := Rendered(results);
    match FindKey(results, StrKey(key))
    case Some(i) =>
      assert f[i].0 == key;
      LastIndexAt(f, key, i);
    case None =>
      assert forall j :: 0 <= j < |f| ==> f[j].0 != key;
      assert LastIndex(f, key).None?;
  }

  /** With string names only, the rendered `tool_results` holds exactly those names, each with its last call's entry. */
  lemma StringResults(names: seq<Json>, inputs: Fields, useGet: bool, call: ToolOracle, i: int)
    requires forall k :: 0 <= k < |names| ==> names[k].Str?
    requires LastForKey(names, i)
    ensures !ToolPhase(names, inputs, useGet, call).fault
    ensures var rendered := Rendered(ToolPhase(names, inputs, useGet, call).results);
            && KeySet(rendered) == RequestedStrings(names)
            && Lookup(rendered, names[i].s) == Some(Entry(names[i], inputs, useGet, call))
  {
    ToolPhaseFault(names, inputs, useGet, call);
    ToolPhaseKeys(names, inputs, useGet, call);
    ToolPhaseEntries(names, inputs, useGet, call, i);
    var results := ToolPhase(names, inputs, useGet, call).results;
    forall j | 0 <= j < |results| ensures results[j].0.Str? {
      var k :| FirstOfClass(names, k) && results[j].0 == names[k];
    }
    RenderedStrings(results, names[i].s);
    assert names[i] == Str(names[i].s);
    forall s ensures s in KeySet(Rendered(results)) <==> s in RequestedStrings(names) {
      RenderedStrings(results, s);
      if StrKey(s) in RequestedHashes(names) {
        var k :| 0 <= k < |names| && HashOf(names[k]) == StrKey(s);
        assert names[k].s == s;
      }
      if s in RequestedStrings(names) {
        var k :| 0 <= k < |names| && names[k].Str? && names[k].s == s;
        assert HashOf(names[k]) == StrKey(s);
      }
    }
  }

  /**
   * The whole request for a well-formed body with string tool names: the
   * response's `tool_results` has one entry per requested name, holding
   * that name's own result, and both `tool_results` and `model_response`
   * are present unless the model call failed.
   */
  lemma HandleSuccess(body: Json, call: ToolOracle, generate: ModelOracle, i: int)
    requires Receive(body).Success?
    requires var names := ToolNames(Receive(body).value.params);
             forall k :: 0 <= k < |names| ==> names[k].Str?
    requires LastForKey(ToolNames(Receive(body).value.params), i)
    ensures var o := Handle(body, call, generate);
            var req := Receive(body).value;
            var names := ToolNames(req.params);
            && o.modelCall.Some?
            && (generate(o.modelCall.value).Success? ==>
                  && o.envelope.Reply?
                  && KeySet(o.envelope.result.fields[0].1.fields) == RequestedStrings(names)
                  && Lookup(o.envelope.result.fields[0].1.fields, names[i].s)
                     == Some(Entry(names[i], ToolInputs(req.params), req.useGet, call)))
            && o.toolCalls == ExpectedCalls(names, ToolInputs(req.params), req.useGet)
  {
    var req := Receive(body).value;
    var names := ToolNames(req.params);
    var inputs := ToolInputs(req.params);
    ToolPhaseFault(names, inputs, req.useGet, call);
    StringResults(names, inputs, req.useGet, call, i);
    ToolPhaseCalls(names, inputs, req.useGet, call);
  }
}

=== FILE: chatroom.dfy ===
/**
 * The two-agent chatroom of `day8/streamlit_chatroom.py`: a fixed number of
 * turns in which the Analyst and the Critic answer each other, each turn
 * optionally running the mock search tool the agent asks for.
 *
 * Each agent's LangChain chain (its prompt template, system prompt and the
 * model behind them) is an oracle from the conversation-history text and the
 * new message to the reply text. The random choice of the first speaker is a
 * parameter. The Streamlit rendering is not modelled; the session's history
 * list and running flag are.
 */
module Chatroom {
  import opened Wrappers
  import opened Strings

  const MaxTurns: nat := 4
  const AnalystName: string := "Analyst Agent"
  const CriticName: string := "Critic Agent"

  // ----------------------------------------------------------------------
  // simulated_search
  // ----------------------------------------------------------------------

  const MarketTrendsResult: string :=
    "Market " + "data suggests a 15% increase in e-commerce adoption over the last quarter, driven by Gen Z users. Major risk: rising shipping costs."
  const ShippingCostsResult: string :=
    "Shipping " + "costs have increased by 8% year-over-year, impacting margins for small businesses."
  const AiAdoptionResult: string :=
    "AI " + "implementation is accelerating in logistics, expected to reduce human error by 40%."

  function InconclusiveResult(query: string): string {
    "Simulated search results for '" + query + "' are inconclusive or general."
  }

  /** `simulated_search(query)`: the first topic the lower-cased query mentions decides the canned result. */
  function SimulatedSearch(query: string): string {
    var q := Lower(query);
    if Contains(q, "market trends") then MarketTrendsResult
    else if Contains(q, "shipping costs") then ShippingCostsResult
    else if Contains(q, "ai adoption") then AiAdoptionResult
    else InconclusiveResult(query)
  }

  /**
   * The precedence of the topics, in any letter case: market trends, then
   * shipping costs, then AI adoption, and otherwise the query quoted back.
   */
  lemma SearchPrecedence(query: string)
    ensures SimulatedSearch(query) == MarketTrendsResult <==> Contains(Lower(query), "market trends")
    ensures SimulatedSearch(query) == ShippingCostsResult
            <==> !Contains(Lower(query), "market trends") && Contains(Lower(query), "shipping costs")
    ensures SimulatedSearch(query) == AiAdoptionResult
            <==> !Contains(Lower(query), "market trends") && !Contains(Lower(query), "shipping costs")
                 && Contains(Lower(query), "ai adoption")
    ensures SimulatedSearch(query) == InconclusiveResult(query)
            <==> !Contains(Lower(query), "market trends") && !Contains(Lower(query), "shipping costs")
                 && !Contains(Lower(query), "ai adoption")
  {
    // The four outcomes differ: the canned texts in length, the fallback in its opening letters.
    assert |MarketTrendsResult| == 139 && |ShippingCostsResult| == 91 && |AiAdoptionResult| == 86;
    assert MarketTrendsResult[0] == 'M' && ShippingCostsResult[1] == 'h' && AiAdoptionResult[0] == 'A';
    assert InconclusiveResult(query)[0] == 'S' && InconclusiveResult(query)[1] == 'i';
  }

  // ----------------------------------------------------------------------
  // re.search(r"TOOL_CALL:\s*(\w+)\(['\"](.*?)['\"]\)", raw, re.IGNORECASE)
  // ----------------------------------------------------------------------

  /** The literal part of the pattern, as matched case-insensitively. */
  const CallMarker: string := "tool_call:"

  predicate IsQuote(c: char) {
    c == '\'' || c == '"'
  }

  /** The literal `TOOL_CALL:` in any letter case starts at `i`. */
  predicate MarkerAt(s: string, i: nat) {
    i + |CallMarker| <= |s| && Lower(s[i..i + |CallMarker|]) == CallMarker
  }

  /** The length of the run of white space starting at `i`. */
  function SpaceRun(s: string, i: nat): (n: nat)
    requires i <= |s|
    ensures i + n <= |s|
    ensures i + n < |s| ==> !IsSpace(s[i + n])
    decreases |s| - i
  {
    if i < |s| && IsSpace(s[i]) then 1 + SpaceRun(s, i + 1) else 0
  }

  /**
   * Where the lazy `(.*?)` stops: the first position from `m` on holding a
   * quote followed by `)`, provided no line break comes first (`.` does not
   * match one).
   */
  function ArgEnd(s: string, m: nat): (r: Option<nat>)
    ensures r.Some? ==> m <= r.value && r.value + 1 < |s| && IsQuote(s[r.value]) && s[r.value + 1] == ')'
    decreases |s| - m
  {
    if m + 1 >= |s| then None
    else if IsQuote(s[m]) && s[m + 1] == ')' then Some(m)
    else if s[m] == '\n' then None
    else ArgEnd(s, m + 1)
  }

  /**
   * The match attempted at `i`, as groups 1 and 2. `\s*` and `\w+` can only
   * take their whole runs: after a shorter run the next pattern item would
   * face a space or a word character.
   */
  function CallAt(s: string, i: nat): Option<(string, string)>
    requires i <= |s|
  {
    if !MarkerAt(s, i) then None
    else
      var j := i + |CallMarker| + SpaceRun(s, i + |CallMarker|);
      var k := j + WordRun(s, j);
      if k == j || k + 1 >= |s| || s[k] != '(' || !IsQuote(s[k + 1]) then None
      else
        match ArgEnd(s, k + 2)
        case None => None
        case Some(m) => Some((s[j..k], s[k + 2..m]))
  }

  /** `re.search`: the match at the leftmost position that has one. */
  function SearchCall(s: string, i: nat): Option<(string, string)>
    requires i <= |s|
    decreases |s| - i
  {
    if i == |s| then None
    else
      match CallAt(s, i)
      case Some(found) => Some(found)
      case None => SearchCall(s, i + 1)
  }

  /** The stripped tool name and argument of the first tool call in a reply, if any. */
  function DetectToolCall(raw: string): (r: Option<(string, string)>)
    ensures r.Some? ==> IsWordName(r.value.0)
  {
    match SearchCall(raw, 0)
    case None => None
    case Some((name, arg)) =>
      SearchCallName(raw, 0);
      Some((Strip(name), Strip(arg)))
  }

  /** A found name is a run of word characters, which stripping leaves alone. */
  lemma {:induction false} SearchCallName(s: string, i: nat)
    requires i <= |s|
    ensures SearchCall(s, i).Some? ==> IsWordName(SearchCall(s, i).value.0)
    ensures SearchCall(s, i).Some? ==> Strip(SearchCall(s, i).value.0) == SearchCall(s, i).value.0
    decreases |s| - i
  {
    if i < |s| {
      if CallAt(s, i).Some? {
        var j := i + |CallMarker| + SpaceRun(s, i + |CallMarker|);
        var k := j + WordRun(s, j);
        var name := s[j..k];
        assert forall t :: 0 <= t < |name| ==> name[t] == s[j + t];
        WordIsNotSpace(name[0]);
        WordIsNotSpace(name[|name| - 1]);
        StripUnchanged(name);
      } else {
        SearchCallName(s, i + 1);
      }
    }
  }

  lemma WordIsNotSpace(c: char)
    requires IsWordChar(c)
    ensures !IsSpace(c)
  {
  }

  /** A call written as `TOOL_CALL: name('arg')`. */
  const CallPrefix: string := "TOOL_CALL: "

  function CallText(name: string, arg: string): string {
    CallPrefix + name + "('" + arg + "')"
  }

  /** A `TOOL_CALL` literal needs a colon at its tenth character. */
  lemma MarkerColon(s: string, i: nat)
    requires MarkerAt(s, i)
    ensures s[i + |CallMarker| - 1] == ':'
  {
    var w := s[i..i + |CallMarker|];
    assert Lower(w)[9] == LowerChar(w[9]);
  }

  lemma {:induction false} ArgEndAt(s: string, m: nat, e: nat)
    requires m <= e && e + 1 < |s| && IsQuote(s[e]) && s[e + 1] == ')'
    requires forall t :: m <= t < e ==> !IsQuote(s[t]) && s[t] != '\n'
    ensures ArgEnd(s, m) == Some(e)
    decreases e - m
  {
    if m < e {
      ArgEndAt(s, m + 1, e);
    }
  }

  /** Where the pieces of a written call sit. */
  lemma CallTextParts(name: string, arg: string)
    ensures var c := CallText(name, arg);
            var k := |CallPrefix| + |name|;
            && |c| == k + 4 + |arg|
            && c[..|CallMarker|] == "TOOL_CALL:" && c[|CallMarker|] == ' '
            && c[|CallPrefix|..k] == name
            && c[k] == '(' && c[k + 1] == '\''
            && c[k + 2..k + 2 + |arg|] == arg
            && c[k + 2 + |arg|] == '\'' && c[k + 3 + |arg|] == ')'
  {
    var c := CallText(name, arg);
    var k := |CallPrefix| + |name|;
    assert c == CallPrefix + name + "('" + arg + "')";
    assert c[..|CallPrefix|] == CallPrefix;
    assert c[|CallPrefix|..k] == name;
    assert c[k + 2..k + 2 + |arg|] == arg;
  }

  /** A slice of a slice. */
  lemma SliceWithin(s: string, i: nat, c: string, a: nat, b: nat)
    requires i + |c| <= |s| && s[i..i + |c|] == c && a <= b <= |c|
    ensures s[i + a..i + b] == c[a..b]
  {
    forall t | a <= t < b ensures s[i + t] == c[t] {
      assert s[i + t] == s[i..i + |c|][t];
    }
  }

  /** A word name followed by `(` is exactly what `\w+` takes. */
  lemma WordAt(s: string, j: nat, name: string)
    requires IsWordName(name) && j + |name| < |s| && s[j..j + |name|] == name && s[j + |name|] == '('
    ensures WordRun(s, j) == |name|
  {
    forall t | j <= t < j + |name| ensures IsWordChar(s[t]) {
      assert s[t] == s[j..j + |name|][t - j];
    }
    WordRunExact(s, j, |name|);
  }

  /** An argument without quotes or line breaks, closed by a quote and `)`, is what `(.*?)` takes. */
  lemma ArgAt(s: string, m: nat, arg: string)
    requires '\'' !in arg && '"' !in arg && '\n' !in arg
    requires m + |arg| + 1 < |s| && s[m..m + |arg|] == arg
    requires IsQuote(s[m + |arg|]) && s[m + |arg| + 1] == ')'
    ensures ArgEnd(s, m) == Some(m + |arg|)
  {
    forall t | m <= t < m + |arg| ensures !IsQuote(s[t]) && s[t] != '\n' {
      assert s[t] == s[m..m + |arg|][t - m];
    }
    ArgEndAt(s, m, m + |arg|);
  }

  /** The text `TOOL_CALL:` followed by one space is the marker and its white space. */
  lemma MarkerThenSpace(s: string, i: nat)
    requires i + |CallMarker| < |s| && s[i..i + |CallMarker|] == "TOOL_CALL:" && s[i + |CallMarker|] == ' '
    requires i + |CallMarker| + 1 < |s| && !IsSpace(s[i + |CallMarker| + 1])
    ensures MarkerAt(s, i)
    ensures SpaceRun(s, i + |CallMarker|) == 1
  {
    assert SpaceRun(s, i + |CallMarker| + 1) == 0;
  }

  /** The match at `i` in terms of where its pieces end. */
  lemma CallAtFrom(s: string, i: nat, j: nat, k: nat, e: nat)
    requires MarkerAt(s, i) && j == i + |CallMarker| + SpaceRun(s, i + |CallMarker|)
    requires j < k && k == j + WordRun(s, j) && k + 1 < |s| && s[k] == '(' && IsQuote(s[k + 1])
    requires ArgEnd(s, k + 2) == Some(e)
    ensures CallAt(s, i) == Some((s[j..k], s[k + 2..e]))
  {
  }

  /** What a written call at `i` puts at each position of `s`. */
  lemma CallTextAt(s: string, i: nat, name: string, arg: string)
    requires i + |CallText(name, arg)| <= |s| && s[i..i + |CallText(name, arg)|] == CallText(name, arg)
    ensures var j := i + |CallPrefix|;
            var k := j + |name|;
            var e := k + 2 + |arg|;
            && e + 1 < |s|
            && s[i..i + |CallMarker|] == "TOOL_CALL:" && s[i + |CallMarker|] == ' '
            && s[j..k] == name && s[k] == '(' && s[k + 1] == '\''
            && s[k + 2..e] == arg && s[e] == '\'' && s[e + 1] == ')'
  {
    var c := CallText(name, arg);
    CallTextParts(name, arg);
    var j := i + |CallPrefix|;
    var k := j + |name|;
    var e := k + 2 + |arg|;
    SliceWithin(s, i, c, 0, |CallMarker|);
    SliceWithin(s, i, c, |CallPrefix|, |CallPrefix| + |name|);
    SliceWithin(s, i, c, |CallPrefix| + |name| + 2, |CallPrefix| + |name| + 2 + |arg|);
    assert s[i + |CallMarker|] == c[|CallMarker|];
    assert s[k] == c[k - i] && s[k + 1] == c[k + 1 - i];
    assert s[e] == c[e - i] && s[e + 1] == c[e + 1 - i];
  }

  /** The call the helper writes is matched where it starts, with its own groups. */
  lemma CallAtCallText(s: string, i: nat, name: string, arg: string)
    requires IsWordName(name)
    requires '\'' !in arg && '"' !in arg && '\n' !in arg
    requires i + |CallText(name, arg)| <= |s| && s[i..i + |CallText(name, arg)|] == CallText(name, arg)
    ensures CallAt(s, i) == Some((name, arg))
  {
    CallTextAt(s, i, name, arg);
    var j := i + |CallPrefix|;
    var k := j + |name|;
    var e := k + 2 + |arg|;
    assert s[j] == s[j..k][0] == name[0];
    WordIsNotSpace(name[0]);
    MarkerThenSpace(s, i);
    WordAt(s, j, name);
    ArgAt(s, k + 2, arg);
    CallAtFrom(s, i, j, k, e);
  }

  /** A marker needs a colon, so none starts in a stretch without one that runs into the call text. */
  lemma NoMarkerBefore(s: string, i: nat, p: nat)
    requires i < p < |s| && p + |CallPrefix| <= |s|
    requires s[p..p + |CallPrefix|] == CallPrefix
    requires forall t :: i <= t < p ==> s[t] != ':'
    ensures !MarkerAt(s, i)
  {
    if MarkerAt(s, i) {
      MarkerColon(s, i);
    }
  }

  /** No match can start in a stretch without colons that is followed by the call text. */
  lemma {:induction false} SearchSkipsPrefix(s: string, i: nat, p: nat)
    requires i <= p < |s| && p + |CallPrefix| <= |s|
    requires s[p..p + |CallPrefix|] == CallPrefix
    requires forall t :: i <= t < p ==> s[t] != ':'
    ensures SearchCall(s, i) == SearchCall(s, p)
    decreases p - i
  {
    if i < p {
      NoMarkerBefore(s, i, p);
      SearchSkipsPrefix(s, i + 1, p);
    }
  }

  /**
   * A reply holding one well-formed call, with no colon before it, is
   * detected with that call's name and stripped argument, whatever follows.
   */
  lemma DetectWrittenCall(before: string, name: string, arg: string, after: string)
    requires ':' !in before
    requires IsWordName(name)
    requires '\'' !in arg && '"' !in arg && '\n' !in arg
    ensures DetectToolCall(before + CallText(name, arg) + after) == Some((name, Strip(arg)))
  {
    var s := before + CallText(name, arg) + after;
    var c := CallText(name, arg);
    var p := |before|;
    assert s[p..p + |c|] == c;
    assert s[p..p + |CallPrefix|] == CallPrefix by {
      assert c[..|CallPrefix|] == CallPrefix;
    }
    forall t | 0 <= t < p ensures s[t] != ':' {
      assert s[t] == before[t];
    }
    SearchSkipsPrefix(s, 0, p);
    CallAtCallText(s, p, name, arg);
    SearchCallName(s, 0);
  }

  // ----------------------------------------------------------------------
  // run_agent_turn
  // ----------------------------------------------------------------------

  /** An agent's chain: `chain.invoke({"conversation_history": h, "new_message": m})`. */
  type Chain = (string, string) -> string

  const SearchToolName: string := "simulated_search"
  const SynthesisRequest: string := "Based on the tool observation, synthesize a final answer to the discussion."

  /** The two history lines a tool use adds before the second model call. */
  function ToolLines(name: string, arg: string, observation: string): seq<string> {
    ["[Tool Used: " + name + "('" + arg + "')]", "[Tool Observation: " + observation + "]"]
  }

  /**
   * `run_agent_turn(agent_chain, current_history, new_message)` with the
   * missing `import re` supplied: the reply and the observation of the
   * search it ran, if it ran one.
   */
  function RunAgentTurn(chain: Chain, history: seq<string>, newMessage: string): (string, Option<string>) {
    var raw := chain(Join(history, "\n"), newMessage);
    match DetectToolCall(raw)
    case Some((name, arg)) =>
      if Lower(name) == SearchToolName then
        var observation := SimulatedSearch(arg);
        var rerun := history + ToolLines(name, arg, observation);
        ("[USED TOOL: " + name + "] " + chain(Join(rerun, "\n"), SynthesisRequest), Some(observation))
      else (raw, None)
    case None => (raw, None)
  }

  /**
   * The search runs exactly when the first reply calls it, in any letter
   * case; otherwise that reply is the turn's answer.
   */
  lemma SearchOnlyWhenCalled(chain: Chain, history: seq<string>, newMessage: string)
    ensures var raw := chain(Join(history, "\n"), newMessage);
            var r := RunAgentTurn(chain, history, newMessage);
            && (r.1.Some? <==> DetectToolCall(raw).Some? && Lower(DetectToolCall(raw).value.0) == SearchToolName)
            && (r.1.None? ==> r.0 == raw)
            && (r.1.Some? ==> r.1.value == SimulatedSearch(DetectToolCall(raw).value.1))
  {
  }

  /**
   * A reply asking for the search tool, in any letter case, makes the agent
   * search for the stripped argument and answer again with the tool lines
   * appended to its history.
   */
  lemma ToolTurn(chain: Chain, history: seq<string>, newMessage: string, before: string, name: string, arg: string, after: string)
    requires chain(Join(history, "\n"), newMessage) == before + CallText(name, arg) + after
    requires ':' !in before && IsWordName(name) && Lower(name) == SearchToolName
    requires '\'' !in arg && '"' !in arg && '\n' !in arg
    ensures var observation := SimulatedSearch(Strip(arg));
            RunAgentTurn(chain, history, newMessage)
            == ("[USED TOOL: " + name + "] "
                + chain(Join(history + ToolLines(name, Strip(arg), observation), "\n"), SynthesisRequest),
                Some(observation))
  {
    DetectWrittenCall(before, name, arg, after);
  }

  /** A call of any other tool is ignored: the first reply stands. */
  lemma OtherToolIgnored(chain: Chain, history: seq<string>, newMessage: string, before: string, name: string, arg: string, after: string)
    requires chain(Join(history, "\n"), newMessage) == before + CallText(name, arg) + after
    requires ':' !in before && IsWordName(name) && Lower(name) != SearchToolName
    requires '\'' !in arg && '"' !in arg && '\n' !in arg
    ensures RunAgentTurn(chain, history, newMessage) == (chain(Join(history, "\n"), newMessage), None)
  {
    DetectWrittenCall(before, name, arg, after);
  }

  /** What a turn as written raises: the module never imports `re`. */
  const MissingRe: string := "name 're' is not defined"

  /** `run_agent_turn` as written: the first model call returns, then line 85 raises `NameError`. */
  function RunAgentTurnAsWritten(chain: Chain, history: seq<string>, newMessage: string): (r: Result<(string, Option<string>), string>)
    ensures r == Failure(MissingRe)
  {
    var _ := chain(Join(history, "\n"), newMessage);
    Failure(MissingRe)
  }

  // ----------------------------------------------------------------------
  // simulate_chatroom
  // ----------------------------------------------------------------------

  /** An entry of `st.session_state.history`. */
  datatype Entry = Entry(speaker: string, message: string)

  datatype Agent = Agent(name: string, chain: Chain)

  /** One turn: who spoke, what they were handed, what they answered, and what the tool observed. */
  datatype Turn = Turn(speaker: string, newMessage: string, response: string, observation: Option<string>)

  /** The session state the chatroom writes. */
  datatype Session = Session(history: seq<Entry>, isRunning: bool)

  const Concluded: string := "Conversation concluded after 4 turns."

  function Opening(prompt: string): string {
    "User initiated topic: " + prompt
  }

  /** Who speaks at turn `t`: the first speaker on even turns, the other on odd ones. */
  function SpeakerAt(first: Agent, second: Agent, t: nat): Agent {
    if t % 2 == 0 then first else second
  }

  /** Two turns on, the same agent speaks again. */
  lemma SpeakersSwap(first: Agent, second: Agent, t: nat)
    ensures SpeakerAt(first, second, t + 2) == SpeakerAt(first, second, t)
  {
    assert (t + 2) % 2 == t % 2;
  }

  /** The line `conversation_history` gains for a turn. */
  function HistoryLine(turn: Turn): string {
    "[" + turn.speaker + "]: " + turn.response
  }

  /** `conversation_history` after the given turns: one line per turn. */
  function Conversation(turns: seq<Turn>): seq<string>
    decreases |turns|
  {
    if |turns| == 0 then [] else Conversation(turns[..|turns| - 1]) + [HistoryLine(turns[|turns| - 1])]
  }

  /** The message shown for a turn: the observation, when there is one, above the reply. */
  function Display(turn: Turn): string {
    match turn.observation
    case Some(o) => if o != "" then "**Tool Observation:** `" + o + "`\n\n" + turn.response else turn.response
    case None => turn.response
  }

  /** The history entries the given turns add: one per turn, shown as `Display` renders it. */
  function Displays(turns: seq<Turn>): seq<Entry>
    decreases |turns|
  {
    if |turns| == 0 then [] else Displays(turns[..|turns| - 1]) + [Entry(turns[|turns| - 1].speaker, Display(turns[|turns| - 1]))]
  }

  /**
   * The rule a turn follows after the earlier ones: the speaker alternates
   * from the first one, the first turn is handed the opening line and each
   * later turn the previous reply, and the turn is the agent's answer to the
   * conversation so far.
   */
  predicate Answers(earlier: seq<Turn>, turn: Turn, first: Agent, second: Agent, prompt: string) {
    var agent := SpeakerAt(first, second, |earlier|);
    && turn.speaker == agent.name
    && turn.newMessage == (if |earlier| == 0 then Opening(prompt) else earlier[|earlier| - 1].response)
    && (turn.response, turn.observation) == RunAgentTurn(agent.chain, Conversation(earlier), turn.newMessage)
  }

  /** Every turn of the transcript follows the rule. */
  predicate Follows(turns: seq<Turn>, first: Agent, second: Agent, prompt: string) {
    forall t {:trigger Answers(turns[..t], turns[t], first, second, prompt)} ::
      0 <= t < |turns| ==> Answers(turns[..t], turns[t], first, second, prompt)
  }

  /** The agents in speaking order, given the coin flip. */
  function Order(analyst: Chain, critic: Chain, analystStarts: bool): (Agent, Agent) {
    if analystStarts then (Agent(AnalystName, analyst), Agent(CriticName, critic))
    else (Agent(CriticName, critic), Agent(AnalystName, analyst))
  }

  /** `conversation_history` holds one `[speaker]: response` line per turn, in turn order. */
  lemma {:induction false} ConversationLines(turns: seq<Turn>)
    ensures |Conversation(turns)| == |turns|
    ensures forall t :: 0 <= t < |turns| ==> Conversation(turns)[t] == "[" + turns[t].speaker + "]: " + turns[t].response
    decreases |turns|
  {
    if |turns| > 0 {
      ConversationLines(turns[..|turns| - 1]);
    }
  }

  /** The history gains one entry per turn, in turn order, under the turn's speaker, ending with the turn's reply. */
  lemma {:induction false} DisplaysLines(turns: seq<Turn>)
    ensures |Displays(turns)| == |turns|
    ensures forall t :: 0 <= t < |turns| ==>
              Displays(turns)[t].speaker == turns[t].speaker && EndsWith(Displays(turns)[t].message, turns[t].response)
    decreases |turns|
  {
    if |turns| > 0 {
      DisplaysLines(turns[..|turns| - 1]);
      var last := turns[|turns| - 1];
      var m := Display(last);
      assert m[|m| - |last.response|..] == last.response;
    }
  }

  lemma ConversationSnoc(turns: seq<Turn>, step: Turn)
    ensures Conversation(turns + [step]) == Conversation(turns) + [HistoryLine(step)]
  {
    assert (turns + [step])[..|turns|] == turns;
  }

  /** The history after one more turn: whatever came before, the displays so far, and the new turn's entry. */
  lemma DisplaysSnoc(before: seq<Entry>, turns: seq<Turn>, step: Turn)
    ensures before + Displays(turns + [step]) == before + Displays(turns) + [Entry(step.speaker, Display(step))]
  {
    assert (turns + [step])[..|turns|] == turns;
  }

  /** A transcript that follows the rules stays so when the next turn follows them too. */
  lemma FollowsSnoc(turns: seq<Turn>, first: Agent, second: Agent, prompt: string, step: Turn)
    requires Follows(turns, first, second, prompt)
    requires Answers(turns, step, first, second, prompt)
    ensures Follows(turns + [step], first, second, prompt)
  {
    var u := turns + [step];
    forall t | 0 <= t < |u| ensures Answers(u[..t], u[t], first, second, prompt) {
      SnocAt(turns, step, t);
    }
  }

  /** A prefix and an element of a sequence with one more element at its end. */
  lemma SnocAt<T>(xs: seq<T>, x: T, t: nat)
    requires t <= |xs|
    ensures (xs + [x])[..t] == xs[..t]
    ensures t < |xs| ==> (xs + [x])[t] == xs[t]
    ensures t == |xs| ==> (xs + [x])[t] == x
  {
    assert (xs + [x])[..t] == xs[..t];
  }

  /** `simulate_chatroom(initial_prompt, llm)`, appending to the session history it finds. */
  method SimulateChatroom(analyst: Chain, critic: Chain, prompt: string, analystStarts: bool, session: seq<Entry>)
    returns (r: Session, turns: seq<Turn>)
    ensures |turns| == MaxTurns
    ensures Follows(turns, Order(analyst, critic, analystStarts).0, Order(analyst, critic, analystStarts).1, prompt)
    ensures r.history == session + [Entry("User", prompt)] + Displays(turns) + [Entry("System", Concluded)]
    ensures !r.isRunning
  {
    var (first, second) := Order(analyst, critic, analystStarts);
    var current, next := first, second;
    var conversation: seq<string> := [];
    var lastMessage := Opening(prompt);
    var history := session + [Entry("User", prompt)];
    turns := [];
    for turn := 0 to MaxTurns
      invariant |turns| == turn
      invariant current == SpeakerAt(first, second, turn) && next == SpeakerAt(first, second, turn + 1)
      invariant lastMessage == if turn == 0 then Opening(prompt) else turns[turn - 1].response
      invariant conversation == Conversation(turns)
      invariant history == session + [Entry("User", prompt)] + Displays(turns)
      invariant Follows(turns, first, second, prompt)
    {
      var (response, observation) := RunAgentTurn(current.chain, conversation, lastMessage);
      var step := Turn(current.name, lastMessage, response, observation);
      assert Answers(turns, step, first, second, prompt);
      FollowsSnoc(turns, first, second, prompt, step);
      ConversationSnoc(turns, step);
      DisplaysSnoc(session + [Entry("User", prompt)], turns, step);
      conversation := conversation + [HistoryLine(step)];
      history := history + [Entry(current.name, Display(step))];
      turns := turns + [step];
      // `simulate_chatroom` breaks out before swapping after the last turn; the swap it skips is never read.
      SpeakersSwap(first, second, turn);
      current, next := next, current;
      lastMessage := response;
    }
    r := Session(history + [Entry("System", Concluded)], false);
  }

  /** After the same earlier turns, only one turn follows the rule. */
  lemma AnswerUnique(earlier: seq<Turn>, x: Turn, y: Turn, first: Agent, second: Agent, prompt: string)
    requires Answers(earlier, x, first, second, prompt) && Answers(earlier, y, first, second, prompt)
    ensures x == y
  {
  }

  lemma FollowsStep(a: seq<Turn>, b: seq<Turn>, first: Agent, second: Agent, prompt: string, t: nat)
    requires t < |a| && t < |b| && a[..t] == b[..t]
    requires Follows(a, first, second, prompt) && Follows(b, first, second, prompt)
    ensures a[t] == b[t]
  {
    assert Answers(a[..t], a[t], first, second, prompt);
    assert Answers(b[..t], b[t], first, second, prompt);
    AnswerUnique(a[..t], a[t], b[t], first, second, prompt);
  }

  /** A transcript is fixed by its rules: two transcripts of the same length that follow them are the same. */
  lemma {:induction false} FollowsUnique(a: seq<Turn>, b: seq<Turn>, first: Agent, second: Agent, prompt: string, n: nat)
    requires |a| == |b| && n <= |a|
    requires Follows(a, first, second, prompt) && Follows(b, first, second, prompt)
    ensures a[..n] == b[..n]
    decreases n
  {
    if n > 0 {
      var t := n - 1;
      FollowsUnique(a, b, first, second, prompt, t);
      FollowsStep(a, b, first, second, prompt, t);
      assert a[..n] == a[..t] + [a[t]] && b[..n] == b[..t] + [b[t]];
    }
  }

  /** The two agents take turns, starting with the one the coin picked. */
  lemma SpeakersAlternate(analyst: Chain, critic: Chain, prompt: string, analystStarts: bool, turns: seq<Turn>)
    requires Follows(turns, Order(analyst, critic, analystStarts).0, Order(analyst, critic, analystStarts).1, prompt)
    ensures |turns| > 0 ==> turns[0].speaker == (if analystStarts then AnalystName else CriticName)
    ensures forall t :: 0 <= t < |turns| - 1 ==> turns[t].speaker != turns[t + 1].speaker
    ensures forall t :: 0 <= t < |turns| ==> turns[t].speaker == AnalystName || turns[t].speaker == CriticName
  {
    var (first, second) := Order(analyst, critic, analystStarts);
    assert AnalystName[0] != CriticName[0];
    assert first.name != second.name;
    forall t | 0 <= t < |turns|
      ensures turns[t].speaker == SpeakerAt(first, second, t).name
    {
      assert Answers(turns[..t], turns[t], first, second, prompt);
    }
    forall t | 0 <= t < |turns| - 1
      ensures turns[t].speaker != turns[t + 1].speaker
    {
      assert (t % 2 == 0) != ((t + 1) % 2 == 0);
    }
  }

  /** The run as written: the user's entry is recorded, then the first turn raises and the session stays running. */
  function SimulateChatroomAsWritten(analyst: Chain, critic: Chain, prompt: string, analystStarts: bool, session: seq<Entry>)
    : (r: (Session, Option<string>))
    ensures r.1 == Some(MissingRe)
  {
    var (first, _) := Order(analyst, critic, analystStarts);
    var history := session + [Entry("User", prompt)];
    match RunAgentTurnAsWritten(first.chain, [], Opening(prompt))
    case Failure(e) => (Session(history, true), Some(e))
    case Success(_) => (Session(history, true), None)
  }

  /**
   * The defect: as written, no agent ever speaks and the session never
   * concludes, while the corrected chatroom always completes its four turns.
   */
  lemma AsWrittenNeverConverses(analyst: Chain, critic: Chain, prompt: string, analystStarts: bool, session: seq<Entry>)
    ensures var (s, error) := SimulateChatroomAsWritten(analyst, critic, prompt, analystStarts, session);
            && s.history == session + [Entry("User", prompt)]
            && s.isRunning
            && error == Some("name 're' is not defined")
  {
  }
}

=== FILE: data_pipeline.dfy ===
/**
 * The two chained tools of `day7/advanced/functionchaining.py`:
 * `load_data_source` hands back a fixed CSV text for `sales_data.csv`, and
 * `calculate_metrics` reads such a text line by line, skipping the header,
 * counting every data line as a transaction and the well-formed ones towards
 * the revenue and the completed-order count.
 *
 * Floating point is not modelled: an accepted amount is kept as its text, and
 * the `:.2f` rendering of their sum is a parameter.
 */
module DataPipeline {
  import opened Wrappers
  import opened Strings

  // ----------------------------------------------------------------------
  // load_data_source
  // ----------------------------------------------------------------------

  const SalesFile: string := "sales_data.csv"

  /** One CSV line: fields separated by a comma and a space. */
  function Row(a: string, b: string, c: string): string {
    a + ", " + b + ", " + c
  }

  const SalesLines: seq<string> := [
    Row("TransactionID", "Amount", "Status"),
    Row("101", "55.50", "New"),
    Row("102", "120.00", "Complete"),
    Row("103", "55.50", "New"),
    Row("104", "300.00", "Complete")
  ]

  /** The mock file's content: a header and four transactions, with no final newline. */
  const SalesCsv: string := Join(SalesLines, "\n")

  const NotSupported: string := "Error: File not found or not supported."

  /** `load_data_source(file_name)` */
  function LoadDataSource(fileName: string): (r: string)
    ensures r == SalesCsv <==> fileName == SalesFile
    ensures r == NotSupported <==> fileName != SalesFile
  {
    JoinEnds(SalesLines, "\n");
    assert SalesCsv[0] == 'T';
    if fileName == SalesFile then SalesCsv else NotSupported
  }

  // ----------------------------------------------------------------------
  // float(text)
  // ----------------------------------------------------------------------

  /** The number of decimal digits in `s` from position `i` on, up to the first non-digit. */
  function DigitRun(s: string, i: nat): (n: nat)
    requires i <= |s|
    ensures i + n <= |s|
    ensures forall k :: i <= k < i + n ==> IsDigit(s[k])
    ensures i + n < |s| ==> !IsDigit(s[i + n])
    decreases |s| - i
  {
    if i == |s| || !IsDigit(s[i]) then 0 else 1 + DigitRun(s, i + 1)
  }

  /** An exponent after the `e`: an optional sign and at least one digit, nothing else. */
  predicate IsExponent(e: string) {
    var k := if |e| > 0 && (e[0] == '+' || e[0] == '-') then 1 else 0;
    var d := DigitRun(e, k);
    d > 0 && k + d == |e|
  }

  /** An unsigned decimal literal: digits with an optional fraction, at least one digit in all, then an optional exponent. */
  predicate IsUnsignedDecimal(u: string) {
    var whole := DigitRun(u, 0);
    var hasPoint := whole < |u| && u[whole] == '.';
    var frac := if hasPoint then DigitRun(u, whole + 1) else 0;
    var end := if hasPoint then whole + 1 + frac else whole;
    && whole + frac > 0
    && (end == |u| || ((u[end] == 'e' || u[end] == 'E') && IsExponent(u[end + 1..])))
  }

  /** The words `float` accepts in any letter case. */
  predicate IsSpecialValue(u: string) {
    Lower(u) == "inf" || Lower(u) == "infinity" || Lower(u) == "nan"
  }

  /**
   * The white space `float()` strips around its text: the space and
   * `\t\n\v\f\r`, and every non-ASCII character `str.isspace()` accepts
   * (those are turned into a space first). The separators `\x1c` to `\x1f`
   * are white space to `str.isspace()`, but `float()` keeps them, and they
   * make the text invalid.
   */
  predicate IsFloatSpace(c: char) {
    c == ' ' || ('\t' <= c <= '\r') || ('\U{80}' <= c && IsSpace(c))
  }

  /** The text `float()` parses once the white space around it is stripped. */
  function FloatStrip(s: string): string {
    RStripBy(LStripBy(s, IsFloatSpace), IsFloatSpace)
  }

  /** A text that starts and ends with something other than white space is parsed as it is. */
  lemma FloatStripUnchanged(s: string)
    requires |s| > 0 && !IsFloatSpace(s[0]) && !IsFloatSpace(s[|s| - 1])
    ensures FloatStrip(s) == s
  {
  }

  /**
   * Texts `float()` converts without a `ValueError`: after stripping white
   * space, an optional sign and then a decimal literal or one of the special
   * words.
   */
  predicate IsFloatText(s: string) {
    var t := FloatStrip(s);
    var u := if |t| > 0 && (t[0] == '+' || t[0] == '-') then t[1..] else t;
    IsUnsignedDecimal(u) || IsSpecialValue(u)
  }

  // ----------------------------------------------------------------------
  // calculate_metrics
  // ----------------------------------------------------------------------

  /** `raw_data_string.strip().split('\n')`: never empty, so the `not lines` test of `calculate_metrics` never fires. */
  function Lines(raw: string): (lines: seq<string>)
    ensures |lines| > 0
  {
    Split(Strip(raw), "\n")
  }

  /** `line.split(', ')` */
  function Fields(line: string): seq<string> {
    Split(line, ", ")
  }

  /** A line the loop body gets through: exactly three fields, the second a float. */
  predicate Parsed(line: string) {
    |Fields(line)| == 3 && IsFloatText(Fields(line)[1])
  }

  /** A parsed line whose status field is exactly `Complete`. */
  predicate Completed(line: string) {
    Parsed(line) && Fields(line)[2] == "Complete"
  }

  /** The amount texts of the parsed lines, in order: what `total_revenue` sums. */
  function Accepted(rows: seq<string>): (amounts: seq<string>)
    ensures |amounts| <= |rows|
    decreases |rows|
  {
    if |rows| == 0 then []
    else
      var last := rows[|rows| - 1];
      Accepted(rows[..|rows| - 1]) + (if Parsed(last) then [Fields(last)[1]] else [])
  }

  /** The number of completed lines: `complete_count`. */
  function CountCompleted(rows: seq<string>): nat
    decreases |rows|
  {
    if |rows| == 0 then 0
    else CountCompleted(rows[..|rows| - 1]) + (if Completed(rows[|rows| - 1]) then 1 else 0)
  }

  /** Every accepted amount is a float text taken from a line that parsed. */
  lemma {:induction false} AcceptedAreFloats(rows: seq<string>)
    ensures forall k :: 0 <= k < |Accepted(rows)| ==> IsFloatText(Accepted(rows)[k])
    decreases |rows|
  {
    if |rows| > 0 {
      AcceptedAreFloats(rows[..|rows| - 1]);
    }
  }

  /** Completed orders are among the accepted lines, which are among all lines. */
  lemma {:induction false} CompletedAmongAccepted(rows: seq<string>)
    ensures CountCompleted(rows) <= |Accepted(rows)| <= |rows|
    decreases |rows|
  {
    if |rows| > 0 {
      CompletedAmongAccepted(rows[..|rows| - 1]);
    }
  }

  /** The tallies are additive: the metrics of two blocks of lines are those of each block, combined. */
  lemma {:induction false} TallyAppend(a: seq<string>, b: seq<string>)
    ensures Accepted(a + b) == Accepted(a) + Accepted(b)
    ensures CountCompleted(a + b) == CountCompleted(a) + CountCompleted(b)
    decreases |b|
  {
    if |b| > 0 {
      var b' := b[..|b| - 1];
      assert (a + b)[..|a + b| - 1] == a + b';
      assert (a + b)[|a + b| - 1] == b[|b| - 1];
      TallyAppend(a, b');
    } else {
      assert a + b == a;
    }
  }

  /** What the loop gathers. */
  datatype Metrics = Metrics(transactions: nat, amounts: seq<string>, completed: nat)

  /** The loop over the data lines. */
  method Tally(rows: seq<string>) returns (amounts: seq<string>, completed: nat)
    ensures amounts == Accepted(rows) && completed == CountCompleted(rows)
  {
    amounts, completed := [], 0;
    var i := 0;
    while i < |rows|
      invariant i <= |rows|
      invariant amounts == Accepted(rows[..i]) && completed == CountCompleted(rows[..i])
    {
      var fields := Fields(rows[i]);
      assert rows[..i + 1][..i] == rows[..i];
      if |fields| == 3 && IsFloatText(fields[1]) {
        amounts := amounts + [fields[1]];
        if fields[2] == "Complete" {
          completed := completed + 1;
        }
      }
      i := i + 1;
    }
    assert rows[..i] == rows;
  }

  const EmptyError: string := "Error: Data is empty or invalid."

  /** The report line, with the revenue already rendered. */
  function Summary(m: Metrics, revenue: string): string {
    "Total Transactions: " + NatToString(m.transactions) + ". Total Revenue: $" + revenue
    + ". Completed Orders: " + NatToString(m.completed)
  }

  /**
   * `calculate_metrics(raw_data_string)`. `formatRevenue` is the `:.2f`
   * rendering of the float sum of the accepted amounts.
   */
  method CalculateMetrics(raw: string, formatRevenue: seq<string> -> string) returns (text: string, m: Option<Metrics>)
    ensures m.None? <==> |Lines(raw)| < 2
    ensures m.None? ==> text == EmptyError
    ensures m.Some? ==> var rows := Lines(raw)[1..];
            && m.value == Metrics(|rows|, Accepted(rows), CountCompleted(rows))
            && text == Summary(m.value, formatRevenue(m.value.amounts))
  {
    var lines := Lines(raw);
    if |lines| < 2 {
      return EmptyError, None;
    }
    var amounts, completed := Tally(lines[1..]);
    var metrics := Metrics(|lines| - 1, amounts, completed);
    return Summary(metrics, formatRevenue(amounts)), Some(metrics);
  }

  /** A report is never mistaken for the error text. */
  lemma SummaryIsNotError(m: Metrics, revenue: string)
    ensures Summary(m, revenue) != EmptyError
  {
    assert Summary(m, revenue)[0] == 'T';
  }

  /** The report shows the transaction count first, in decimal. */
  lemma SummaryStartsWithCount(m: Metrics, revenue: string)
    ensures StartsWith(Summary(m, revenue), "Total Transactions: " + NatToString(m.transactions) + ". ")
  {
    var p := "Total Transactions: " + NatToString(m.transactions) + ". ";
    assert Summary(m, revenue)[..|p|] == p;
  }

  // ----------------------------------------------------------------------
  // The chain the agent is told to follow
  // ----------------------------------------------------------------------

  /** The mock CSV reads back as its five lines. */
  lemma SalesCsvLines()
    ensures Lines(SalesCsv) == SalesLines
  {
    JoinEnds(SalesLines, "\n");
    StripUnchanged(SalesCsv);
    SalesLinesSingle();
    SplitJoin(SalesLines, "\n");
  }

  lemma SalesLinesSingle()
    ensures forall k :: 0 <= k < |SalesLines| ==> '\n' !in SalesLines[k]
  {
  }

  /** Two comma-free fields split back into them. */
  lemma PairFields(b: string, c: string)
    requires ',' !in b && ',' !in c
    ensures Fields(b + ", " + c) == [b, c]
  {
    SplitCons(b, ", ", c);
    NoOccurrence(c, ", ");
  }

  /** A line of three comma-free fields splits back into them. */
  lemma RowFields(a: string, b: string, c: string)
    requires ',' !in a && ',' !in b && ',' !in c
    ensures Fields(Row(a, b, c)) == [a, b, c]
  {
    var rest := b + ", " + c;
    assert Row(a, b, c) == a + ", " + rest;
    assert Fields(a + ", " + rest) == [a] + Fields(rest) by {
      SplitCons(a, ", ", rest);
    }
    assert Fields(rest) == [b, c] by {
      PairFields(b, c);
    }
  }

  /** A run of digits from `i` that stops at `j` has length `j - i`. */
  lemma {:induction false} DigitRunTo(s: string, i: nat, j: nat)
    requires i <= j <= |s|
    requires forall k :: i <= k < j ==> IsDigit(s[k])
    requires j < |s| ==> !IsDigit(s[j])
    ensures DigitRun(s, i) == j - i
    decreases j - i
  {
    if i < j {
      DigitRunTo(s, i + 1, j);
    }
  }

  predicate AllDigits(s: string) {
    forall k :: 0 <= k < |s| ==> IsDigit(s[k])
  }

  /** Digits, a point and digits, as the amounts are written, convert. */
  lemma PointDecimalIsFloat(w: string, f: string)
    requires |w| > 0 && AllDigits(w) && AllDigits(f)
    ensures IsFloatText(w + "." + f)
  {
    var u := w + "." + f;
    assert u[0] == w[0];
    assert u[|u| - 1] == if |f| > 0 then f[|f| - 1] else '.';
    FloatStripUnchanged(u);
    DigitRunTo(u, 0, |w|);
    DigitRunTo(u, |w| + 1, |u|);
  }

  lemma Amount5550IsFloat()
    ensures IsFloatText("55.50")
  {
    PointDecimalIsFloat("55", "50");
    assert "55" + "." + "50" == "55.50";
  }

  lemma Amount12000IsFloat()
    ensures IsFloatText("120.00")
  {
    PointDecimalIsFloat("120", "00");
    assert "120" + "." + "00" == "120.00";
  }

  lemma Amount30000IsFloat()
    ensures IsFloatText("300.00")
  {
    PointDecimalIsFloat("300", "00");
    assert "300" + "." + "00" == "300.00";
  }

  /**
   * A text that starts with one of the separators `\x1c` to `\x1f` never
   * converts, although `str.isspace()` holds for the separator.
   */
  lemma SeparatorPaddingRejected(s: string)
    requires |s| > 0 && '\U{1c}' <= s[0] <= '\U{1f}'
    ensures IsSpace(s[0])
    ensures !IsFloatText(s)
  {
    LStripBySpec(s, IsFloatSpace);
    var l := LStripBy(s, IsFloatSpace);
    assert l == s;
    RStripBySpec(l, IsFloatSpace);
    var t := FloatStrip(s);
    assert |t| > 0 && t[0] == s[0];
    assert !IsDigit(t[0]) && t[0] != '.';
    assert Lower(t)[0] == t[0];
  }

  /** A row whose amount is padded with such a separator is skipped: neither its amount nor its status is counted. */
  lemma SeparatorPaddedRowSkipped(a: string, amount: string, c: string)
    requires ',' !in a && ',' !in amount && ',' !in c
    requires |amount| > 0 && '\U{1c}' <= amount[0] <= '\U{1f}'
    ensures AmountOf(Row(a, amount, c)) == [] && CompletedOf(Row(a, amount, c)) == 0
  {
    RowFields(a, amount, c);
    SeparatorPaddingRejected(amount);
  }

  /** The padded row `101, \x1c55.50, Complete` adds nothing to the metrics. */
  lemma PaddedSampleRowSkipped()
    ensures !IsFloatText("\U{1c}55.50")
    ensures AmountOf(Row("101", "\U{1c}55.50", "Complete")) == []
    ensures CompletedOf(Row("101", "\U{1c}55.50", "Complete")) == 0
  {
    SeparatorPaddedRowSkipped("101", "\U{1c}55.50", "Complete");
  }

  /** A line of three comma-free fields whose middle one converts is parsed; it is completed exactly when its status is `Complete`. */
  lemma RowParses(a: string, b: string, c: string)
    requires ',' !in a && ',' !in b && ',' !in c && IsFloatText(b)
    ensures Parsed(Row(a, b, c)) && Fields(Row(a, b, c))[1] == b
    ensures Completed(Row(a, b, c)) <==> c == "Complete"
  {
    RowFields(a, b, c);
  }

  /** Such a line adds its amount, and one completed order exactly when its status is `Complete`. */
  lemma RowContribution(a: string, b: string, c: string)
    requires ',' !in a && ',' !in b && ',' !in c && IsFloatText(b)
    ensures AmountOf(Row(a, b, c)) == [b]
    ensures CompletedOf(Row(a, b, c)) == if c == "Complete" then 1 else 0
  {
    RowParses(a, b, c);
  }

  lemma SalesRow1()
    ensures AmountOf(SalesLines[1]) == ["55.50"] && CompletedOf(SalesLines[1]) == 0
  {
    Amount5550IsFloat();
    assert SalesLines[1] == Row("101", "55.50", "New");
    RowContribution("101", "55.50", "New");
  }

  lemma SalesRow2()
    ensures AmountOf(SalesLines[2]) == ["120.00"] && CompletedOf(SalesLines[2]) == 1
  {
    Amount12000IsFloat();
    assert SalesLines[2] == Row("102", "120.00", "Complete");
    RowContribution("102", "120.00", "Complete");
  }

  lemma SalesRow3()
    ensures AmountOf(SalesLines[3]) == ["55.50"] && CompletedOf(SalesLines[3]) == 0
  {
    Amount5550IsFloat();
    assert SalesLines[3] == Row("103", "55.50", "New");
    RowContribution("103", "55.50", "New");
  }

  lemma SalesRow4()
    ensures AmountOf(SalesLines[4]) == ["300.00"] && CompletedOf(SalesLines[4]) == 1
  {
    Amount30000IsFloat();
    assert SalesLines[4] == Row("104", "300.00", "Complete");
    RowContribution("104", "300.00", "Complete");
  }

  lemma TallyOne(line: string)
    ensures Accepted([line]) == AmountOf(line) && CountCompleted([line]) == CompletedOf(line)
  {
    assert [line][..0] == [];
  }

  /** Four lines tally one after the other. */
  lemma TallyFour(rows: seq<string>)
    requires |rows| == 4
    ensures Accepted(rows) == AmountOf(rows[0]) + AmountOf(rows[1]) + AmountOf(rows[2]) + AmountOf(rows[3])
    ensures CountCompleted(rows) == CompletedOf(rows[0]) + CompletedOf(rows[1]) + CompletedOf(rows[2]) + CompletedOf(rows[3])
  {
    var a, b, c, d := [rows[0]], [rows[1]], [rows[2]], [rows[3]];
    assert rows == a + b + c + d;
    TallyOne(rows[0]);
    TallyOne(rows[1]);
    TallyOne(rows[2]);
    TallyOne(rows[3]);
    TallyAppend(a, b);
    TallyAppend(a + b, c);
    TallyAppend(a + b + c, d);
  }

  function AmountOf(line: string): seq<string> {
    if Parsed(line) then [Fields(line)[1]] else []
  }

  function CompletedOf(line: string): nat {
    if Completed(line) then 1 else 0
  }

  /** Four lines that each parse contribute their amounts in order. */
  lemma AmountsOfFour(rows: seq<string>, a0: string, a1: string, a2: string, a3: string)
    requires |rows| == 4
    requires AmountOf(rows[0]) == [a0] && AmountOf(rows[1]) == [a1] && AmountOf(rows[2]) == [a2] && AmountOf(rows[3]) == [a3]
    ensures Accepted(rows) == [a0, a1, a2, a3]
  {
    TallyFour(rows);
  }

  /** The data lines of the mock file all parse: their amounts are the revenue's terms. */
  lemma SalesAmounts()
    ensures Accepted(SalesLines[1..]) == ["55.50", "120.00", "55.50", "300.00"]
  {
    var rows := SalesLines[1..];
    assert rows[0] == SalesLines[1] && rows[1] == SalesLines[2] && rows[2] == SalesLines[3] && rows[3] == SalesLines[4];
    SalesRow1();
    SalesRow2();
    SalesRow3();
    SalesRow4();
    AmountsOfFour(rows, "55.50", "120.00", "55.50", "300.00");
  }

  /** The second and fourth data lines of the mock file are completed orders. */
  lemma SalesCompleted()
    ensures CountCompleted(SalesLines[1..]) == 2
  {
    var rows := SalesLines[1..];
    assert rows[0] == SalesLines[1] && rows[1] == SalesLines[2] && rows[2] == SalesLines[3] && rows[3] == SalesLines[4];
    TallyFour(rows);
    SalesRow1();
    SalesRow2();
    SalesRow3();
    SalesRow4();
  }

  /**
   * Chaining the tools as instructed: the mock file holds four transactions,
   * all of them well-formed, two of them completed.
   */
  lemma SalesPipeline()
    ensures var rows := Lines(LoadDataSource(SalesFile))[1..];
            && |rows| == 4
            && Accepted(rows) == ["55.50", "120.00", "55.50", "300.00"]
            && CountCompleted(rows) == 2
  {
    SalesCsvLines();
    SalesAmounts();
    SalesCompleted();
  }

  /** Any other file name yields the one-line error, which the second tool rejects as data. */
  lemma UnsupportedPipeline(fileName: string)
    requires fileName != SalesFile
    ensures |Lines(LoadDataSource(fileName))| < 2
  {
    StripUnchanged(NotSupported);
    NoOccurrence(NotSupported, "\n");
  }

  /** Empty or blank input has no data lines. */
  lemma BlankInput(raw: string)
    requires forall i :: 0 <= i < |raw| ==> IsSpace(raw[i])
    ensures |Lines(raw)| < 2
  {
    var a, b := StripSpec(raw);
    assert a == b;
  }
}

=== FILE: hr_static.dfy ===
/**
 * The static HR tool server of `day10/hr/hr_fake.py`: two fixed resumes
 * stand in for a file system, and an in-memory list stands in for the
 * shortlist database. The server state is that list; a session is the
 * sequence of tool calls a client makes, each answered with a JSON value.
 */
module HrStatic {
  import opened Wrappers
  import opened Json

  /** `STATIC_RESUMES`, in insertion order. */
  const StaticResumes: Fields := [
    ("resume_alice.txt", Str("Alice Smith. Skills: Python, SQL, Agentic AI. Experience: 5 years.")),
    ("resume_bob.txt", Str("Bob Jones. Skills: Retail Management, Sales. Experience: 10 years."))
  ]

  const FileNotFound: string := "Error: File not found."

  /** One record of `shortlisted_db`: `{"name": ..., "reasoning": ...}`. */
  datatype Candidate = Candidate(name: string, reasoning: string)

  /** The server's only mutable state: `shortlisted_db`. */
  datatype Server = Server(shortlist: seq<Candidate>)

  const Initial: Server := Server([])

  /** `list_resumes()` */
  function ListResumes(): seq<string> {
    Keys(StaticResumes)
  }

  /** `read_resume(filename)`: an exact lookup with a fixed fallback. */
  function ReadResume(filename: string): (r: string)
    ensures Lookup(StaticResumes, filename).None? ==> r == FileNotFound
  {
    match Lookup(StaticResumes, filename)
    case Some(Str(text)) => text
    case Some(_) => FileNotFound
    case None => FileNotFound
  }

  /** A listed name reads back its resume, and every other name reads the fallback text. */
  lemma ReadListed(filename: string)
    ensures filename == "resume_alice.txt" ==> ReadResume(filename) == StaticResumes[0].1.s
    ensures filename == "resume_bob.txt" ==> ReadResume(filename) == StaticResumes[1].1.s
    ensures ReadResume(filename) == FileNotFound <==> filename !in ListResumes()
  {
    var names := ListResumes();
    assert names == ["resume_alice.txt", "resume_bob.txt"];
    assert "resume_alice.txt" != "resume_bob.txt" by {
      assert |"resume_alice.txt"| != |"resume_bob.txt"|;
    }
    LastIndexAt(StaticResumes, "resume_bob.txt", 1);
    LastIndexAt(StaticResumes, "resume_alice.txt", 0);
    assert |StaticResumes[0].1.s| != |FileNotFound| && |StaticResumes[1].1.s| != |FileNotFound|;
  }

  /** `add_to_shortlist(name, reasoning)`: the new state, the line logged to stderr, and the reply. */
  function AddToShortlist(s: Server, name: string, reasoning: string): (Server, string, string) {
    (Server(s.shortlist + [Candidate(name, reasoning)]),
     "\n[DB UPDATE] Added: " + name + "\n",
     "Successfully added " + name + " to the shortlist.")
  }

  /** A tool call from a client. */
  datatype Call =
    | ListCall
    | ReadCall(filename: string)
    | AddCall(name: string, reasoning: string)

  /** One call against the server: the new state and the JSON reply. */
  function Step(s: Server, c: Call): (r: (Server, Json))
    ensures !c.AddCall? ==> r.0 == s
    ensures c.ListCall? ==> r.1 == Arr([Str("resume_alice.txt"), Str("resume_bob.txt")])
  {
    match c
    case ListCall =>
      var names := ListResumes();
      var items := seq(|names|, i requires 0 <= i < |names| => Str(names[i]));
      assert items == [Str(names[0]), Str(names[1])];
      (s, Arr(items))
    case ReadCall(f) => (s, Str(ReadResume(f)))
    case AddCall(n, why) =>
      var (s', _, reply) := AddToShortlist(s, n, why);
      (s', Str(reply))
  }

  /** A session: the calls in order, threading the state, collecting the replies. */
  function Run(s: Server, calls: seq<Call>): (r: (Server, seq<Json>))
    ensures |r.1| == |calls|
    decreases |calls|
  {
    if |calls| == 0 then (s, [])
    else
      var (s', replies) := Run(s, calls[..|calls| - 1]);
      var (s'', reply) := Step(s', calls[|calls| - 1]);
      (s'', replies + [reply])
  }

  /** The records a sequence of calls adds, in call order: one per `add_to_shortlist` call, duplicates kept. */
  function Added(calls: seq<Call>): seq<Candidate>
    decreases |calls|
  {
    if |calls| == 0 then []
    else
      var c := calls[0];
      (if c.AddCall? then [Candidate(c.name, c.reasoning)] else []) + Added(calls[1..])
  }

  lemma {:induction false} AddedSnoc(calls: seq<Call>, c: Call)
    ensures Added(calls + [c]) == Added(calls) + (if c.AddCall? then [Candidate(c.name, c.reasoning)] else [])
    decreases |calls|
  {
    if |calls| == 0 {
      assert ([c])[1..] == [];
    } else {
      assert (calls + [c])[1..] == calls[1..] + [c];
      AddedSnoc(calls[1..], c);
    }
  }

  /**
   * The shortlist is append-only: after any session it is the old list
   * followed by exactly the records the session's add calls carried, in
   * order and without deduplication.
   */
  lemma {:induction false} ShortlistAppendOnly(s: Server, calls: seq<Call>)
    ensures Run(s, calls).0.shortlist == s.shortlist + Added(calls)
    decreases |calls|
  {
    if |calls| > 0 {
      var init := calls[..|calls| - 1];
      var c := calls[|calls| - 1];
      ShortlistAppendOnly(s, init);
      assert calls == init + [c];
      AddedSnoc(init, c);
    }
  }

  /**
   * Nothing but the shortlist changes: every list or read call in a session
   * is answered as it would be on a fresh server, whatever was added before.
   */
  lemma {:induction false} ResumesUnchanged(s: Server, calls: seq<Call>, i: nat)
    requires i < |calls| && !calls[i].AddCall?
    ensures Run(s, calls).1[i] == Step(Initial, calls[i]).1
    decreases |calls|
  {
    var init := calls[..|calls| - 1];
    if i < |calls| - 1 {
      ResumesUnchanged(s, init, i);
    }
  }

  /** Each add call is answered with the confirmation naming its candidate. */
  lemma {:induction false} AddReplies(s: Server, calls: seq<Call>, i: nat)
    requires i < |calls| && calls[i].AddCall?
    ensures Run(s, calls).1[i] == Str("Successfully added " + calls[i].name + " to the shortlist.")
    decreases |calls|
  {
    var init := calls[..|calls| - 1];
    if i < |calls| - 1 {
      AddReplies(s, init, i);
    }
  }

  /** The same candidate added twice appears twice. */
  lemma NoDeduplication(name: string, reasoning: string)
    ensures Run(Initial, [AddCall(name, reasoning), AddCall(name, reasoning)]).0.shortlist
            == [Candidate(name, reasoning), Candidate(name, reasoning)]
  {
    var calls := [AddCall(name, reasoning), AddCall(name, reasoning)];
    ShortlistAppendOnly(Initial, calls);
    assert calls[1..][1..] == [];
    assert Added(calls[1..]) == [Candidate(name, reasoning)];
  }
}

=== FILE: inventory.dfy ===
/**
 * The inventory endpoint of `day6/inventory_api.py` and the agent tools of
 * `day6/sample4.py` that use it: `check_inventory` reads the endpoint over
 * HTTP, `calculate_shipping_cost` is a fixed rule on the destination.
 *
 * The HTTP client is an oracle: `requests.get(url, timeout=5)` gives a
 * reply or the text of the `RequestException`.
 */
module Inventory {
  import opened Wrappers
  import opened Strings
  import opened Json
  import opened Web
  import PyRepr

  // ----------------------------------------------------------------------
  // GET /inventory/<product_id>
  // ----------------------------------------------------------------------

  datatype Item = Item(stock: nat, location: string)

  /** `INVENTORY_DATA`, keyed by the exact product id. */
  const InventoryData: map<string, Item> := map[
    "WH-1000XM5" := Item(50, "Warehouse A"),
    "AirPods Pro 2" := Item(12, "Warehouse B"),
    "Bose QC Ultra" := Item(0, "Warehouse C"),
    "Galaxy Buds 2" := Item(200, "Warehouse A")
  ]

  const NotFoundMessage: string := "Product ID not found."

  /** `get_inventory(product_id)` */
  function GetInventory(productId: string): (r: Reply)
    ensures r.Reply? && (r.status == 200 || r.status == 404)
    ensures r.status == 200 <==> productId in InventoryData
  {
    if productId !in InventoryData then
      Reply(404, Obj([("product_id", Str(productId)), ("status", Str("error")), ("message", Str(NotFoundMessage))]))
    else
      Reply(200, Obj([("product_id", Str(productId)), ("stock_level", Num(InventoryData[productId].stock)),
                      ("status", Str("success"))]))
  }

  /** A stocked or unstocked known product is a success that echoes its id and reports its stock. */
  lemma KnownProduct(productId: string)
    requires productId in InventoryData
    ensures var r := GetInventory(productId);
            && r.status == 200
            && Lookup(r.body.fields, "status") == Some(Str("success"))
            && Lookup(r.body.fields, "product_id") == Some(Str(productId))
            && Lookup(r.body.fields, "stock_level") == Some(Num(InventoryData[productId].stock))
  {
    var f := GetInventory(productId).body.fields;
    LastIndexAt(f, "product_id", 0);
    LastIndexAt(f, "stock_level", 1);
    LastIndexAt(f, "status", 2);
  }

  /** An unknown product is a 404 with the fixed message and its id echoed. */
  lemma UnknownProduct(productId: string)
    requires productId !in InventoryData
    ensures var r := GetInventory(productId);
            && r.status == 404
            && Lookup(r.body.fields, "status") == Some(Str("error"))
            && Lookup(r.body.fields, "message") == Some(Str(NotFoundMessage))
            && Lookup(r.body.fields, "product_id") == Some(Str(productId))
  {
    var f := GetInventory(productId).body.fields;
    LastIndexAt(f, "product_id", 0);
    LastIndexAt(f, "status", 1);
    LastIndexAt(f, "message", 2);
  }

  /** Lookup is exact: a product out of stock is still found, and a differently cased id is not. */
  lemma LookupExact()
    ensures GetInventory("Bose QC Ultra").status == 200
    ensures Lookup(GetInventory("Bose QC Ultra").body.fields, "stock_level") == Some(Num(0))
    ensures GetInventory("wh-1000xm5").status == 404
  {
    KnownProduct("Bose QC Ultra");
    assert "wh-1000xm5" !in InventoryData by {
      assert "wh-1000xm5"[0] == 'w';
    }
  }

  // ----------------------------------------------------------------------
  // check_inventory
  // ----------------------------------------------------------------------

  const InventoryBaseUrl: string := "http://127.0.0.1:5000/inventory"

  /** What `requests.get` hands back: the status, its reason phrase, the final URL and the body as `response.json()` decodes it. */
  datatype HttpReply = HttpReply(status: int, reason: string, url: string, body: Result<Loaded, string>)

  type HttpGet = string -> Result<HttpReply, string>

  function ProductUrl(productId: string): string {
    InventoryBaseUrl + "/" + productId
  }

  /** `response.raise_for_status()`: the `HTTPError` text for a 4xx or 5xx status. */
  function StatusError(reply: HttpReply): Option<string> {
    if 400 <= reply.status < 500 then
      Some(NatToString(reply.status) + " Client Error: " + reply.reason + " for url: " + reply.url)
    else if 500 <= reply.status < 600 then
      Some(NatToString(reply.status) + " Server Error: " + reply.reason + " for url: " + reply.url)
    else None
  }

  const ConnectPrefix: string :=
    "ERROR: Could not connect to inventory API. Ensure Flask server is running on port 5000. Details: "

  /** `check_inventory(product_id)`: the tool's answer, or the `AttributeError` it raises on a non-object body. */
  function CheckInventory(get: HttpGet, productId: string): (r: Result<string, string>)
    ensures get(ProductUrl(productId)).Failure? ==> r == Success(ConnectPrefix + get(ProductUrl(productId)).error)
    ensures get(ProductUrl(productId)).Success? && StatusError(get(ProductUrl(productId)).value).Some?
            ==> r == Success(ConnectPrefix + StatusError(get(ProductUrl(productId)).value).value)
  {
    match get(ProductUrl(productId))
    case Failure(e) => Success(ConnectPrefix + e)
    case Success(reply) =>
      match StatusError(reply)
      case Some(e) => Success(ConnectPrefix + e)
      case None =>
        match reply.body
        case Failure(e) => Success(ConnectPrefix + e)
        case Success(data) =>
          if !data.Obj? then Failure(NoGet(data))
          else Success(Interpret(productId, data.fields))
  }

  /** The answer for a decoded response object. */
  function Interpret(productId: string, data: Fields): (r: string)
    requires Decoded(Obj(data))
    ensures Lookup(data, "status") == Some(Str("success"))
            ==> r == "Inventory check for " + productId + ": " + PyRepr.PyStr(Get(data, "stock_level", Null)) + " units in stock."
    ensures Lookup(data, "status") == Some(Str("error"))
            ==> r == "Inventory check failed: " + PyRepr.PyStr(Get(data, "message", Str("Unknown error.")))
    ensures Lookup(data, "status") != Some(Str("success")) && Lookup(data, "status") != Some(Str("error"))
            ==> r == "Inventory check received unexpected data: " + PyRepr.Repr(Obj(data))
  {
    var status := Get(data, "status", Null);
    if status == Str("success") then
      "Inventory check for " + productId + ": " + PyRepr.PyStr(Get(data, "stock_level", Null)) + " units in stock."
    else if status == Str("error") then
      "Inventory check failed: " + PyRepr.PyStr(Get(data, "message", Str("Unknown error.")))
    else "Inventory check received unexpected data: " + PyRepr.Repr(Obj(data))
  }

  /** A body that is neither a success nor an error is printed as the dict `response.json()` gave. */
  lemma UnexpectedDataPrinted()
    ensures Interpret("P001", [("a", Num(2))]) == "Inventory check received unexpected data: {'a': 2}"
  {
    var data := [("a", Num(2))];
    assert Lookup(data, "status").None?;
    assert PyRepr.Repr(Obj(data)) == "{'a': 2}" by {
      assert PyRepr.ReprString("a") == "'a'" by {
        PyRepr.ReprBodyPlain("a", '\'');
      }
    }
  }

  /** An HTTP client talking to `get_inventory`: each product URL is answered with that endpoint's status and body. */
  predicate ServesInventory(get: HttpGet, productId: string) {
    var r := GetInventory(productId);
    && get(ProductUrl(productId)).Success?
    && get(ProductUrl(productId)).value.status == r.status
    && get(ProductUrl(productId)).value.body == Success(r.body)
  }

  /**
   * Against the real endpoint, a known product reports its stock, and an
   * unknown one never reaches the `error` branch: its 404 is raised as an
   * `HTTPError` and reported as a connection failure.
   */
  lemma CheckAgainstEndpoint(get: HttpGet, productId: string)
    requires ServesInventory(get, productId)
    ensures productId in InventoryData ==>
              CheckInventory(get, productId)
              == Success("Inventory check for " + productId + ": " + IntToString(InventoryData[productId].stock) + " units in stock.")
    ensures productId !in InventoryData ==>
              CheckInventory(get, productId).Success? && StartsWith(CheckInventory(get, productId).value, ConnectPrefix)
  {
    if productId in InventoryData {
      KnownProduct(productId);
    } else {
      var reply := get(ProductUrl(productId)).value;
      assert StatusError(reply).Some?;
      var r := CheckInventory(get, productId).value;
      assert r == ConnectPrefix + StatusError(reply).value;
      assert r[..|ConnectPrefix|] == ConnectPrefix;
    }
  }

  // ----------------------------------------------------------------------
  // calculate_shipping_cost
  // ----------------------------------------------------------------------

  const UkRates: string := "Standard shipping is $10. Expedited is $25."
  const OtherRates: string := "Standard shipping is $20. Expedited is $40."

  function CalculateShippingCost(location: string): string {
    if Contains(location, "UK") then UkRates else OtherRates
  }

  /** The UK rates apply exactly to destinations containing `UK` in capitals. */
  lemma ShippingRule(location: string)
    ensures CalculateShippingCost(location) == UkRates <==> Contains(location, "UK")
    ensures CalculateShippingCost(location) == OtherRates <==> !Contains(location, "UK")
  {
    assert UkRates[22] == '1' && OtherRates[22] == '2';
  }

  /** The check is case-sensitive: `uk` pays the standard rates. */
  lemma ShippingCaseSensitive()
    ensures CalculateShippingCost("London, UK") == UkRates
    ensures CalculateShippingCost("london, uk") == OtherRates
  {
    assert OccursAt("London, UK", "UK", 8);
    forall j | 0 <= j && j + 2 <= |"london, uk"|
      ensures !OccursAt("london, uk", "UK", j)
    {
      assert "london, uk"[j] != 'U';
    }
  }
}

=== FILE: json.dfy ===
/**
 * JSON values as the scripts see them after decoding: Python's None, bool,
 * int, str, list and insertion-ordered dict. Objects are kept as ordered
 * (key, value) entries so that the order in which a dict was filled, which
 * `json.dumps` reproduces, is part of the value.
 */
module Json {
  import opened Wrappers

  datatype Json =
    | Null
    | Bool(b: bool)
    | Num(n: int)
    | Str(s: string)
    | Arr(items: seq<Json>)
    | Obj(fields: seq<(string, Json)>)

  type Fields = seq<(string, Json)>

  /**
   * No object, at any depth, holds a key twice. Every dict satisfies this,
   * so every value `json.loads` returns does: a repeated key in the text
   * leaves one entry, holding the last value.
   */
  predicate Decoded(j: Json)
    decreases j
  {
    match j
    case Arr(items) => forall i :: 0 <= i < |items| ==> Decoded(items[i])
    case Obj(fields) =>
      && (forall i, k :: 0 <= i < k < |fields| ==> fields[i].0 != fields[k].0)
      && (forall i :: 0 <= i < |fields| ==> Decoded(fields[i].1))
    case _ => true
  }

  /** A value as `json.loads` returns it, or as a Python function returns it: every object is a dict. */
  type Loaded = j: Json | Decoded(j) witness Null

  /** Index of the last entry with key `k`: in a `Decoded` object, the only one. */
  function LastIndex(fields: Fields, k: string): (r: Option<nat>)
    ensures r.Some? ==> r.value < |fields| && fields[r.value].0 == k
    ensures r.Some? ==> forall j :: r.value < j < |fields| ==> fields[j].0 != k
    ensures r.None? ==> forall j :: 0 <= j < |fields| ==> fields[j].0 != k
    decreases |fields|
  {
    if |fields| == 0 then None
    else if fields[|fields| - 1].0 == k then Some(|fields| - 1)
    else LastIndex(fields[..|fields| - 1], k)
  }

  /** An entry with key `k` and none after it is the one `LastIndex` finds. */
  lemma {:induction false} LastIndexAt(fields: Fields, k: string, i: nat)
    requires i < |fields| && fields[i].0 == k
    requires forall j :: i < j < |fields| ==> fields[j].0 != k
    ensures LastIndex(fields, k) == Some(i)
    ensures Lookup(fields, k) == Some(fields[i].1)
    decreases |fields|
  {
    if i < |fields| - 1 {
      LastIndexAt(fields[..|fields| - 1], k, i);
    }
  }

  /** `d.get(k)`, with `None` for a missing key. */
  function Lookup(fields: Fields, k: string): Option<Json> {
    match LastIndex(fields, k)
    case Some(i) => Some(fields[i].1)
    case None => None
  }

  /** `d.get(k, default)` */
  function Get(fields: Fields, k: string, default: Json): Json {
    Lookup(fields, k).GetOr(default)
  }

  /** The keys in insertion order (`list(d.keys())`). */
  function Keys(fields: Fields): seq<string> {
    seq(|fields|, i requires 0 <= i < |fields| => fields[i].0)
  }

  function KeySet(fields: Fields): set<string> {
    set i | 0 <= i < |fields| :: fields[i].0
  }

  /** `k in d` holds exactly when `d.get(k)` finds a value. */
  lemma LookupKeySet(fields: Fields, k: string)
    ensures Lookup(fields, k).Some? <==> k in KeySet(fields)
  {
    if k in KeySet(fields) {
      var i :| 0 <= i < |fields| && fields[i].0 == k;
      assert LastIndex(fields, k).Some?;
    }
  }

  /** Python truthiness of a decoded value (`bool(x)`). */
  predicate Truthy(j: Json) {
    match j
    case Null => false
    case Bool(b) => b
    case Num(n) => n != 0
    case Str(s) => |s| > 0
    case Arr(items) => |items| > 0
    case Obj(fields) => |fields| > 0
  }

  /** `type(x).__name__` of a decoded value. */
  function TypeName(j: Json): string {
    match j
    case Null => "NoneType"
    case Bool(_) => "bool"
    case Num(_) => "int"
    case Str(_) => "str"
    case Arr(_) => "list"
    case Obj(_) => "dict"
  }

  /** A value Python can use as a dict key (everything but lists and dicts). */
  predicate Hashable(j: Json) {
    !j.Arr? && !j.Obj?
  }

  /** The `{"ok": False, "error": message}` result shape used by the tools and the bridge. */
  function ErrorObject(message: string): (r: Json)
    ensures Decoded(r)
  {
    Obj([("ok", Bool(false)), ("error", Str(message))])
  }
}

=== FILE: jsonencode.dfy ===
/**
 * `json.dumps` with its defaults (`ensure_ascii=True`): the compact form used
 * for stdout lines and HTTP bodies, and the `indent=n` form used to show tool
 * results to the model. JSON numbers are integers in this model.
 *
 * An object is written entry by entry, as a dict's items are. The values
 * that reach the encoder from outside are `Decoded`, each key once; the one
 * object built with repeated key texts is the bridge's `tool_results`, whose
 * keys Python keeps apart (`1` and `"1"`) and `json.dumps` writes alike.
 */
module JsonEncode {
  import opened Wrappers
  import opened Strings
  import opened Json

  /** Four lower-case hexadecimal digits, as in `'\\u{0:04x}'`. */
  function Hex4(n: nat): string
    requires n < 0x10000
  {
    [HexDigit(n / 4096), HexDigit(n / 256 % 16), HexDigit(n / 16 % 16), HexDigit(n % 16)]
  }

  /** The escape `json.dumps` writes for one character of a string when `ensure_ascii` is set. */
  function EscapeChar(c: char): string {
    if c == '"' then "\\\""
    else if c == '\\' then "\\\\"
    else if c == '\n' then "\\n"
    else if c == '\r' then "\\r"
    else if c == '\t' then "\\t"
    else if c == '\U{8}' then "\\b"
    else if c == '\U{c}' then "\\f"
    else if ' ' <= c <= '~' then [c]
    else if c as int < 0x10000 then "\\u" + Hex4(c as int)
    else
      // a character outside the Basic Multilingual Plane becomes a UTF-16 surrogate pair
      var n := c as int - 0x10000;
      "\\u" + Hex4(0xD800 + n / 1024) + "\\u" + Hex4(0xDC00 + n % 1024)
  }

  function EscapeString(s: string): string
    decreases |s|
  {
    if |s| == 0 then "" else EscapeChar(s[0]) + EscapeString(s[1..])
  }

  function EncodeString(s: string): string {
    "\"" + EscapeString(s) + "\""
  }

  function Spaces(n: nat): string {
    seq(n, _ => ' ')
  }

  /** What follows an opening bracket at nesting `level`: nothing when compact, a new indented line otherwise. */
  function Newline(indent: Option<nat>, level: nat): string {
    match indent
    case None => ""
    case Some(n) => "\n" + Spaces(n * level)
  }

  /** The item separator: `", "` when compact, `","` and a new indented line otherwise. */
  function ItemSeparator(indent: Option<nat>, level: nat): string {
    match indent
    case None => ", "
    case Some(_) => "," + Newline(indent, level)
  }

  /** `json.dumps(j, indent=...)` for a value nested `level` deep. */
  function Encode(j: Json, indent: Option<nat>, level: nat): string
    decreases j
  {
    match j
    case Null => "null"
    case Bool(b) => if b then "true" else "false"
    case Num(n) => IntToString(n)
    case Str(s) => EncodeString(s)
    case Arr(items) =>
      if |items| == 0 then "[]"
      else "[" + Newline(indent, level + 1) + EncodeItems(items, indent, level + 1)
           + Newline(indent, level) + "]"
    case Obj(fields) =>
      if |fields| == 0 then "{}"
      else "{" + Newline(indent, level + 1) + EncodeFields(j, fields, indent, level + 1)
           + Newline(indent, level) + "}"
  }

  function EncodeItems(items: seq<Json>, indent: Option<nat>, level: nat): string
    requires |items| > 0
    decreases items
  {
    if |items| == 1 then Encode(items[0], indent, level)
    else Encode(items[0], indent, level) + ItemSeparator(indent, level) + EncodeItems(items[1..], indent, level)
  }

  function EncodeFields(ghost parent: Json, fields: seq<(string, Json)>, indent: Option<nat>, level: nat): string
    requires |fields| > 0
    requires forall i :: 0 <= i < |fields| ==> fields[i].1 < parent
    decreases parent, |fields|
  {
    var entry := EncodeString(fields[0].0) + ": " + Encode(fields[0].1, indent, level);
    if |fields| == 1 then entry
    else entry + ItemSeparator(indent, level) + EncodeFields(parent, fields[1..], indent, level)
  }

  /** `json.dumps(j)` */
  function Dumps(j: Json): string {
    Encode(j, None, 0)
  }

  /** `json.dumps(j, indent=n)` */
  function DumpsIndented(j: Json, n: nat): string {
    Encode(j, Some(n), 0)
  }

  /** Every character is printable ASCII: in particular there is no line break. */
  predicate Printable(s: string) {
    forall i :: 0 <= i < |s| ==> ' ' <= s[i] <= '~'
  }

  lemma PrintableConcat(a: string, b: string)
    requires Printable(a) && Printable(b)
    ensures Printable(a + b)
  {
  }

  lemma Hex4Printable(n: nat)
    requires n < 0x10000
    ensures Printable("\\u" + Hex4(n))
  {
  }

  /** Every escape, including the `\\uXXXX` ones, is printable ASCII. */
  lemma EscapeCharPrintable(c: char)
    ensures Printable(EscapeChar(c))
  {
    if ' ' <= c <= '~' || c in "\"\\\n\r\t\U{8}\U{c}" {
    } else if c as int < 0x10000 {
      Hex4Printable(c as int);
    } else {
      var n := c as int - 0x10000;
      Hex4Printable(0xD800 + n / 1024);
      Hex4Printable(0xDC00 + n % 1024);
      PrintableConcat("\\u" + Hex4(0xD800 + n / 1024), "\\u" + Hex4(0xDC00 + n % 1024));
    }
  }

  lemma {:induction false} EscapeStringPrintable(s: string)
    ensures Printable(EscapeString(s))
    decreases |s|
  {
    if |s| > 0 {
      EscapeStringPrintable(s[1..]);
      EscapeCharPrintable(s[0]);
      PrintableConcat(EscapeChar(s[0]), EscapeString(s[1..]));
    }
  }

  lemma NumberPrintable(n: int)
    ensures Printable(IntToString(n))
  {
    var digits := NatToString(if n < 0 then -n else n);
    assert Printable(digits);
    if n < 0 {
      PrintableConcat("-", digits);
    }
  }

  lemma StringPrintable(s: string)
    ensures Printable(EncodeString(s))
  {
    EscapeStringPrintable(s);
    PrintableConcat("\"", EscapeString(s));
    PrintableConcat("\"" + EscapeString(s), "\"");
  }

  /** The compact encoding of any value is printable ASCII, so it never spans two lines. */
  lemma {:induction false} CompactPrintable(j: Json, level: nat)
    ensures Printable(Encode(j, None, level))
    decreases j
  {
    match j
    case Null =>
    case Bool(_) =>
    case Num(n) =>
      NumberPrintable(n);
    case Str(s) =>
      StringPrintable(s);
    case Arr(items) =>
      if |items| > 0 {
        ItemsPrintable(items, level + 1);
        BracketPrintable("[", EncodeItems(items, None, level + 1), "]", level);
      }
    case Obj(fields) =>
      if |fields| > 0 {
        FieldsPrintable(j, fields, level + 1);
        BracketPrintable("{", EncodeFields(j, fields, None, level + 1), "}", level);
      }
  }

  lemma BracketPrintable(open: string, inner: string, close: string, level: nat)
    requires Printable(open) && Printable(inner) && Printable(close)
    ensures Printable(open + Newline(None, level + 1) + inner + Newline(None, level) + close)
  {
    assert open + Newline(None, level + 1) + inner + Newline(None, level) + close == open + inner + close;
    PrintableConcat(open, inner);
    PrintableConcat(open + inner, close);
  }

  lemma {:induction false} ItemsPrintable(items: seq<Json>, level: nat)
    requires |items| > 0
    ensures Printable(EncodeItems(items, None, level))
    decreases items
  {
    CompactPrintable(items[0], level);
    if |items| > 1 {
      ItemsPrintable(items[1..], level);
    }
  }

  lemma {:induction false} FieldsPrintable(parent: Json, fields: seq<(string, Json)>, level: nat)
    requires |fields| > 0
    requires forall i :: 0 <= i < |fields| ==> fields[i].1 < parent
    ensures Printable(EncodeFields(parent, fields, None, level))
    decreases parent, |fields|
  {
    var key := EncodeString(fields[0].0);
    var value := Encode(fields[0].1, None, level);
    StringPrintable(fields[0].0);
    CompactPrintable(fields[0].1, level);
    PrintableConcat(key, ": ");
    PrintableConcat(key + ": ", value);
    if |fields| > 1 {
      var entry := key + ": " + value;
      FieldsPrintable(parent, fields[1..], level);
      PrintableConcat(entry, ", ");
      PrintableConcat(entry + ", ", EncodeFields(parent, fields[1..], None, level));
    }
  }

  /** `json.dumps(j)` contains no newline character. */
  lemma DumpsOneLine(j: Json)
    ensures '\n' !in Dumps(j)
  {
    CompactPrintable(j, 0);
  }
}

=== FILE: kwargs.dfy ===
/**
 * Calling a one-parameter Python function as `f(**kwargs)` with a decoded
 * JSON value: the value must be a mapping whose only key is the parameter's
 * name. Type annotations are not enforced, so any value binds. The
 * `TypeError` texts are those of CPython 3.11 and later.
 */
module Kwargs {
  import opened Wrappers
  import opened Json

  /** The module the scripts' functions live in: each script runs as the main program. */
  const MainModule: string := "__main__"

  /** The first keyword the function has no parameter for. */
  function UnexpectedKey(fields: Fields, param: string): (r: Option<string>)
    ensures r.Some? ==> r.value in KeySet(fields) && r.value != param
    ensures r.None? ==> forall i :: 0 <= i < |fields| ==> fields[i].0 == param
    decreases |fields|
  {
    if |fields| == 0 then None
    else if fields[0].0 != param then Some(fields[0].0)
    else
      var r := UnexpectedKey(fields[1..], param);
      assert forall i :: 1 <= i < |fields| ==> fields[i] == fields[1..][i - 1];
      r
  }

  /**
   * `fn(**kwargs)` for `def fn(param)`: the bound argument, or the text of
   * the `TypeError` Python raises. Only the non-mapping message names the
   * function with its module.
   */
  function Bind(fn: string, param: string, kwargs: Json): (r: Result<Json, string>)
    ensures r.Success? <==> kwargs.Obj? && KeySet(kwargs.fields) == {param}
    ensures r.Success? ==> Lookup(kwargs.fields, param) == Some(r.value)
  {
    if !kwargs.Obj? then
      Failure(MainModule + "." + fn + "() argument after ** must be a mapping, not " + TypeName(kwargs))
    else if UnexpectedKey(kwargs.fields, param).Some? then
      Failure(fn + "() got an unexpected keyword argument '" + UnexpectedKey(kwargs.fields, param).value + "'")
    else
      match Lookup(kwargs.fields, param)
      case None => Failure(fn + "() missing 1 required positional argument: '" + param + "'")
      case Some(v) =>
        assert kwargs.fields[LastIndex(kwargs.fields, param).value].0 == param;
        Success(v)
  }

  /** A single-entry mapping binds its value. */
  lemma BindSingle(fn: string, param: string, v: Json)
    ensures Bind(fn, param, Obj([(param, v)])) == Success(v)
  {
    LastIndexAt([(param, v)], param, 0);
    assert UnexpectedKey([(param, v)], param) == None;
  }
}

=== FILE: pdf_agent.dfy ===
/**
 * The document agent of `day7/pdfai.py`: a fixed two-step workflow that
 * reads a file (standing in for a PDF) and, unless the read reported an
 * error, asks the model a question about the first 1000 characters.
 *
 * The file system and the HTTP client are oracles. Console output is not
 * modelled, except that the outcome records the text the workflow halts on.
 */
module PdfAgent {
  import opened Wrappers
  import opened Strings
  import opened Json
  import Web

  // ----------------------------------------------------------------------
  // read_pdf_text
  // ----------------------------------------------------------------------

  /** What a path leads to: nothing, a file `open`/`read` fails on (with the exception text), or a readable UTF-8 text. */
  datatype FileState = Missing | Unreadable(error: string) | Contents(text: string)

  type Files = string -> FileState

  /** How many characters of the file are kept. */
  const ExcerptLength: nat := 1000
  const Ellipsis: string := "..."

  /** `read_pdf_text(filepath)` */
  function ReadPdfText(files: Files, path: string): (r: string)
    ensures files(path).Missing? ==> r == "Error: PDF file not found at " + path
    ensures files(path).Unreadable? ==> r == "Error: Failed to read PDF due to: " + files(path).error
    ensures files(path).Contents? ==>
              var t := files(path).text;
              && |r| <= ExcerptLength + |Ellipsis|
              && EndsWith(r, Ellipsis)
              && |r| - |Ellipsis| <= |t|
              && r[..|r| - |Ellipsis|] == t[..|r| - |Ellipsis|]
              && (|t| >= ExcerptLength ==> |r| == ExcerptLength + |Ellipsis|)
              && (|t| < ExcerptLength ==> r == t + Ellipsis)
  {
    match files(path)
    case Missing => "Error: PDF file not found at " + path
    case Unreadable(e) => "Error: Failed to read PDF due to: " + e
    case Contents(t) =>
      var excerpt := if |t| <= ExcerptLength then t else t[..ExcerptLength];
      var r := excerpt + Ellipsis;
      assert r[..|excerpt|] == excerpt;
      assert r[|r| - |Ellipsis|..] == Ellipsis;
      r
  }

  /** The workflow's halt test: `pdf_content.startswith("Error")`. */
  predicate Halts(content: string) {
    StartsWith(content, "Error")
  }

  /**
   * Every failure halts the workflow, and so does a readable file whose own
   * text starts with `Error`; any other readable file goes on to the model.
   */
  lemma HaltRule(files: Files, path: string)
    ensures !files(path).Contents? ==> Halts(ReadPdfText(files, path))
    ensures files(path).Contents? ==> (Halts(ReadPdfText(files, path)) <==> StartsWith(files(path).text, "Error"))
  {
    var r := ReadPdfText(files, path);
    match files(path)
    case Missing =>
      assert r[..5] == "Error";
    case Unreadable(e) =>
      assert r[..5] == "Error";
    case Contents(t) =>
      if |t| >= 5 {
        assert r[..5] == r[..|r| - 3][..5];
      } else {
        assert r[|t|] == '.';
      }
  }

  // ----------------------------------------------------------------------
  // ollama_mistral_analysis
  // ----------------------------------------------------------------------

  const OllamaEndpoint: string := "http://localhost:11434/api/generate"
  const OllamaModel: string := "mistral"

  const SystemInstruction: string :=
    "You are an expert document analyzer. The user has provided context text from a document. "
    + "Your task is to answer the user's question ONLY based on the provided context. "
    + "If the information is not in the context, state that clearly."

  const QuestionLabel: string := "USER QUESTION: "
  const ContextLabel: string := "\n\nDOCUMENT CONTEXT:\n---\n"
  const Closing: string := "\n---\n\nPlease provide a concise answer based on the context."

  /** The prompt: the question, then the context between `---` fences, then the closing request. */
  function AnalysisPrompt(question: string, context: string): string {
    QuestionLabel + question + ContextLabel + context + Closing
  }

  /** The question and the context sit at fixed places in the prompt, framed by the fixed texts. */
  lemma PromptLayout(question: string, context: string)
    ensures var p := AnalysisPrompt(question, context);
            var q0 := |QuestionLabel|;
            var c0 := q0 + |question| + |ContextLabel|;
            && StartsWith(p, QuestionLabel)
            && p[q0..q0 + |question|] == question
            && p[q0 + |question|..c0] == ContextLabel
            && p[c0..c0 + |context|] == context
            && EndsWith(p, Closing)
  {
    var p := AnalysisPrompt(question, context);
    var q0 := |QuestionLabel|;
    var c0 := q0 + |question| + |ContextLabel|;
    assert p == QuestionLabel + question + ContextLabel + context + Closing;
    assert p[..q0] == QuestionLabel;
    assert p[q0..q0 + |question|] == question;
    assert p[q0 + |question|..c0] == ContextLabel;
    assert p[c0..c0 + |context|] == context;
    assert p[|p| - |Closing|..] == Closing;
  }

  /** The request body; its `options` entry (a float temperature) is not modelled. */
  function AnalysisPayload(question: string, context: string): Json {
    Obj([("model", Str(OllamaModel)), ("prompt", Str(AnalysisPrompt(question, context))),
         ("system", Str(SystemInstruction)), ("stream", Bool(false))])
  }

  const ApiErrorPrefix: string := "API Error: Could not connect to Ollama. Is 'mistral' running? Detail: "
  const AnalysisErrorPrefix: string := "Analysis Error: "
  const NoResponseText: string := "Analysis failed to retrieve text."

  /**
   * `ollama_mistral_analysis(user_prompt, context_text)`: the reply's
   * `response` value, whatever its type, or an error text. It never raises.
   */
  function OllamaAnalysis(post: Web.Post, question: string, context: string): (r: Json)
    ensures post(OllamaEndpoint, AnalysisPayload(question, context)).Failure? ==>
              r == Str(ApiErrorPrefix + post(OllamaEndpoint, AnalysisPayload(question, context)).error)
    ensures post(OllamaEndpoint, AnalysisPayload(question, context)).Success? ==>
              var body := post(OllamaEndpoint, AnalysisPayload(question, context)).value;
              && (!body.Obj? ==> r == Str(AnalysisErrorPrefix + Web.NoGet(body)))
              && (body.Obj? && Lookup(body.fields, "response").Some? ==> r == Lookup(body.fields, "response").value)
              && (body.Obj? && Lookup(body.fields, "response").None? ==> r == Str(NoResponseText))
  {
    match post(OllamaEndpoint, AnalysisPayload(question, context))
    case Failure(e) => Str(ApiErrorPrefix + e)
    case Success(body) =>
      if !body.Obj? then Str(AnalysisErrorPrefix + Web.NoGet(body))
      else Get(body.fields, "response", Str(NoResponseText))
  }

  /** The request names the model and carries the question and context in its prompt. */
  lemma PayloadFields(question: string, context: string)
    ensures var f := AnalysisPayload(question, context).fields;
            && Keys(f) == ["model", "prompt", "system", "stream"]
            && Lookup(f, "model") == Some(Str(OllamaModel))
            && Lookup(f, "prompt") == Some(Str(AnalysisPrompt(question, context)))
  {
    var f := AnalysisPayload(question, context).fields;
    LastIndexAt(f, "model", 0);
    LastIndexAt(f, "prompt", 1);
  }

  // ----------------------------------------------------------------------
  // pdf_analysis_agent
  // ----------------------------------------------------------------------

  /** How the workflow ends: halted on the read result, or with the model's answer. */
  datatype Outcome = Halted(reason: string) | Answered(answer: Json)

  /** `pdf_analysis_agent(user_question, pdf_path)` */
  function PdfAnalysisAgent(files: Files, post: Web.Post, question: string, path: string): (r: Outcome)
    ensures r.Halted? ==> r.reason == ReadPdfText(files, path) && Halts(r.reason)
  {
    var content := ReadPdfText(files, path);
    if Halts(content) then Halted(content)
    else Answered(OllamaAnalysis(post, question, content))
  }

  /**
   * The model is consulted exactly for a readable file whose text does not
   * start with `Error`, and then about that file's excerpt.
   */
  lemma AgentConsultsModel(files: Files, post: Web.Post, question: string, path: string)
    ensures PdfAnalysisAgent(files, post, question, path).Answered?
            <==> files(path).Contents? && !StartsWith(files(path).text, "Error")
    ensures PdfAnalysisAgent(files, post, question, path).Answered? ==>
              PdfAnalysisAgent(files, post, question, path).answer
              == OllamaAnalysis(post, question, ReadPdfText(files, path))
  {
    HaltRule(files, path);
  }

  /** A missing file halts the workflow with the not-found text and no model call. */
  lemma MissingFileHalts(files: Files, post: Web.Post, question: string, path: string)
    requires files(path).Missing?
    ensures PdfAnalysisAgent(files, post, question, path) == Halted("Error: PDF file not found at " + path)
  {
    HaltRule(files, path);
  }
}

=== FILE: plan_execution.dfy ===
/**
 * The plan executors of `day7/planningagent.py` (`execute_plan`) and
 * `day7/customExecutionSynthesis.py` (`execute_plan_and_collect_observations`):
 * every plan line containing `Tool: name(arg)` runs the named lookup tool on
 * the cleaned argument, and the observations are stored under
 * `Observation_<line number>` and joined into one text.
 *
 * The two executors differ only in the lines they number: the first splits the
 * plan as given, the second splits the stripped plan. Their progress printing
 * is not modelled.
 */
module PlanExecution {
  import opened Wrappers
  import opened Strings

  // ----------------------------------------------------------------------
  // The lookup tools
  // ----------------------------------------------------------------------

  const Policies: map<string, string> := map[
    "vacation" := "Employees are entitled to 20 days of PTO annually. Requests must be submitted 14 days in advance.",
    "expense report" := "All expense reports over $500 must be approved by two managers. Receipts are mandatory.",
    "remote work" := "Remote work is limited to three days per week, requiring a signed agreement."
  ]

  const Statuses: map<string, string> := map[
    "Alice" := "Alice's annual PTO balance is 5 days remaining.",
    "Bob" := "Bob is currently on an approved 3-month leave of absence."
  ]

  /** `check_policy(topic)`: looked up by the lower-cased topic. */
  function CheckPolicy(topic: string): (r: string)
    ensures Lower(topic) in Policies ==> r == Policies[Lower(topic)]
    ensures Lower(topic) !in Policies ==> r == "Policy for '" + topic + "' not found in the database."
  {
    if Lower(topic) in Policies then Policies[Lower(topic)]
    else "Policy for '" + topic + "' not found in the database."
  }

  /** `check_employee_status(name)`: looked up by the exact name. */
  function CheckEmployeeStatus(name: string): (r: string)
    ensures name in Statuses ==> r == Statuses[name]
    ensures name !in Statuses ==> r == "Employee '" + name + "' not found."
  {
    if name in Statuses then Statuses[name] else "Employee '" + name + "' not found."
  }

  /** Policy topics ignore case; employee names do not. */
  lemma LookupCase()
    ensures CheckPolicy("VACATION") == CheckPolicy("vacation") == Policies["vacation"]
    ensures CheckEmployeeStatus("alice") == "Employee 'alice' not found."
    ensures CheckEmployeeStatus("Alice") == Statuses["Alice"]
  {
    assert Lower("VACATION") == "vacation";
    assert Lower("vacation") == "vacation";
  }

  /** `tool_map`: the tools by name. */
  function RunTool(name: string, arg: string): Option<string> {
    if name == "check_policy" then Some(CheckPolicy(arg))
    else if name == "check_employee_status" then Some(CheckEmployeeStatus(arg))
    else None
  }

  // ----------------------------------------------------------------------
  // `re.search(r"Tool: (\w+)\((.*)\)", line)`
  // ----------------------------------------------------------------------

  const Marker: string := "Tool: "

  /** The regular expression matches at `p` with groups `name` and `arg`. */
  predicate Matches(line: string, p: int, name: string, arg: string) {
    && |name| > 0
    && (forall k :: 0 <= k < |name| ==> IsWordChar(name[k]))
    && '\n' !in arg
    && OccursAt(line, Marker + name + "(" + arg + ")", p)
  }

  /** The index of the last occurrence of `c`. */
  function LastIndexOfChar(s: string, c: char): (r: Option<nat>)
    ensures r.Some? ==> r.value < |s| && s[r.value] == c
    ensures r.Some? ==> forall k :: r.value < k < |s| ==> s[k] != c
    ensures r.None? ==> c !in s
    decreases |s|
  {
    if |s| == 0 then None
    else if s[|s| - 1] == c then Some(|s| - 1)
    else LastIndexOfChar(s[..|s| - 1], c)
  }

  /**
   * The match attempted at `p`: `\w+` must take the whole word run (the
   * character after a shorter run is a word character, not `(`), and the
   * greedy `(.*)` ends at the last `)` of the line.
   */
  function MatchAt(line: string, p: nat): Option<(string, string)>
    requires p <= |line|
  {
    if !OccursAt(line, Marker, p) then None else CallFrom(line, p + |Marker|)
  }

  /** The part of the match after the marker: the word, then `(`, the argument and the last `)`. */
  function CallFrom(line: string, start: nat): Option<(string, string)>
    requires start <= |line|
  {
    var n := WordRun(line, start);
    if n == 0 || start + n == |line| || line[start + n] != '(' then None
    else
      var q := start + n + 1;
      match LastIndexOfChar(line[q..], ')')
      case None => None
      case Some(k) => Some((line[start..start + n], line[q..q + k]))
  }

  /** A marker, a word, `(`, an argument and `)` side by side are a match. */
  lemma MatchOfParts(line: string, p: nat, name: string, arg: string)
    requires |name| > 0 && (forall k :: 0 <= k < |name| ==> IsWordChar(name[k])) && '\n' !in arg
    requires OccursAt(line, Marker, p) && OccursAt(line, name, p + |Marker|)
    requires OccursAt(line, "(", p + |Marker| + |name|) && OccursAt(line, arg, p + |Marker| + |name| + 1)
    requires OccursAt(line, ")", p + |Marker| + |name| + 1 + |arg|)
    ensures Matches(line, p, name, arg)
  {
    OccursAtConcat(line, Marker, name, p);
    OccursAtConcat(line, Marker + name, "(", p);
    OccursAtConcat(line, Marker + name + "(", arg, p);
    OccursAtConcat(line, Marker + name + "(" + arg, ")", p);
  }

  /** What `CallFrom` finds sits where the pattern puts it. */
  lemma CallFromParts(line: string, start: nat)
    requires start <= |line| && '\n' !in line
    requires CallFrom(line, start).Some?
    ensures var (name, arg) := CallFrom(line, start).value;
            && |name| > 0 && (forall k :: 0 <= k < |name| ==> IsWordChar(name[k])) && '\n' !in arg
            && OccursAt(line, name, start) && OccursAt(line, "(", start + |name|)
            && OccursAt(line, arg, start + |name| + 1) && OccursAt(line, ")", start + |name| + 1 + |arg|)
  {
    var n := WordRun(line, start);
    var q := start + n + 1;
    var k := LastIndexOfChar(line[q..], ')').value;
    var name := line[start..start + n];
    var arg := line[q..q + k];
    assert line[start + n..start + n + 1] == [line[start + n]];
    assert line[q + k] == line[q..][k];
    assert line[q + k..q + k + 1] == [line[q + k]];
    forall j | 0 <= j < |arg| ensures arg[j] != '\n' {
      assert arg[j] == line[q + j];
    }
    forall j | 0 <= j < |name| ensures IsWordChar(name[j]) {
      assert name[j] == line[start + j];
    }
  }

  /** What `MatchAt` finds is a match. */
  lemma MatchAtSound(line: string, p: nat)
    requires p <= |line| && '\n' !in line
    requires MatchAt(line, p).Some?
    ensures Matches(line, p, MatchAt(line, p).value.0, MatchAt(line, p).value.1)
  {
    CallFromParts(line, p + |Marker|);
    var (name, arg) := CallFrom(line, p + |Marker|).value;
    MatchOfParts(line, p, name, arg);
  }

  /** Any match at `p` is found by `MatchAt`, with the same name and an argument at least as long. */
  lemma MatchAtComplete(line: string, p: nat, name: string, arg: string)
    requires p <= |line|
    requires Matches(line, p, name, arg)
    ensures MatchAt(line, p).Some?
    ensures MatchAt(line, p).value.0 == name
    ensures |MatchAt(line, p).value.1| >= |arg|
  {
    var start := p + |Marker|;
    var q := start + |name| + 1;
    OccursAtConcat(line, Marker + name + "(" + arg, ")", p);
    OccursAtConcat(line, Marker + name + "(", arg, p);
    OccursAtConcat(line, Marker + name, "(", p);
    OccursAtConcat(line, Marker, name, p);
    OccursAtIndexwise(line, name, start);
    assert line[start + |name|] == line[start + |name|..q][0] == '(';
    WordRunExact(line, start, |name|);
    assert line[q + |arg|] == ')' by {
      assert line[q + |arg|] == line[q + |arg|..q + |arg| + 1][0];
    }
    assert line[q..][|arg|] == ')';
    var k := LastIndexOfChar(line[q..], ')');
    assert k.Some? && k.value >= |arg|;
    assert line[start..start + |name|] == name;
  }

  /** `re.search`: the attempt at the leftmost position that matches, from `from` on. */
  function Search(line: string, from: nat): (r: Option<(nat, string, string)>)
    requires from <= |line|
    ensures r.Some? ==> from <= r.value.0 <= |line| && MatchAt(line, r.value.0) == Some((r.value.1, r.value.2))
    ensures r.Some? ==> forall q :: from <= q < r.value.0 ==> MatchAt(line, q).None?
    ensures r.None? ==> forall q :: from <= q <= |line| ==> MatchAt(line, q).None?
    decreases |line| - from
  {
    match MatchAt(line, from)
    case Some((name, arg)) => Some((from, name, arg))
    case None => if from == |line| then None else Search(line, from + 1)
  }

  /**
   * The search is the regular expression's: it succeeds exactly when some
   * position matches, at the leftmost such position, with the match the
   * greedy groups prefer.
   */
  lemma SearchSpec(line: string)
    requires '\n' !in line
    ensures Search(line, 0).None? <==> forall p, name, arg :: 0 <= p <= |line| ==> !Matches(line, p, name, arg)
    ensures Search(line, 0).Some? ==>
      var (p, name, arg) := Search(line, 0).value;
      && Matches(line, p, name, arg)
      && (forall q, n', a' :: 0 <= q < p ==> !Matches(line, q, n', a'))
      && (forall a' :: Matches(line, p, name, a') ==> |a'| <= |arg|)
  {
    var r := Search(line, 0);
    if r.Some? {
      MatchAtSound(line, r.value.0);
      forall q, n', a' | 0 <= q < r.value.0 ensures !Matches(line, q, n', a') {
        if Matches(line, q, n', a') {
          MatchAtComplete(line, q, n', a');
        }
      }
      forall a' | Matches(line, r.value.0, r.value.1, a') ensures |a'| <= |r.value.2| {
        MatchAtComplete(line, r.value.0, r.value.1, a');
      }
    } else {
      forall p, name, arg | 0 <= p <= |line| ensures !Matches(line, p, name, arg) {
        if Matches(line, p, name, arg) {
          MatchAtComplete(line, p, name, arg);
        }
      }
    }
  }

  /** Two occurrences at the same place of texts of the same length are the same text. */
  lemma SameOccurrence(line: string, t1: string, t2: string, p: int)
    requires OccursAt(line, t1, p) && OccursAt(line, t2, p) && |t1| == |t2|
    ensures t1 == t2
  {
  }

  /**
   * A line whose only marker before the match is the match's own, and whose
   * match runs to the end of the line, is found with exactly that name and
   * argument.
   */
  lemma SearchFinds(line: string, p: nat, name: string, arg: string)
    requires '\n' !in line
    requires Matches(line, p, name, arg)
    requires p + |Marker| + |name| + |arg| + 2 == |line|
    requires forall q :: 0 <= q < p ==> !OccursAt(line, Marker, q)
    ensures Search(line, 0) == Some((p, name, arg))
  {
    MatchAtComplete(line, p, name, arg);
    var r := Search(line, 0);
    assert r.Some? && r.value.0 == p;
    var arg' := r.value.2;
    MatchAtSound(line, p);
    var t1 := Marker + name + "(" + arg + ")";
    var t2 := Marker + name + "(" + arg' + ")";
    SameOccurrence(line, t1, t2, p);
    assert arg == t1[|Marker| + |name| + 1..|t1| - 1];
    assert arg' == t2[|Marker| + |name| + 1..|t2| - 1];
  }

  /** `\w+` cannot match `N/A`: the synthesis branch of the executors is never taken. */
  lemma SynthesisBranchUnreachable(line: string)
    requires Search(line, 0).Some?
    ensures Search(line, 0).value.1 != "N/A"
  {
    var (p, name, arg) := Search(line, 0).value;
    var start := p + |Marker|;
    var n := WordRun(line, start);
    assert name == line[start..start + n];
    if |name| == 3 {
      assert IsWordChar(name[1]) by {
        assert name[1] == line[start + 1];
      }
    }
  }

  // ----------------------------------------------------------------------
  // The executors
  // ----------------------------------------------------------------------

  /** `match.group(2).strip().strip("'\"")` */
  function CleanArg(arg: string): string {
    StripChars(Strip(arg), "'\"")
  }

  /** The key for the line at 0-based index `i`. */
  function Key(i: nat): string {
    "Observation_" + NatToString(i + 1)
  }

  lemma KeyInjective(i: nat, j: nat)
    requires Key(i) == Key(j)
    ensures i == j
  {
    var prefix := "Observation_";
    assert Key(i)[|prefix|..] == NatToString(i + 1);
    assert Key(j)[|prefix|..] == NatToString(j + 1);
    NatToStringInjective(i + 1, j + 1);
  }

  /** The observation a line yields, if any. */
  function LineObservation(line: string): Option<string> {
    var s := Strip(line);
    match Search(s, 0)
    case None => None
    case Some((_, name, arg)) =>
      if name == "N/A" then None
      else
        match RunTool(name, CleanArg(arg))
        case Some(observation) => Some(observation)
        case None => Some("Error: Tool '" + name + "' not recognized.")
  }

  /**
   * A stripped line yields an observation exactly when the pattern matches
   * in it: the named tool's answer for the cleaned argument, or, for a name
   * no tool is registered under, the not-recognised text naming it.
   */
  lemma LineObservationRule(line: string)
    ensures LineObservation(line).Some? <==> Search(Strip(line), 0).Some?
    ensures Search(Strip(line), 0).Some? ==>
              var (_, name, arg) := Search(Strip(line), 0).value;
              && (RunTool(name, CleanArg(arg)).Some? ==> LineObservation(line) == RunTool(name, CleanArg(arg)))
              && (name != "check_policy" && name != "check_employee_status" ==>
                    LineObservation(line) == Some("Error: Tool '" + name + "' not recognized."))
  {
    if Search(Strip(line), 0).Some? {
      SynthesisBranchUnreachable(Strip(line));
    }
  }

  /** What a plan line yields: an observation, or nothing. */
  type Observer = string -> Option<string>

  /** The observations of `lines[from..]`, keyed by their line numbers within `lines`. */
  function ObservationsFrom(lines: seq<string>, from: nat, observe: Observer): (r: seq<(string, string)>)
    requires from <= |lines|
    ensures |r| <= |lines| - from
    ensures forall e :: e in r ==> exists i :: from <= i < |lines| && e.0 == Key(i) && observe(lines[i]) == Some(e.1)
    decreases |lines| - from
  {
    if from == |lines| then []
    else
      var rest := ObservationsFrom(lines, from + 1, observe);
      match observe(lines[from])
      case None => rest
      case Some(o) => [(Key(from), o)] + rest
  }

  /**
   * Line `i` has an entry exactly when it yields an observation, and that
   * entry holds its observation.
   */
  lemma {:induction false} ObservationsFromSpec(lines: seq<string>, from: nat, observe: Observer, i: nat)
    requires from <= i < |lines|
    ensures (exists e :: e in ObservationsFrom(lines, from, observe) && e.0 == Key(i)) <==> observe(lines[i]).Some?
    ensures forall e :: e in ObservationsFrom(lines, from, observe) && e.0 == Key(i) ==> observe(lines[i]) == Some(e.1)
    decreases |lines| - from
  {
    var r := ObservationsFrom(lines, from, observe);
    forall e | e in r && e.0 == Key(i)
      ensures observe(lines[i]) == Some(e.1)
    {
      var j :| from <= j < |lines| && e.0 == Key(j) && observe(lines[j]) == Some(e.1);
      KeyInjective(i, j);
    }
    var rest := ObservationsFrom(lines, from + 1, observe);
    if i == from {
      if observe(lines[i]).Some? {
        assert r[0] in r && r[0].0 == Key(i);
      }
    } else {
      ObservationsFromSpec(lines, from + 1, observe, i);
      if observe(lines[from]).Some? {
        assert r == [(Key(from), observe(lines[from]).value)] + rest;
        if Key(from) == Key(i) { KeyInjective(from, i); }
      } else {
        assert r == rest;
      }
    }
  }

  /** No key is repeated. */
  predicate DistinctKeys(entries: seq<(string, string)>) {
    forall a, b :: 0 <= a < b < |entries| ==> entries[a].0 != entries[b].0
  }

  lemma DistinctKeysCons(x: (string, string), rest: seq<(string, string)>)
    requires DistinctKeys(rest)
    requires forall e :: e in rest ==> e.0 != x.0
    ensures DistinctKeys([x] + rest)
  {
    var r := [x] + rest;
    forall a, b | 0 <= a < b < |r| ensures r[a].0 != r[b].0 {
      assert r[b] == rest[b - 1];
      if a == 0 {
        assert r[b] in rest;
      } else {
        assert r[a] == rest[a - 1];
      }
    }
  }

  /** The entries after line `from` are keyed by later line numbers. */
  lemma LaterKeys(lines: seq<string>, from: nat, observe: Observer)
    requires from < |lines|
    ensures forall e :: e in ObservationsFrom(lines, from + 1, observe) ==> e.0 != Key(from)
  {
    forall e | e in ObservationsFrom(lines, from + 1, observe) ensures e.0 != Key(from) {
      var j :| from + 1 <= j < |lines| && e.0 == Key(j) && observe(lines[j]) == Some(e.1);
      if e.0 == Key(from) { KeyInjective(from, j); }
    }
  }

  /** Every key appears once: the dict never overwrites, so the list of entries is the dict. */
  lemma {:induction false} ObservationKeysDistinct(lines: seq<string>, from: nat, observe: Observer)
    requires from <= |lines|
    ensures DistinctKeys(ObservationsFrom(lines, from, observe))
    decreases |lines| - from
  {
    if from < |lines| {
      ObservationKeysDistinct(lines, from + 1, observe);
      var rest := ObservationsFrom(lines, from + 1, observe);
      if observe(lines[from]).Some? {
        LaterKeys(lines, from, observe);
        DistinctKeysCons((Key(from), observe(lines[from]).value), rest);
      }
    }
  }

  /** The indices of `lines[from..]` that yield an observation, in increasing order. */
  function ObservingLines(lines: seq<string>, from: nat, observe: Observer): (r: seq<nat>)
    requires from <= |lines|
    ensures forall k :: 0 <= k < |r| ==> from <= r[k] < |lines| && observe(lines[r[k]]).Some?
    ensures forall i :: from <= i < |lines| && observe(lines[i]).Some? ==> i in r
    ensures forall a, b :: 0 <= a < b < |r| ==> r[a] < r[b]
    decreases |lines| - from
  {
    if from == |lines| then []
    else
      var rest := ObservingLines(lines, from + 1, observe);
      if observe(lines[from]).Some? then [from] + rest else rest
  }

  /** Entry `k` of `r` belongs to line `idx[k]` and holds its observation. */
  predicate Aligned(r: seq<(string, string)>, idx: seq<nat>, lines: seq<string>, observe: Observer) {
    && |r| == |idx|
    && forall k :: 0 <= k < |r| ==>
         idx[k] < |lines| && observe(lines[idx[k]]).Some? && r[k] == (Key(idx[k]), observe(lines[idx[k]]).value)
  }

  lemma AlignedCons(r: seq<(string, string)>, idx: seq<nat>, lines: seq<string>, observe: Observer, i: nat)
    requires Aligned(r, idx, lines, observe)
    requires i < |lines| && observe(lines[i]).Some?
    ensures Aligned([(Key(i), observe(lines[i]).value)] + r, [i] + idx, lines, observe)
  {
    var r2 := [(Key(i), observe(lines[i]).value)] + r;
    var idx2 := [i] + idx;
    forall k | 1 <= k < |r2|
      ensures idx2[k] < |lines| && observe(lines[idx2[k]]).Some? && r2[k] == (Key(idx2[k]), observe(lines[idx2[k]]).value)
    {
      assert r2[k] == r[k - 1] && idx2[k] == idx[k - 1];
    }
  }

  /**
   * The results dictionary lists the observing lines in plan order: its
   * `k`-th entry belongs to the `k`-th line that yields an observation.
   */
  lemma {:induction false} ObservationsInPlanOrder(lines: seq<string>, from: nat, observe: Observer)
    requires from <= |lines|
    ensures Aligned(ObservationsFrom(lines, from, observe), ObservingLines(lines, from, observe), lines, observe)
    decreases |lines| - from
  {
    if from < |lines| {
      ObservationsInPlanOrder(lines, from + 1, observe);
      if observe(lines[from]).Some? {
        AlignedCons(ObservationsFrom(lines, from + 1, observe), ObservingLines(lines, from + 1, observe), lines, observe, from);
      }
    }
  }

  /** `"\n".join(f"{k}: {v}" for k, v in results.items())` */
  function Render(entries: seq<(string, string)>): string {
    Join(seq(|entries|, k requires 0 <= k < |entries| => entries[k].0 + ": " + entries[k].1), "\n")
  }

  /** The rendered lines, stated through the observing lines: `Observation_<n>: <observation>` for each, in plan order. */
  function ReportLines(lines: seq<string>): seq<string> {
    var obs := ObservingLines(lines, 0, LineObservation);
    seq(|obs|, k requires 0 <= k < |obs| => Key(obs[k]) + ": " + LineObservation(lines[obs[k]]).value)
  }

  /** Rendering the results dictionary gives one line per observing line, in plan order. */
  lemma RenderInPlanOrder(lines: seq<string>)
    ensures Render(ObservationsFrom(lines, 0, LineObservation)) == Join(ReportLines(lines), "\n")
  {
    ObservationsInPlanOrder(lines, 0, LineObservation);
    var entries := ObservationsFrom(lines, 0, LineObservation);
    var rendered := seq(|entries|, k requires 0 <= k < |entries| => entries[k].0 + ": " + entries[k].1);
    assert rendered == ReportLines(lines);
  }

  /** The executor's output dict. */
  datatype Output = Output(question: string, originalPlan: string, toolObservations: string)

  /** The lines each executor numbers. */
  function PlanLines(plan: string): seq<string> {
    Split(plan, "\n")
  }

  function StrippedPlanLines(plan: string): seq<string> {
    Split(Strip(plan), "\n")
  }

  /** `execute_plan` (planning agent): numbers the lines of the plan as given. */
  function ExecutePlan(question: string, plan: string): (o: Output)
    ensures o.question == question && o.originalPlan == plan
    ensures o.toolObservations == Join(ReportLines(PlanLines(plan)), "\n")
  {
    RenderInPlanOrder(PlanLines(plan));
    Output(question, plan, Render(ObservationsFrom(PlanLines(plan), 0, LineObservation)))
  }

  /** `execute_plan_and_collect_observations`: numbers the lines of the stripped plan. */
  function ExecuteCollect(question: string, plan: string): (o: Output)
    ensures o.question == question && o.originalPlan == plan
    ensures o.toolObservations == Join(ReportLines(StrippedPlanLines(plan)), "\n")
  {
    RenderInPlanOrder(StrippedPlanLines(plan));
    Output(question, plan, Render(ObservationsFrom(StrippedPlanLines(plan), 0, LineObservation)))
  }

  /** A leading blank line does not shift the numbering of the stripped plan. */
  lemma CollectIgnoresLeadingSpace(question: string, plan: string, c: char)
    requires IsSpace(c)
    ensures ExecuteCollect(question, [c] + plan).toolObservations == ExecuteCollect(question, plan).toolObservations
  {
    assert ([c] + plan)[1..] == plan;
    assert LStripBy([c] + plan, IsSpace) == LStripBy(plan, IsSpace);
  }

  /** A leading blank line does shift the numbering of the unstripped plan: line `i` becomes line `i + 1`. */
  lemma PlanShiftsOnLeadingNewline(plan: string)
    ensures PlanLines("\n" + plan) == [""] + PlanLines(plan)
  {
    var s := "\n" + plan;
    assert OccursAt(s, "\n", 0) by { assert s[0..1] == "\n"; }
    assert s[1..] == plan;
  }

  // ----------------------------------------------------------------------
  // The fixed plan of `customExecutionSynthesis.py`
  // ----------------------------------------------------------------------

  /** `1. Tool: check_policy('vacation')` */
  const MockLine1: string := StepLine('1', "check_policy", "'vacation'")
  /** `2. Tool: check_employee_status('Alice')` */
  const MockLine2: string := StepLine('2', "check_employee_status", "'Alice'")
  /** The synthesis step's note, in short pieces so that facts about its characters stay cheap. */
  const SynthesisNote: string := " (Synthesize all" + " information" + " gathered into" + " a single answer)"
  const MockLine3Head: string := "3. Tool: N/A"
  const MockLine3: string := MockLine3Head + SynthesisNote

  const MockSteps: string := MockLine1 + "\n" + MockLine2 + "\n" + MockLine3

  /** `MOCK_PLAN`: three numbered steps between a leading and a trailing newline. */
  const MockPlan: string := "\n" + MockSteps + "\n"

  /** A marker can only start where its `T` is. */
  lemma MarkerAt(line: string, q: int)
    requires OccursAt(line, Marker, q)
    ensures line[q] == 'T'
  {
    assert line[q..q + |Marker|][0] == line[q];
  }

  /** The quoted arguments of the mock plan lose their quotes. */
  lemma MockPolicyArgument()
    ensures RunTool("check_policy", CleanArg("'vacation'")) == Some(Policies["vacation"])
  {
    assert CleanArg("'vacation'") == "vacation";
    LookupCase();
  }

  lemma MockStatusArgument()
    ensures RunTool("check_employee_status", CleanArg("'Alice'")) == Some(Statuses["Alice"])
  {
    assert CleanArg("'Alice'") == "Alice";
  }

  /** The line `<d>. Tool: name(arg)` of a numbered plan. */
  function StepLine(d: char, name: string, arg: string): string {
    [d, '.', ' '] + Marker + name + "(" + arg + ")"
  }

  /** In a numbered step line the search finds the step's own tool call. */
  lemma SearchStep(d: char, name: string, arg: string)
    requires d != 'T' && !IsSpace(d)
    requires IsWordName(name) && '\n' !in name && '\n' !in arg
    ensures '\n' !in StepLine(d, name, arg)
    ensures Strip(StepLine(d, name, arg)) == StepLine(d, name, arg)
    ensures Search(StepLine(d, name, arg), 0) == Some((3, name, arg))
  {
    var l := StepLine(d, name, arg);
    var text := Marker + name + "(" + arg + ")";
    assert l == [d, '.', ' '] + text;
    assert l[3..3 + |text|] == text;
    assert OccursAt(l, text, 3);
    StripUnchanged(l);
    forall q | 0 <= q < 3 ensures !OccursAt(l, Marker, q) {
      if OccursAt(l, Marker, q) { MarkerAt(l, q); }
    }
    SearchFinds(l, 3, name, arg);
  }

  /** A numbered step line naming a known tool yields that tool's answer for the cleaned argument. */
  lemma StepObservation(d: char, name: string, arg: string)
    requires d != 'T' && !IsSpace(d)
    requires IsWordName(name) && '\n' !in name && '\n' !in arg
    requires name != "N/A" && RunTool(name, CleanArg(arg)).Some?
    ensures LineObservation(StepLine(d, name, arg)) == RunTool(name, CleanArg(arg))
  {
    SearchStep(d, name, arg);
  }

  lemma MockNames()
    ensures IsWordName("check_policy") && '\n' !in "check_policy"
    ensures IsWordName("check_employee_status") && '\n' !in "check_employee_status"
  {
  }

  lemma MockLine1Observation()
    ensures '\n' !in MockLine1
    ensures LineObservation(MockLine1) == Some(Policies["vacation"])
  {
    MockNames();
    MockPolicyArgument();
    SearchStep('1', "check_policy", "'vacation'");
    StepObservation('1', "check_policy", "'vacation'");
  }

  lemma MockLine2Observation()
    ensures '\n' !in MockLine2
    ensures LineObservation(MockLine2) == Some(Statuses["Alice"])
  {
    MockNames();
    MockStatusArgument();
    SearchStep('2', "check_employee_status", "'Alice'");
    StepObservation('2', "check_employee_status", "'Alice'");
  }

  /** The synthesis line has a single marker, at 3. */
  lemma MockLine3Marker(q: int)
    requires OccursAt(MockLine3, Marker, q)
    ensures q == 3
  {
    assert 'T' !in SynthesisNote;
    MarkerAt(MockLine3, q);
  }

  /** After the marker comes `N/`, which is no `\w+(`. */
  lemma MockLine3NoCall()
    ensures MatchAt(MockLine3, 3).None?
  {
    var l := MockLine3;
    assert l[9] == 'N' && l[10] == '/';
    WordRunExact(l, 9, 1);
  }

  /** The synthesis line has a marker, but `N/A` is no `\w+` followed by `(`: no observation. */
  lemma MockLine3Observation()
    ensures '\n' !in MockLine3
    ensures LineObservation(MockLine3) == None
  {
    var l := MockLine3;
    assert '\n' !in SynthesisNote && '\n' !in MockLine3Head;
    StripUnchanged(l);
    MockLine3NoCall();
    forall q | 0 <= q <= |l| ensures MatchAt(l, q).None? {
      if OccursAt(l, Marker, q) {
        MockLine3Marker(q);
      }
    }
  }

  /** Stripping a text framed by newlines leaves the text when it has no space at either end. */
  lemma StripFramed(b: string)
    requires |b| > 0 && !IsSpace(b[0]) && !IsSpace(b[|b| - 1])
    ensures Strip("\n" + b + "\n") == b
  {
    var s := "\n" + b + "\n";
    var t := b + "\n";
    assert s[1..] == t;
    assert LStripBy(s, IsSpace) == LStripBy(t, IsSpace);
    assert t[0] == b[0];
    assert LStripBy(t, IsSpace) == t;
    assert t[..|t| - 1] == b;
    assert RStripBy(t, IsSpace) == RStripBy(b, IsSpace);
  }

  /** Three lines without a newline split back into themselves. */
  lemma SplitThree(l1: string, l2: string, l3: string)
    requires '\n' !in l1 && '\n' !in l2 && '\n' !in l3
    ensures Split(l1 + "\n" + l2 + "\n" + l3, "\n") == [l1, l2, l3]
  {
    NoOccurrence(l3, "\n");
    SplitCons(l2, "\n", l3);
    assert l1 + "\n" + l2 + "\n" + l3 == l1 + "\n" + (l2 + "\n" + l3);
    SplitCons(l1, "\n", l2 + "\n" + l3);
  }

  lemma FirstKeys()
    ensures Key(0) == "Observation_1" && Key(1) == "Observation_2"
  {
    assert NatToString(1) == "1" && NatToString(2) == "2";
  }

  /** Two entries render as two `key: value` lines. */
  lemma RenderTwo(k1: string, v1: string, k2: string, v2: string)
    ensures Render([(k1, v1), (k2, v2)]) == k1 + ": " + v1 + "\n" + k2 + ": " + v2
  {
    var entries := [(k1, v1), (k2, v2)];
    var texts := seq(|entries|, k requires 0 <= k < |entries| => entries[k].0 + ": " + entries[k].1);
    assert texts == [k1 + ": " + v1, k2 + ": " + v2];
    assert texts[1..] == [k2 + ": " + v2];
    assert Join(texts, "\n") == texts[0] + "\n" + Join(texts[1..], "\n");
  }

  /** Two observing lines followed by a silent one are stored as the first two observations. */
  lemma ObservationsThree(l1: string, l2: string, l3: string, v1: string, v2: string)
    requires LineObservation(l1) == Some(v1) && LineObservation(l2) == Some(v2) && LineObservation(l3) == None
    ensures ObservationsFrom([l1, l2, l3], 0, LineObservation) == [("Observation_1", v1), ("Observation_2", v2)]
  {
    var lines := [l1, l2, l3];
    assert ObservationsFrom(lines, 3, LineObservation) == [];
    assert ObservationsFrom(lines, 2, LineObservation) == [];
    FirstKeys();
    assert ObservationsFrom(lines, 1, LineObservation) == [(Key(1), v2)];
  }

  /**
   * A newline-framed plan of three lines, the first two observing and the last
   * silent, yields the first two observations as `Observation_1` and `Observation_2`.
   */
  lemma CollectThree(question: string, l1: string, l2: string, l3: string, v1: string, v2: string)
    requires '\n' !in l1 && '\n' !in l2 && '\n' !in l3
    requires |l1| > 0 && !IsSpace(l1[0]) && |l3| > 0 && !IsSpace(l3[|l3| - 1])
    requires LineObservation(l1) == Some(v1) && LineObservation(l2) == Some(v2) && LineObservation(l3) == None
    ensures StrippedPlanLines("\n" + (l1 + "\n" + l2 + "\n" + l3) + "\n") == [l1, l2, l3]
    ensures ExecuteCollect(question, "\n" + (l1 + "\n" + l2 + "\n" + l3) + "\n").toolObservations
            == "Observation_1" + ": " + v1 + "\n" + "Observation_2" + ": " + v2
  {
    var body := l1 + "\n" + l2 + "\n" + l3;
    var plan := "\n" + body + "\n";
    assert body[0] == l1[0];
    assert body[|body| - 1] == l3[|l3| - 1];
    StripFramed(body);
    SplitThree(l1, l2, l3);
    var lines := StrippedPlanLines(plan);
    assert lines == [l1, l2, l3];
    ObservationsThree(l1, l2, l3, v1, v2);
    var entries := ObservationsFrom(lines, 0, LineObservation);
    assert entries == [("Observation_1", v1), ("Observation_2", v2)];
    RenderTwo("Observation_1", v1, "Observation_2", v2);
    assert ExecuteCollect(question, plan).toolObservations == Render(entries);
  }

  lemma MockLineEnds()
    ensures |MockLine1| > 0 && !IsSpace(MockLine1[0])
    ensures |MockLine3| > 0 && !IsSpace(MockLine3[|MockLine3| - 1])
  {
    assert MockLine1[0] == '1';
    assert MockLine3[|MockLine3| - 1] == SynthesisNote[|SynthesisNote| - 1] == ')';
  }

  /** On `MOCK_PLAN` the collector stores exactly the vacation policy under `Observation_1` and Alice's status under `Observation_2`. */
  lemma MockPlanObservations(question: string)
    ensures StrippedPlanLines(MockPlan) == [MockLine1, MockLine2, MockLine3]
    ensures ExecuteCollect(question, MockPlan).toolObservations
            == "Observation_1" + ": " + Policies["vacation"] + "\n" + "Observation_2" + ": " + Statuses["Alice"]
  {
    MockLine1Observation();
    MockLine2Observation();
    MockLine3Observation();
    MockLineEnds();
    CollectThree(question, MockLine1, MockLine2, MockLine3, Policies["vacation"], Statuses["Alice"]);
  }
}

=== FILE: pyrepr.dfy ===
/**
 * How Python prints a decoded JSON value inside an f-string (`str(x)`), and
 * `repr(x)` for the values nested in a list or dict. An object is written
 * entry by entry, as a dict's items are; the values printed are `Decoded`,
 * each key once.
 */
module PyRepr {
  import opened Strings
  import opened Json

  /**
   * Characters for which `str.isprintable()` is false, the ones `repr`
   * escapes: the categories Cc (controls), Cf (format characters, as of
   * Unicode 15.0), Zs except the space, Zl, Zp and Co (private use).
   * Unassigned code points (Cn) are not in this set.
   */
  predicate Unprintable(c: char) {
    || c < ' ' || ('\U{7f}' <= c <= '\U{a0}') || c == '\U{ad}'
    || ('\U{600}' <= c <= '\U{605}') || c == '\U{61c}' || c == '\U{6dd}' || c == '\U{70f}'
    || ('\U{890}' <= c <= '\U{891}') || c == '\U{8e2}' || c == '\U{1680}' || c == '\U{180e}'
    || ('\U{2000}' <= c <= '\U{200f}') || ('\U{2028}' <= c <= '\U{202f}') || ('\U{205f}' <= c <= '\U{2064}')
    || ('\U{2066}' <= c <= '\U{206f}') || c == '\U{3000}' || ('\U{e000}' <= c <= '\U{f8ff}') || c == '\U{feff}'
    || ('\U{fff9}' <= c <= '\U{fffb}') || c == '\U{110bd}' || c == '\U{110cd}' || ('\U{13430}' <= c <= '\U{1343f}')
    || ('\U{1bca0}' <= c <= '\U{1bca3}') || ('\U{1d173}' <= c <= '\U{1d17a}') || c == '\U{e0001}'
    || ('\U{e0020}' <= c <= '\U{e007f}') || ('\U{f0000}' <= c <= '\U{ffffd}') || ('\U{100000}' <= c <= '\U{10fffd}')
  }

  /** Printable ASCII: what every escape sequence is made of. */
  predicate AsciiPrintable(s: string) {
    forall k :: 0 <= k < |s| ==> ' ' <= s[k] <= '~'
  }

  /** `n` as exactly `width` lower-case hexadecimal digits. */
  function Hex(n: nat, width: nat): (r: string)
    ensures |r| == width && AsciiPrintable(r)
  {
    if width == 0 then "" else Hex(n / 16, width - 1) + [HexDigit(n % 16)]
  }

  /**
   * The escape `repr` writes for one character of a string quoted with
   * `quote`: the quote and the backslash are escaped, tab, newline and
   * carriage return by name, any other unprintable character as `\xhh`,
   * `\uhhhh` or `\Uhhhhhhhh` by its size, and the rest as it is.
   */
  function ReprChar(c: char, quote: char): (r: string)
    requires quote == '\'' || quote == '"'
    ensures |r| == 1 <==> c != quote && c != '\\' && !Unprintable(c)
    ensures |r| == 1 ==> r == [c]
    ensures |r| > 1 ==> r[0] == '\\' && AsciiPrintable(r)
    ensures Unprintable(c) && c !in "\t\n\r" ==>
              |r| == (if c as int < 0x100 then 4 else if c as int < 0x10000 then 6 else 10)
  {
    if c == quote || c == '\\' then ['\\', c]
    else if c == '\t' then "\\t"
    else if c == '\n' then "\\n"
    else if c == '\r' then "\\r"
    else if !Unprintable(c) then [c]
    else if c as int < 0x100 then "\\x" + Hex(c as int, 2)
    else if c as int < 0x10000 then "\\u" + Hex(c as int, 4)
    else "\\U" + Hex(c as int, 8)
  }

  function ReprBody(s: string, quote: char): string
    requires quote == '\'' || quote == '"'
    decreases |s|
  {
    if |s| == 0 then "" else ReprChar(s[0], quote) + ReprBody(s[1..], quote)
  }

  /** What `repr` writes is always printable: `repr(s).isprintable()` holds for every string. */
  lemma {:induction false} ReprBodyPrintable(s: string, quote: char)
    requires quote == '\'' || quote == '"'
    ensures forall k :: 0 <= k < |ReprBody(s, quote)| ==> !Unprintable(ReprBody(s, quote)[k])
    decreases |s|
  {
    if |s| > 0 {
      ReprBodyPrintable(s[1..], quote);
      var head := ReprChar(s[0], quote);
      var body := ReprBody(s, quote);
      assert body == head + ReprBody(s[1..], quote);
      forall k | 0 <= k < |body| ensures !Unprintable(body[k]) {
        if k < |head| {
          if |head| > 1 {
            assert ' ' <= head[k] <= '~';
          }
        } else {
          assert body[k] == ReprBody(s[1..], quote)[k - |head|];
        }
      }
    }
  }

  /** Text without unprintable characters, backslashes or the quote is written as it is. */
  lemma {:induction false} ReprBodyPlain(s: string, quote: char)
    requires quote == '\'' || quote == '"'
    requires forall k :: 0 <= k < |s| ==> !Unprintable(s[k]) && s[k] != '\\' && s[k] != quote
    ensures ReprBody(s, quote) == s
    decreases |s|
  {
    if |s| > 0 {
      ReprBodyPlain(s[1..], quote);
      assert s == [s[0]] + s[1..];
    }
  }

  /** A no-break space is escaped: `repr("a\xa0b")` is `'a\xa0b'`. */
  lemma NoBreakSpaceEscaped()
    ensures Repr(Str("a\U{a0}b")) == "'a\\xa0b'"
  {
    assert ReprChar('\U{a0}', '\'') == "\\xa0" by {
      assert Hex(0xa0, 2) == "a0";
    }
    assert ReprBody("a\U{a0}b", '\'') == "a" + "\\xa0" + ReprBody("b", '\'');
  }

  /** `repr(s)`: single quotes, unless the text has a single quote and no double quote. */
  function ReprString(s: string): string {
    var quote := if '\'' in s && '"' !in s then '"' else '\'';
    [quote] + ReprBody(s, quote) + [quote]
  }

  /** `repr(x)` */
  function Repr(j: Json): string
    decreases j
  {
    match j
    case Null => "None"
    case Bool(b) => if b then "True" else "False"
    case Num(n) => IntToString(n)
    case Str(s) => ReprString(s)
    case Arr(items) => "[" + ReprItems(items) + "]"
    case Obj(fields) => "{" + ReprFields(j, fields) + "}"
  }

  function ReprItems(items: seq<Json>): string
    decreases items
  {
    if |items| == 0 then ""
    else if |items| == 1 then Repr(items[0])
    else Repr(items[0]) + ", " + ReprItems(items[1..])
  }

  function ReprFields(ghost parent: Json, fields: seq<(string, Json)>): string
    requires forall i :: 0 <= i < |fields| ==> fields[i].1 < parent
    decreases parent, |fields|
  {
    if |fields| == 0 then ""
    else
      var entry := ReprString(fields[0].0) + ": " + Repr(fields[0].1);
      if |fields| == 1 then entry else entry + ", " + ReprFields(parent, fields[1..])
  }

  /** `str(x)`, what `f"{x}"` inserts: a string as it is, anything else as its repr. */
  function PyStr(j: Json): string {
    match j
    case Str(s) => s
    case _ => Repr(j)
  }
}

=== FILE: stdio_server.dfy ===
/**
 * The single-shot stdio server (`day10/simple/mcp_server.py`): it announces
 * itself on stderr, reads one line from stdin, answers `echo` or
 * `list_tools` with one JSON line on stdout, reports any failure on stderr
 * instead, and exits with status 0 in every case.
 *
 * `json.loads` is an oracle parameter: it either decodes the line or gives
 * the text of the `JSONDecodeError`.
 */
module StdioServer {
  import opened Wrappers
  import opened Strings
  import opened Json
  import JsonEncode
  import PyRepr
  import Kwargs

  const Banner: string := "MCP Server (Single-Shot) starting..."
  const CrashPrefix: string := "SERVER CRASH ERROR: "

  /** `json.loads` on the request line. */
  type Parser = string -> Result<Loaded, string>

  /**
   * `sys.stdin` on a POSIX system splits lines at `\n` only; a `\r` before
   * it stays in the line, where `strip()` removes it.
   */
  predicate IsLineBreak(c: char) {
    c == '\n'
  }

  /** The length of the first line, without its terminator. */
  function LineEnd(s: string): (n: nat)
    ensures n <= |s|
    ensures forall i :: 0 <= i < n ==> !IsLineBreak(s[i])
    ensures n < |s| ==> IsLineBreak(s[n])
    decreases |s|
  {
    if |s| == 0 || IsLineBreak(s[0]) then 0 else 1 + LineEnd(s[1..])
  }

  /**
   * `sys.stdin.readline().strip()`: the first line with surrounding white
   * space removed (the terminator is white space, so it goes too).
   */
  function RequestLine(stdin: string): string {
    Strip(stdin[..LineEnd(stdin)])
  }

  /** Why the request produced no response. */
  datatype Crash =
    | BadJson(detail: string)        // `json.loads` raised
    | NotAMapping(typeName: string)  // `request.get` on a non-object
    | BadEchoArgs(detail: string)    // `echo(**params)` could not bind its arguments
    | NoUpper(typeName: string)      // `message.upper()` on a non-string
    | NotImplemented(name: string) // any other method

  /** `f"{e}"` for the exception behind each crash. */
  function CrashText(c: Crash): string {
    match c
    case BadJson(detail) => detail
    case NotAMapping(t) => "'" + t + "' object has no attribute 'get'"
    case BadEchoArgs(detail) => detail
    case NoUpper(t) => "'" + t + "' object has no attribute 'upper'"
    case NotImplemented(m) => "Method '" + m + "' not implemented."
  }

  /** Binding `echo(**params)`. */
  function BindEcho(params: Json): Result<Json, string> {
    Kwargs.Bind("echo", "message", params)
  }

  /** The log line `echo` writes before it upper-cases its argument. */
  function EchoLog(message: Json): string {
    "Server: Executing echo tool on: '" + PyRepr.PyStr(message) + "'"
  }

  /** `echo(message)`: the upper-cased text, or a crash for anything but a string. */
  function Echo(message: Json): (r: Result<string, Crash>)
    ensures r.Success? <==> message.Str?
    ensures r.Success? ==> |r.value| == |message.s| && Lower(r.value) == Lower(message.s)
    ensures r.Success? ==> Upper(r.value) == r.value
  {
    match message
    case Str(s) =>
      LowerOfUpper(s);
      UpperIdempotent(s);
      Success(Upper(s))
    case _ => Failure(NoUpper(TypeName(message)))
  }

  /** The fixed tool description `list_tools` returns. */
  const ToolList: Json := Arr([Obj([("name", Str("echo")), ("description", Str("echoes input"))])])

  /** What one run writes: stdout, the stderr lines, and the exit status. */
  datatype Run = Run(stdout: string, stderr: seq<string>, crash: Option<Crash>, exitCode: int)

  /** The JSON-RPC response object for a result. */
  function Response(request: Fields, result: Json): Json {
    Obj([("jsonrpc", Str("2.0")), ("id", Get(request, "id", Null)), ("result", result)])
  }

  /** `run_single_request()` on a decoded request: the stderr lines it logs, then the response or the crash. */
  function Dispatch(request: Json): (r: (seq<string>, Result<Json, Crash>))
    requires Decoded(request)
    ensures !request.Obj? ==> r == ([], Failure(NotAMapping(TypeName(request))))
    ensures r.1.Success? ==> request.Obj? && r.1.value.Obj? && |r.1.value.fields| == 3
    ensures r.1.Success? ==> r.1.value.fields[1] == ("id", Get(request.fields, "id", Null))
    ensures r.1.Success? ==>
      (Lookup(request.fields, "method") == Some(Str("echo")) || Lookup(request.fields, "method") == Some(Str("list_tools")))
    ensures request.Obj? && Lookup(request.fields, "method") == Some(Str("echo")) ==>
              var params := Get(request.fields, "params", Obj([]));
              && (r.1.Success? <==> params.Obj? && KeySet(params.fields) == {"message"}
                                    && Lookup(params.fields, "message").Some? && Lookup(params.fields, "message").value.Str?)
              && (r.1.Success? ==> r.1.value == Response(request.fields, Str(Upper(Lookup(params.fields, "message").value.s))))
  {
    if !request.Obj? then ([], Failure(NotAMapping(TypeName(request))))
    else
      var name := Get(request.fields, "method", Null);
      var params := Get(request.fields, "params", Obj([]));
      if name == Str("echo") then
        match BindEcho(params)
        case Failure(e) => ([], Failure(BadEchoArgs(e)))
        case Success(message) =>
          match Echo(message)
          case Failure(c) => ([EchoLog(message)], Failure(c))
          case Success(upper) => ([EchoLog(message)], Success(Response(request.fields, Str(upper))))
      else if name == Str("list_tools") then
        ([], Success(Response(request.fields, ToolList)))
      else
        ([], Failure(NotImplemented(PyRepr.PyStr(name))))
  }

  /** The whole process: banner, at most one request, exit status 0. */
  function Serve(stdin: string, parse: Parser): (r: Run)
    ensures r.exitCode == 0
    ensures |r.stderr| > 0 && r.stderr[0] == Banner
    ensures r.crash.Some? ==> r.stdout == "" && r.stderr[|r.stderr| - 1] == CrashPrefix + CrashText(r.crash.value)
    ensures RequestLine(stdin) == "" ==> r == Run("", [Banner], None, 0)
  {
    var line := RequestLine(stdin);
    if line == "" then Run("", [Banner], None, 0)
    else
      match parse(line)
      case Failure(e) => Run("", [Banner, CrashPrefix + e], Some(BadJson(e)), 0)
      case Success(request) =>
        var (logs, outcome) := Dispatch(request);
        match outcome
        case Failure(c) => Run("", [Banner] + logs + [CrashPrefix + CrashText(c)], Some(c), 0)
        case Success(response) => Run(JsonEncode.Dumps(response) + "\n", [Banner] + logs, None, 0)
  }

  /** stdout is empty or exactly one line: the compact response and a newline. */
  lemma ServeWritesOneLine(stdin: string, parse: Parser)
    ensures var out := Serve(stdin, parse).stdout;
            out == "" || (out[|out| - 1] == '\n' && '\n' !in out[..|out| - 1])
    ensures Serve(stdin, parse).stdout != "" <==> Serve(stdin, parse).crash.None? && RequestLine(stdin) != ""
  {
    var line := RequestLine(stdin);
    if line != "" && parse(line).Success? {
      var (logs, outcome) := Dispatch(parse(line).value);
      if outcome.Success? {
        JsonEncode.DumpsOneLine(outcome.value);
        var out := JsonEncode.Dumps(outcome.value) + "\n";
        assert out[..|out| - 1] == JsonEncode.Dumps(outcome.value);
      }
    }
  }

  /** Only the first line of stdin is read; whatever follows it is ignored. */
  lemma ServeReadsFirstLine(line: string, terminator: char, rest: string, parse: Parser)
    requires forall i :: 0 <= i < |line| ==> !IsLineBreak(line[i])
    requires IsLineBreak(terminator)
    ensures Serve(line + [terminator] + rest, parse) == Serve(line, parse)
  {
    var s := line + [terminator] + rest;
    assert LineEnd(s) == |line| by {
      assert s[|line|] == terminator;
      assert forall i :: 0 <= i < |line| ==> s[i] == line[i];
      LineEndAt(s, |line|);
    }
    assert s[..|line|] == line;
    LineEndAt(line, |line|);
    assert line[..|line|] == line;
  }

  /** A line break at `n` with none before it is where the first line ends. */
  lemma {:induction false} LineEndAt(s: string, n: nat)
    requires n <= |s|
    requires forall i :: 0 <= i < n ==> !IsLineBreak(s[i])
    requires n < |s| ==> IsLineBreak(s[n])
    ensures LineEnd(s) == n
    decreases n
  {
    if n > 0 {
      LineEndAt(s[1..], n - 1);
    }
  }

  /**
   * An `echo` request whose params are `{"message": m}` is answered with `m`
   * upper-cased under the request's id, whatever else the request holds and
   * in whatever order its fields come.
   */
  lemma ServeEcho(stdin: string, parse: Parser, request: Fields, m: string)
    requires RequestLine(stdin) != ""
    requires parse(RequestLine(stdin)) == Success(Obj(request))
    requires Lookup(request, "method") == Some(Str("echo"))
    requires Lookup(request, "params") == Some(Obj([("message", Str(m))]))
    ensures Serve(stdin, parse).stdout
            == JsonEncode.Dumps(Obj([("jsonrpc", Str("2.0")), ("id", Get(request, "id", Null)), ("result", Str(Upper(m)))])) + "\n"
    ensures Serve(stdin, parse).stderr == [Banner, "Server: Executing echo tool on: '" + m + "'"]
  {
    Kwargs.BindSingle("echo", "message", Str(m));
    assert Dispatch(Obj(request))
           == (["Server: Executing echo tool on: '" + m + "'"], Success(Response(request, Str(Upper(m)))));
  }

  /** `list_tools` always answers with the one fixed tool description, whatever its params. */
  lemma ServeListTools(stdin: string, parse: Parser, request: Fields)
    requires RequestLine(stdin) != ""
    requires parse(RequestLine(stdin)) == Success(Obj(request))
    requires Lookup(request, "method") == Some(Str("list_tools"))
    ensures Serve(stdin, parse).crash.None?
    ensures Serve(stdin, parse).stdout
            == JsonEncode.Dumps(Obj([("jsonrpc", Str("2.0")), ("id", Get(request, "id", Null)), ("result", ToolList)])) + "\n"
  {
  }

  /** Any other method, a missing one included, leaves stdout empty and names the method on stderr. */
  lemma ServeUnknownMethod(stdin: string, parse: Parser, request: Fields)
    requires RequestLine(stdin) != ""
    requires parse(RequestLine(stdin)) == Success(Obj(request))
    requires Lookup(request, "method") != Some(Str("echo")) && Lookup(request, "method") != Some(Str("list_tools"))
    ensures Serve(stdin, parse).stdout == ""
    ensures Serve(stdin, parse).stderr
            == [Banner, CrashPrefix + "Method '" + PyRepr.PyStr(Get(request, "method", Null)) + "' not implemented."]
  {
    var crash := NotImplemented(PyRepr.PyStr(Get(request, "method", Null)));
    DispatchUnknownMethod(request);
    assert Serve(stdin, parse) == Run("", [Banner] + [] + [CrashPrefix + CrashText(crash)], Some(crash), 0);
    assert [Banner] + [] + [CrashPrefix + CrashText(crash)] == [Banner, CrashPrefix + CrashText(crash)];
    var text := "Method '" + PyRepr.PyStr(Get(request, "method", Null)) + "' not implemented.";
    assert CrashPrefix + text == CrashPrefix + "Method '" + PyRepr.PyStr(Get(request, "method", Null)) + "' not implemented.";
  }

  /** Any method but `echo` and `list_tools` is not implemented, and the crash names it by its `str`. */
  lemma DispatchUnknownMethod(request: Fields)
    requires Decoded(Obj(request))
    requires Lookup(request, "method") != Some(Str("echo")) && Lookup(request, "method") != Some(Str("list_tools"))
    ensures Dispatch(Obj(request)) == ([], Failure(NotImplemented(PyRepr.PyStr(Get(request, "method", Null)))))
    ensures CrashText(NotImplemented(PyRepr.PyStr(Get(request, "method", Null))))
            == "Method '" + PyRepr.PyStr(Get(request, "method", Null)) + "' not implemented."
  {
  }
}

=== FILE: strings.dfy ===
/**
 * The Python `str` operations the scripts rely on, over `string` (a sequence
 * of Unicode scalar values, as Python's `str` is a sequence of code points).
 * Case mapping is ASCII-only.
 */
module Strings {
  import opened Wrappers

  /** Characters for which Python's `str.isspace()` holds (also what `strip()` removes). */
  predicate IsSpace(c: char) {
    || c == ' '
    || ('\t' <= c <= '\r')
    || ('\U{1c}' <= c <= '\U{1f}')
    || c == '\U{85}' || c == '\U{a0}' || c == '\U{1680}'
    || ('\U{2000}' <= c <= '\U{200a}')
    || c == '\U{2028}' || c == '\U{2029}' || c == '\U{202f}' || c == '\U{205f}' || c == '\U{3000}'
  }

  predicate IsDigit(c: char) {
    '0' <= c <= '9'
  }

  /** ASCII word characters: what a regular expression's `\w` matches in this model. */
  predicate IsWordChar(c: char) {
    ('a' <= c <= 'z') || ('A' <= c <= 'Z') || IsDigit(c) || c == '_'
  }

  /** A non-empty run of `\w` characters. */
  predicate IsWordName(name: string) {
    |name| > 0 && forall k :: 0 <= k < |name| ==> IsWordChar(name[k])
  }

  /** The length of the run of word characters starting at `i`. */
  function WordRun(s: string, i: nat): (n: nat)
    requires i <= |s|
    ensures i + n <= |s|
    ensures forall k :: i <= k < i + n ==> IsWordChar(s[k])
    ensures i + n < |s| ==> !IsWordChar(s[i + n])
    decreases |s| - i
  {
    if i < |s| && IsWordChar(s[i]) then 1 + WordRun(s, i + 1) else 0
  }

  /** A run of word characters followed by a non-word character is the whole run. */
  lemma {:induction false} WordRunExact(s: string, i: nat, n: nat)
    requires i + n < |s|
    requires forall k :: i <= k < i + n ==> IsWordChar(s[k])
    requires !IsWordChar(s[i + n])
    ensures WordRun(s, i) == n
    decreases n
  {
    if n > 0 {
      WordRunExact(s, i + 1, n - 1);
    }
  }

  function LowerChar(c: char): char {
    if 'A' <= c <= 'Z' then (c as int + 32) as char else c
  }

  function UpperChar(c: char): char {
    if 'a' <= c <= 'z' then (c as int - 32) as char else c
  }

  /** `s.lower()` */
  function Lower(s: string): string {
    seq(|s|, i requires 0 <= i < |s| => LowerChar(s[i]))
  }

  /** `s.upper()` */
  function Upper(s: string): string {
    seq(|s|, i requires 0 <= i < |s| => UpperChar(s[i]))
  }

  /** Lower-casing forgets any earlier upper-casing: `s.upper().lower() == s.lower()`. */
  lemma LowerOfUpper(s: string)
    ensures Lower(Upper(s)) == Lower(s)
  {
    assert forall i :: 0 <= i < |s| ==> LowerChar(UpperChar(s[i])) == LowerChar(s[i]);
  }

  /** Upper-casing is idempotent. */
  lemma UpperIdempotent(s: string)
    ensures Upper(Upper(s)) == Upper(s)
  {
    assert forall i :: 0 <= i < |s| ==> UpperChar(UpperChar(s[i])) == UpperChar(s[i]);
  }

  /** `s.startswith(prefix)` */
  predicate StartsWith(s: string, prefix: string) {
    |prefix| <= |s| && s[..|prefix|] == prefix
  }

  /** `s.endswith(suffix)` */
  predicate EndsWith(s: string, suffix: string) {
    |suffix| <= |s| && s[|s| - |suffix|..] == suffix
  }

  /** `sub` occurs in `s` starting at index `i`. */
  predicate OccursAt(s: string, sub: string, i: int) {
    0 <= i && i + |sub| <= |s| && s[i..i + |sub|] == sub
  }

  /** Occurrences of two strings side by side are an occurrence of their concatenation, and back. */
  lemma OccursAtConcat(s: string, a: string, b: string, i: int)
    ensures OccursAt(s, a + b, i) <==> OccursAt(s, a, i) && OccursAt(s, b, i + |a|)
  {
    if OccursAt(s, a + b, i) {
      assert s[i..i + |a|] == (a + b)[..|a|];
      assert s[i + |a|..i + |a| + |b|] == (a + b)[|a|..];
    }
    if OccursAt(s, a, i) && OccursAt(s, b, i + |a|) {
      assert s[i..i + |a + b|] == s[i..i + |a|] + s[i + |a|..i + |a| + |b|];
    }
  }

  /** An occurrence, character by character. */
  lemma OccursAtIndexwise(s: string, sub: string, i: int)
    requires 0 <= i && i + |sub| <= |s|
    ensures OccursAt(s, sub, i) <==> forall j :: 0 <= j < |sub| ==> s[i + j] == sub[j]
  {
    if forall j :: 0 <= j < |sub| ==> s[i + j] == sub[j] {
      assert s[i..i + |sub|] == sub;
    }
    if OccursAt(s, sub, i) {
      forall j | 0 <= j < |sub| ensures s[i + j] == sub[j] {
        assert s[i..i + |sub|][j] == sub[j];
      }
    }
  }

  /** `s.find(sub, from)`: the first occurrence of `sub` at or after `from`. */
  function IndexFrom(s: string, sub: string, from: nat): (r: Option<nat>)
    ensures r.Some? ==> from <= r.value && OccursAt(s, sub, r.value)
    ensures forall j :: from <= j && (r.None? || j < r.value) ==> !OccursAt(s, sub, j)
    decreases |s| - from
  {
    if from + |sub| > |s| then None
    else if s[from..from + |sub|] == sub then Some(from)
    else IndexFrom(s, sub, from + 1)
  }

  /** `sub in s` */
  predicate Contains(s: string, sub: string) {
    IndexFrom(s, sub, 0).Some?
  }

  lemma ContainsIff(s: string, sub: string)
    ensures Contains(s, sub) <==> exists i :: OccursAt(s, sub, i)
  {
  }

  /** An occurrence inside a prefix, suffix or infix is an occurrence in the whole. */
  lemma OccursInConcat(a: string, b: string, sub: string, i: int)
    ensures OccursAt(a, sub, i) ==> OccursAt(a + b, sub, i)
    ensures OccursAt(b, sub, i) ==> OccursAt(a + b, sub, |a| + i)
  {
    if OccursAt(a, sub, i) {
      assert (a + b)[i..i + |sub|] == a[i..i + |sub|];
    }
    if OccursAt(b, sub, i) {
      assert (a + b)[|a| + i..|a| + i + |sub|] == b[i..i + |sub|];
    }
  }

  lemma ContainsConcat(a: string, b: string, sub: string)
    ensures Contains(a, sub) ==> Contains(a + b, sub)
    ensures Contains(b, sub) ==> Contains(a + b, sub)
  {
    ContainsIff(a, sub);
    ContainsIff(b, sub);
    ContainsIff(a + b, sub);
    if Contains(a, sub) {
      var i :| OccursAt(a, sub, i);
      OccursInConcat(a, b, sub, i);
    }
    if Contains(b, sub) {
      var i :| OccursAt(b, sub, i);
      OccursInConcat(a, b, sub, i);
    }
  }

  /** Removes the leading characters selected by `drop` (`s.lstrip(chars)`). */
  function LStripBy(s: string, drop: char -> bool): (r: string)
    ensures |r| <= |s|
    decreases |s|
  {
    if |s| > 0 && drop(s[0]) then LStripBy(s[1..], drop) else s
  }

  /** Removes the trailing characters selected by `drop` (`s.rstrip(chars)`). */
  function RStripBy(s: string, drop: char -> bool): (r: string)
    ensures |r| <= |s|
    decreases |s|
  {
    if |s| > 0 && drop(s[|s| - 1]) then RStripBy(s[..|s| - 1], drop) else s
  }

  /** `lstrip` keeps a suffix: it drops selected characters only, and stops at the first one it keeps. */
  lemma {:induction false} LStripBySpec(s: string, drop: char -> bool)
    ensures var r := LStripBy(s, drop);
            && r == s[|s| - |r|..]
            && (forall i :: 0 <= i < |s| - |r| ==> drop(s[i]))
            && (|r| > 0 ==> !drop(r[0]))
    decreases |s|
  {
    if |s| > 0 && drop(s[0]) {
      LStripBySpec(s[1..], drop);
      var r := LStripBy(s, drop);
      forall i | 1 <= i < |s| - |r|
        ensures drop(s[i])
      {
        assert s[i] == s[1..][i - 1];
      }
    }
  }

  /** `rstrip` keeps a prefix: it drops selected characters only, and stops at the last one it keeps. */
  lemma {:induction false} RStripBySpec(s: string, drop: char -> bool)
    ensures var r := RStripBy(s, drop);
            && r == s[..|r|]
            && (forall i :: |r| <= i < |s| ==> drop(s[i]))
            && (|r| > 0 ==> !drop(r[|r| - 1]))
    decreases |s|
  {
    if |s| > 0 && drop(s[|s| - 1]) {
      RStripBySpec(s[..|s| - 1], drop);
      var r := RStripBy(s, drop);
      forall i | |r| <= i < |s| - 1
        ensures drop(s[i])
      {
        assert s[i] == s[..|s| - 1][i];
      }
    }
  }

  /** `s.strip()` */
  function Strip(s: string): string {
    RStripBy(LStripBy(s, IsSpace), IsSpace)
  }

  /** `s.lstrip(chars)` */
  function LStripChars(s: string, chars: string): string {
    LStripBy(s, c => c in chars)
  }

  /** `s.strip(chars)` */
  function StripChars(s: string, chars: string): string {
    RStripBy(LStripBy(s, c => c in chars), c => c in chars)
  }

  /** `s.strip()` keeps the piece `s[a..b]` of `s`: everything before `a` and from `b` on is white space, and the piece neither starts nor ends with white space. */
  lemma StripSpec(s: string) returns (a: nat, b: nat)
    ensures a <= b <= |s| && Strip(s) == s[a..b]
    ensures forall i :: 0 <= i < a ==> IsSpace(s[i])
    ensures forall i :: b <= i < |s| ==> IsSpace(s[i])
    ensures a < b ==> !IsSpace(s[a]) && !IsSpace(s[b - 1])
  {
    var l := LStripBy(s, IsSpace);
    var r := RStripBy(l, IsSpace);
    LStripBySpec(s, IsSpace);
    RStripBySpec(l, IsSpace);
    a := |s| - |l|;
    b := a + |r|;
    assert l == s[a..];
    assert r == l[..|r|];
    forall i | b <= i < |s|
      ensures IsSpace(s[i])
    {
      assert s[i] == l[i - a];
    }
  }

  /** A text that starts and ends with a non-space is its own strip. */
  lemma StripUnchanged(s: string)
    requires |s| > 0 && !IsSpace(s[0]) && !IsSpace(s[|s| - 1])
    ensures Strip(s) == s
  {
  }

  /** `s.split(sep)` for a non-empty separator: the pieces between successive leftmost occurrences. */
  function Split(s: string, sep: string): (parts: seq<string>)
    requires |sep| > 0
    ensures |parts| > 0
    decreases |s|
  {
    match IndexFrom(s, sep, 0)
    case None => [s]
    case Some(i) => [s[..i]] + Split(s[i + |sep|..], sep)
  }

  /** `sep.join(parts)` */
  function Join(parts: seq<string>, sep: string): string
    decreases |parts|
  {
    if |parts| == 0 then ""
    else if |parts| == 1 then parts[0]
    else parts[0] + sep + Join(parts[1..], sep)
  }

  /** Joining the pieces of a split with the same separator restores the text. */
  lemma {:induction false} JoinSplit(s: string, sep: string)
    requires |sep| > 0
    ensures Join(Split(s, sep), sep) == s
    decreases |s|
  {
    match IndexFrom(s, sep, 0)
    case None =>
    case Some(i) =>
      var rest := s[i + |sep|..];
      JoinSplit(rest, sep);
      JoinCons(s[..i], Split(rest, sep), sep);
      assert s == s[..i] + sep + rest;
  }

  lemma JoinCons(x: string, parts: seq<string>, sep: string)
    requires |parts| > 0
    ensures Join([x] + parts, sep) == x + sep + Join(parts, sep)
  {
    assert ([x] + parts)[1..] == parts;
  }

  /** When `a` lacks the separator's first character, the first occurrence in `a + sep + b` is at `|a|`. */
  lemma FirstOccurrenceAfter(a: string, sep: string, b: string)
    requires |sep| > 0 && sep[0] !in a
    ensures IndexFrom(a + sep + b, sep, 0) == Some(|a|)
  {
    var s := a + sep + b;
    assert OccursAt(s, sep, |a|) by {
      assert s[|a|..|a| + |sep|] == sep;
    }
    forall j | 0 <= j < |a|
      ensures !OccursAt(s, sep, j)
    {
      assert s[j] == a[j];
    }
  }

  lemma NoOccurrence(a: string, sep: string)
    requires |sep| > 0 && sep[0] !in a
    ensures IndexFrom(a, sep, 0) == None
  {
    forall i | 0 <= i && i + |sep| <= |a|
      ensures !OccursAt(a, sep, i)
    {
      assert a[i..i + |sep|][0] == a[i];
    }
  }

  /** A piece without the separator's first character splits off first. */
  lemma SplitCons(a: string, sep: string, b: string)
    requires |sep| > 0 && sep[0] !in a
    ensures Split(a + sep + b, sep) == [a] + Split(b, sep)
  {
    FirstOccurrenceAfter(a, sep, b);
    var s := a + sep + b;
    assert s[..|a|] == a;
    assert s[|a| + |sep|..] == b;
  }

  /**
   * Splitting undoes joining when the separator is one character that no piece
   * contains: the line structure of a joined text is exactly its pieces.
   */
  lemma {:induction false} SplitJoin(parts: seq<string>, sep: string)
    requires |sep| == 1 && |parts| > 0
    requires forall k :: 0 <= k < |parts| ==> sep[0] !in parts[k]
    ensures Split(Join(parts, sep), sep) == parts
    decreases |parts|
  {
    if |parts| == 1 {
      NoOccurrence(parts[0], sep);
    } else {
      SplitCons(parts[0], sep, Join(parts[1..], sep));
      SplitJoin(parts[1..], sep);
    }
  }

  /** A join ends with its last piece's last character. */
  lemma {:induction false} JoinLast(parts: seq<string>, sep: string)
    requires |parts| > 0 && |parts[|parts| - 1]| > 0
    ensures var s := Join(parts, sep);
            |s| > 0 && s[|s| - 1] == parts[|parts| - 1][|parts[|parts| - 1]| - 1]
    decreases |parts|
  {
    if |parts| > 1 {
      JoinLast(parts[1..], sep);
    }
  }

  /** A join starts with its first piece's first character and ends with its last piece's last character. */
  lemma JoinEnds(parts: seq<string>, sep: string)
    requires |parts| > 0 && |parts[0]| > 0 && |parts[|parts| - 1]| > 0
    ensures var s := Join(parts, sep);
            |s| > 0 && s[0] == parts[0][0] && s[|s| - 1] == parts[|parts| - 1][|parts[|parts| - 1]| - 1]
  {
    JoinLast(parts, sep);
  }

  /** A character absent from a text is absent from every piece of its split. */
  lemma {:induction false} CharNotInSplit(s: string, sep: string, c: char)
    requires |sep| > 0 && c !in s
    ensures forall k :: 0 <= k < |Split(s, sep)| ==> c !in Split(s, sep)[k]
    decreases |s|
  {
    match IndexFrom(s, sep, 0)
    case None =>
    case Some(i) =>
      var rest := s[i + |sep|..];
      assert forall j :: 0 <= j < |rest| ==> rest[j] == s[i + |sep| + j];
      assert forall j :: 0 <= j < i ==> s[..i][j] == s[j];
      CharNotInSplit(rest, sep, c);
      assert Split(s, sep) == [s[..i]] + Split(rest, sep);
  }

  /** The first piece of a split on a one-character separator does not contain it. */
  lemma SplitFirstPiece(s: string, sep: string)
    requires |sep| == 1
    ensures sep[0] !in Split(s, sep)[0]
  {
    var r := IndexFrom(s, sep, 0);
    var n := if r.Some? then r.value else |s|;
    assert Split(s, sep)[0] == s[..n];
    forall j | 0 <= j < n
      ensures s[j] != sep[0]
    {
      assert !OccursAt(s, sep, j);
    }
  }

  /** Joining pieces and a separator that all lack a character gives a text that lacks it. */
  lemma {:induction false} CharNotInJoin(parts: seq<string>, sep: string, c: char)
    requires c !in sep && forall k :: 0 <= k < |parts| ==> c !in parts[k]
    ensures c !in Join(parts, sep)
    decreases |parts|
  {
    if |parts| > 1 {
      CharNotInJoin(parts[1..], sep, c);
    }
  }

  /** Stripping never introduces a character. */
  lemma CharNotInStrip(s: string, c: char)
    requires c !in s
    ensures c !in Strip(s)
  {
    var a, b := StripSpec(s);
    assert forall j :: 0 <= j < b - a ==> s[a..b][j] == s[a + j];
  }

  /** `s.partition(sep)` when `sep` occurs: the text before and after its first occurrence. */
  function Partition(s: string, sep: string): (r: Option<(string, string)>)
    ensures r.Some? ==> s == r.value.0 + sep + r.value.1
    ensures r.Some? ==> forall j :: 0 <= j < |r.value.0| ==> !OccursAt(s, sep, j)
    ensures r.None? <==> forall j :: !OccursAt(s, sep, j)
  {
    match IndexFrom(s, sep, 0)
    case None => None
    case Some(i) =>
      assert s == s[..i] + sep + s[i + |sep|..];
      Some((s[..i], s[i + |sep|..]))
  }

  /** `s.replace(target, replacement)`: every leftmost non-overlapping occurrence replaced. */
  function Replace(s: string, target: string, replacement: string): string
    requires |target| > 0
  {
    Join(Split(s, target), replacement)
  }

  function DigitChar(d: nat): (c: char)
    requires d < 10
    ensures IsDigit(c)
  {
    ('0' as int + d) as char
  }

  /** A lower-case hexadecimal digit. */
  function HexDigit(d: nat): (c: char)
    requires d < 16
    ensures ' ' <= c <= '~'
  {
    if d < 10 then DigitChar(d) else ('a' as int + d - 10) as char
  }

  /** `str(n)` for a natural number. */
  function NatToString(n: nat): (r: string)
    ensures |r| > 0
    ensures forall i :: 0 <= i < |r| ==> IsDigit(r[i])
    decreases n
  {
    if n < 10 then [DigitChar(n)] else NatToString(n / 10) + [DigitChar(n % 10)]
  }

  /** `str(i)` for an integer. */
  function IntToString(i: int): string {
    if i < 0 then "-" + NatToString(-i) else NatToString(i)
  }

  /** The value of a string of decimal digits. */
  function DigitsValue(s: string): nat
    requires forall i :: 0 <= i < |s| ==> IsDigit(s[i])
    decreases |s|
  {
    if |s| == 0 then 0
    else
      assert IsDigit(s[|s| - 1]);
      DigitsValue(s[..|s| - 1]) * 10 + (s[|s| - 1] as int - '0' as int)
  }

  /** Reading back the decimal rendering of `n` gives `n`. */
  lemma {:induction false} NatToStringRoundTrip(n: nat)
    ensures DigitsValue(NatToString(n)) == n
    decreases n
  {
    if n >= 10 {
      NatToStringRoundTrip(n / 10);
      var s := NatToString(n);
      assert s[..|s| - 1] == NatToString(n / 10);
    }
  }

  /** Distinct numbers have distinct decimal renderings. */
  lemma NatToStringInjective(a: nat, b: nat)
    requires NatToString(a) == NatToString(b)
    ensures a == b
  {
    NatToStringRoundTrip(a);
    NatToStringRoundTrip(b);
  }
}

=== FILE: tool_server.dfy ===
/**
 * The two tool endpoints of `day10/server.py`: a directory listing and a
 * toy SQL endpoint that answers any `SELECT` with two fixed rows.
 *
 * The filesystem is an oracle: `os.listdir` and `os.path.isdir` are
 * parameters.
 */
module ToolServer {
  import opened Wrappers
  import opened Strings
  import opened Json
  import opened Web

  // ----------------------------------------------------------------------
  // POST /tools/db/query
  // ----------------------------------------------------------------------

  const SampleRows: seq<Json> := [
    Obj([("id", Num(1)), ("name", Str("Alice")), ("email", Str("alice@example.com"))]),
    Obj([("id", Num(2)), ("name", Str("Bob")), ("email", Str("bob@example.com"))])
  ]

  const Unsupported: string := "unsupported or unsafe query"

  /** `db_query()` on the request's JSON body. */
  function DbQuery(json: Json): (r: Reply)
    ensures r.Reply? ==> r.status == 200 || r == Reply(400, ErrorObject(Unsupported))
    ensures r.Reply? && r.status == 200 ==> r.body == Obj([("ok", Bool(true)), ("rows", Arr(SampleRows))])
  {
    var data := BodyOrEmpty(json);
    if !data.Obj? then InternalError(NoGet(data))
    else
      match Get(data.fields, "sql", Str(""))
      case Str(sql) =>
        if Contains(Lower(sql), "select") then Reply(200, Obj([("ok", Bool(true)), ("rows", Arr(SampleRows))]))
        else Reply(400, ErrorObject(Unsupported))
      case other => InternalError("'" + TypeName(other) + "' object has no attribute 'lower'")
  }

  /** The query text of a body `{"sql": q}`. */
  function SqlBody(q: string): Json {
    Obj([("sql", Str(q))])
  }

  /** A query is served exactly when it mentions `select` in any case; every other query is refused with 400. */
  lemma DbQueryAcceptsSelect(q: string)
    ensures DbQuery(SqlBody(q)).Reply?
    ensures DbQuery(SqlBody(q)).status == 200 <==> Contains(Lower(q), "select")
    ensures !Contains(Lower(q), "select") ==> DbQuery(SqlBody(q)) == Reply(400, ErrorObject(Unsupported))
  {
    LastIndexAt([("sql", Str(q))], "sql", 0);
  }

  /** Matching ignores case: `SELECT * ...` is served like `select * ...`. */
  lemma DbQueryIgnoresCase(q: string)
    ensures DbQuery(SqlBody(Upper(q))) == DbQuery(SqlBody(q))
  {
    LastIndexAt([("sql", Str(q))], "sql", 0);
    LastIndexAt([("sql", Str(Upper(q)))], "sql", 0);
    LowerOfUpper(q);
  }

  /** A body without `sql` (or no body at all) is refused, not served. */
  lemma DbQueryMissingSql(json: Json)
    requires json == Null || (json.Obj? && "sql" !in KeySet(json.fields))
    ensures DbQuery(json) == Reply(400, ErrorObject(Unsupported))
  {
    if json.Obj? {
      assert LastIndex(json.fields, "sql").None?;
    }
    assert Lower("") == "";
    assert !Contains("", "select");
  }

  // ----------------------------------------------------------------------
  // POST /tools/filesystem/list
  // ----------------------------------------------------------------------

  /** `os.listdir(path)`: the entry names, or the text of the `OSError` / `TypeError`. */
  type ListDir = Json -> Result<seq<string>, string>

  /** `os.path.isdir(os.path.join(path, name))` */
  type IsDir = (string, string) -> bool

  function Entry(isDir: IsDir, path: string, name: string): Json {
    Obj([("name", Str(name)), ("is_dir", Bool(isDir(path, name)))])
  }

  function Entries(isDir: IsDir, path: string, names: seq<string>): (r: seq<Json>)
    ensures |r| == |names|
    ensures forall i :: 0 <= i < |names| ==> r[i] == Entry(isDir, path, names[i])
  {
    seq(|names|, i requires 0 <= i < |names| => Entry(isDir, path, names[i]))
  }

  /**
   * `list_files()`: `path` defaults to `"."`. A listing failure is reported
   * with status 400; so is `os.path.join` on a non-string path, which only
   * happens when the listing has an entry to join.
   */
  function ListFiles(listDir: ListDir, isDir: IsDir, json: Json): (r: Reply)
    ensures r.Reply? ==> r.status == 200 || r.status == 400
    ensures r.Reply? && r.status == 400 ==> r.body.Obj? && Keys(r.body.fields) == ["ok", "error"]
  {
    var data := BodyOrEmpty(json);
    if !data.Obj? then InternalError(NoGet(data))
    else
      var path := Get(data.fields, "path", Str("."));
      match listDir(path)
      case Failure(e) => Reply(400, ErrorObject(e))
      case Success(names) =>
        if path.Str? then Reply(200, Obj([("ok", Bool(true)), ("files", Arr(Entries(isDir, path.s, names)))]))
        else if |names| == 0 then Reply(200, Obj([("ok", Bool(true)), ("files", Arr([]))]))
        else Reply(400, ErrorObject("expected str, bytes or os.PathLike object, not " + TypeName(path)))
  }

  /** Without a body, or without `path`, the current directory is listed. */
  lemma ListFilesDefaultPath(listDir: ListDir, isDir: IsDir, json: Json)
    requires json == Null || (json.Obj? && "path" !in KeySet(json.fields))
    ensures ListFiles(listDir, isDir, json) == ListFiles(listDir, isDir, Obj([("path", Str("."))]))
  {
    LastIndexAt([("path", Str("."))], "path", 0);
    if json.Obj? {
      assert LastIndex(json.fields, "path").None?;
    }
  }

  /**
   * For a string path, success lists one `{name, is_dir}` entry per name in
   * the listing's order; a failing listing is a 400 carrying its message.
   */
  lemma ListFilesOutcome(listDir: ListDir, isDir: IsDir, path: string)
    ensures var r := ListFiles(listDir, isDir, Obj([("path", Str(path))]));
            match listDir(Str(path))
            case Success(names) =>
              r == Reply(200, Obj([("ok", Bool(true)), ("files", Arr(Entries(isDir, path, names)))]))
            case Failure(e) => r == Reply(400, ErrorObject(e))
  {
    LastIndexAt([("path", Str(path))], "path", 0);
  }
}

=== FILE: web.dfy ===
/** What a Flask view returns, the request body it reads, and the HTTP client the scripts call. */
module Web {
  import opened Wrappers
  import opened Json

  /**
   * `jsonify(body), status`, or the 500 Flask sends when the view raises
   * (with the text of the exception). The serialisation of `body` is not
   * modelled.
   */
  datatype Reply = Reply(status: int, body: Json) | InternalError(error: string)

  /** `request.json or {}`: a falsy body becomes an empty object. */
  function BodyOrEmpty(json: Json): (r: Json)
    ensures Truthy(json) ==> r == json
    ensures !Truthy(json) ==> r == Obj([])
  {
    if Truthy(json) then json else Obj([])
  }

  /** The `AttributeError` of `data.get(...)` on anything but a dict. */
  function NoGet(j: Json): string {
    "'" + TypeName(j) + "' object has no attribute 'get'"
  }

  /**
   * `requests.post(url, json=payload)` followed by `raise_for_status()` and
   * `.json()`: the decoded body, or the text of the `RequestException`
   * (a connection failure, an error status, or a body that is not JSON).
   */
  type Post = (string, Json) -> Result<Loaded, string>
}

=== FILE: wrappers.dfy ===
/** Failure-carrying datatypes shared by every module of the model. */
module Wrappers {

  /** A value that may be absent (Python's `None` / a missing dictionary key). */
  datatype Option<+T> = None | Some(value: T) {
    function GetOr(default: T): T {
      match this
      case Some(v) => v
      case None => default
    }
  }

  /** Either a value or an error description (a caught Python exception). */
  datatype Result<+R, +E> = Success(value: R) | Failure(error: E)
}
